=== FILE: README.md ===
# Bank portfolio core, modelled in Dafny

This project models three parts of the Bank_portfolio Django application. For each one it proves what the code promises.

- **The `seed_portfolio` management command.** It asks a text generator for mock bank applications and integrations, in batches with retries. It cleans the generated JSON and normalises every record. Then it writes applications, capabilities, technical-debt items and integrations to the database. A final ring pass gives every application at least one inbound and one outbound integration.
- **The two diagram views.** `application_mermaid` builds the Mermaid flowchart of one application's neighbourhood. `application_mermaid_llm` has the generator draw the diagram, check it, repair it once and check it again, behind a per-client rate limit.
- **The question-and-answer views.** `qa_view` keeps the last question and answer in the session. It links every "Application ID: n" the answer mentions to that application. `llm_ask` is the JSON endpoint that describes one application.

Pure helpers are functions with lemmas, such as the text helpers, the sanitiser, the normalisers, the id extraction and the join. Code that updates state in place is imperative:

- the database is the class `Portfolio.Store`, with one `seq` field per table;
- the rate-limit cache is `KeyCache.Cache`;
- the session is `QaView.Session`;
- the loops of the command are methods with invariants, each proved equal to a specification function.

Some inputs are not modelled as code. Each becomes a parameter:

- the text generator (`Llm.Oracle`, answering the k-th call of a request);
- `json.loads` (`JsonValues.Loads`);
- every random call (`Rand.Draws`, oracle numbers mapped into the range the call promises).

| file | module | models |
|---|---|---|
| wrappers.dfy | `Wrappers` | Option, Result, the Python exceptions that matter |
| py_text.dfy | `PyText` | `strip`, `\s+` collapsing, `lower`, `find`/`rfind`, `str(int)`, `int(str)` |
| json_values.dfy | `JsonValues` | JSON field values, truthiness, `str()`, `int()`, `data.get(key, []) or []` |
| llm.dfy | `Llm` | `ask_llm` as an oracle; the prompts by the data they carry |
| rand.dfy | `Rand` | `random.choice`, `randint`, `sample` |
| cache.dfy | `KeyCache` | the cache's rate-limit markers |
| seed_helpers.dfy | `SeedHelpers` | the allowed sets and pools, `_norm`, `_clean_str`, `_clean_text`, `_pick`, `_severity_from_debt_score` |
| sanitizer.dfy | `Sanitizer` | `_strip_code_fences`, `_extract_json_object`, `_repair_json_with_llm`, `_parse_json_robust` |
| normalizer.dfy | `Normalizer` | `_dedupe_apps_keep_order`, `_normalize_app`, `_normalize_integration`, `_fallback_integrations` |
| portfolio.dfy | `Portfolio` | the tables and every write of `handle` |
| seed_command.dfy | `SeedCommand` | options, the two generation loops as functions, truncation, normalisation |
| seed_run.dfy | `SeedRun` | the loops and `handle` as methods |
| mermaid.dfy | `MermaidView` | `application_mermaid`, `application_mermaid_llm` |
| qa.dfy | `QaView` | `qa_view`, `llm_ask`, the id extraction and the join |

## Model

| member | source | states |
|---|---|---|
| PyText.Strip | applications/management/commands/seed_portfolio.py:58 | `str.strip()` leaves no whitespace at either end and never lengthens the text |
| PyText.StripSplit | applications/management/commands/seed_portfolio.py:58 | stripping is left-stripping after right-stripping |
| PyText.StripKeepsOut | applications/management/commands/seed_portfolio.py:58 | stripping adds no character that the text lacks |
| PyText.StripOfStripped | applications/views/mermaid.py:128 | stripping an already stripped text changes nothing, so the second strip of the repaired diagram is harmless |
| PyText.StripAround | applications/management/commands/seed_portfolio.py:58 | stripping removes exactly the whitespace around a core that does not start or end with whitespace |
| PyText.LStrip | applications/management/commands/seed_portfolio.py:92 | the suffix left after the leading whitespace; it starts with a non-space or is empty |
| PyText.RStrip | applications/management/commands/seed_portfolio.py:93 | the prefix left before the trailing whitespace; it ends with a non-space or is empty |
| PyText.CollapseSpaces | applications/management/commands/seed_portfolio.py:66 | `re.sub(r"\s+", " ", s)` is single-spaced, never longer, empty only for empty input, and starts with whitespace only when the input does |
| PyText.Take | applications/management/commands/seed_portfolio.py:67 | `s[:n]` is a prefix of length min(n, len(s)) |
| PyText.Lower | applications/management/commands/seed_portfolio.py:159 | `.lower()` keeps the length and lowers each character |
| PyText.LowerIdempotent | applications/management/commands/seed_portfolio.py:159 | lowering a lowered name changes nothing, so the dedup key is stable |
| PyText.LatinExtendedALower | applications/management/commands/seed_portfolio.py:159 | a Latin Extended-A character lowers to itself, to the next code point, or (Ÿ only) to ÿ, always within 0xFF..0x17F |
| PyText.LatinExtendedAPairs | applications/management/commands/seed_portfolio.py:159 | a character moves to the next code point exactly when it is a capital of the even/odd or odd/even pair ranges |
| PyText.LatinExtendedALowerStable | applications/management/commands/seed_portfolio.py:159 | a small letter of the block lowers to itself |
| PyText.CzechCapitalsLower | applications/management/commands/seed_portfolio.py:159 | Č Ď Ě Ň Ř Š Ť Ů Ž lower to č ď ě ň ř š ť ů ž |
| PyText.Find | applications/management/commands/seed_portfolio.py:107 | `find` gives -1 exactly when the character is absent, otherwise its first index |
| PyText.RFind | applications/management/commands/seed_portfolio.py:108 | `rfind` gives -1 exactly when the character is absent, otherwise its last index |
| PyText.FindIs | applications/management/commands/seed_portfolio.py:107 | an occurrence with none before it is what `find` returns |
| PyText.RFindIs | applications/management/commands/seed_portfolio.py:108 | an occurrence with none after it is what `rfind` returns |
| PyText.JoinLength | applications/management/commands/seed_portfolio.py:261 | `", ".join` of parts of at most m characters is at most (m + 2) per part |
| PyText.NatToDecimal | applications/views/pages/qa.py:105 | `str(n)` is digits without a leading zero |
| PyText.NatDecimalRoundTrip | applications/views/pages/qa.py:105 | the digits of `str(n)` denote n |
| PyText.NatToDecimalInjective | applications/views/pages/qa.py:105 | different ids print differently, so `by_id` has one key per application |
| PyText.IntDecimalRoundTrip | applications/management/commands/seed_portfolio.py:240 | `int(str(i)) == i` for every integer |
| PyText.ParseInt | applications/management/commands/seed_portfolio.py:240 | `int(s)` succeeds only on a text that is not blank once stripped |
| PyText.GroupedParse | applications/management/commands/seed_portfolio.py:272 | `int("1_000") == int("1000")`: one underscore between digit runs changes nothing |
| PyText.ParseGroups | applications/management/commands/seed_portfolio.py:272 | digit groups are read as the number their digits spell |
| PyText.ParseUnsigned | applications/management/commands/seed_portfolio.py:240 | a run of digits is read as the number it spells |
| PyText.ParseSigned | applications/management/commands/seed_portfolio.py:240 | a minus sign before digits negates the number |
| PyText.ParsePlus | applications/management/commands/seed_portfolio.py:240 | a plus sign before digits is accepted and keeps the number |
| PyText.ParseIntShape | applications/management/commands/seed_portfolio.py:240 | an accepted text, once stripped, ends with a digit, starts with a digit or one sign and a digit, and has no doubled underscore |
| PyText.ParseIntRejects | applications/management/commands/seed_portfolio.py:240 | `int()` raises on "1__0", "_1", "1_" and "+-1" |
| PyText.DropUnderscores | applications/management/commands/seed_portfolio.py:240 | dropping the underscores of a digit run leaves digits, and leaves plain digits unchanged |
| JsonValues.Truncate | applications/management/commands/seed_portfolio.py:272 | `int()` of a finite float truncates toward zero |
| JsonValues.IntOf | applications/management/commands/seed_portfolio.py:272 | `int(v)`: ints unchanged, strings parsed, finite floats truncated, NaN a ValueError, an infinity an OverflowError, None and containers a TypeError |
| JsonValues.IntOrZero | applications/management/commands/seed_portfolio.py:240 | `int(v or 0)` is 0 for a falsy value, `int(v)` otherwise, and raises exactly for a malformed string, a NaN or infinite float, or a non-empty container |
| JsonValues.QuotedNumberReadsBack | applications/management/commands/seed_portfolio.py:240 | a number written as a quoted decimal string reads back as that number |
| JsonValues.BatchOf | applications/management/commands/seed_portfolio.py:353 | `data.get(key, []) or []` gives [] for a missing key and raises AttributeError when `data` is not a dict |
| Rand.Choice | applications/management/commands/seed_portfolio.py:77 | `random.choice` returns a member of the pool |
| Rand.RandInt | applications/management/commands/seed_portfolio.py:438 | `random.randint(lo, hi)` lies between both ends inclusive |
| Rand.Sample | applications/management/commands/seed_portfolio.py:285 | `random.sample(pool, k)` returns k members of the pool, distinct when the pool is |
| Rand.Without | applications/management/commands/seed_portfolio.py:285 | drawing without replacement removes the drawn member |
| KeyCache.Cache.Set | applications/views/mermaid.py:116 | `cache.set(key, True, timeout)` adds or overwrites the key's marker and nothing else |
| KeyCache.Cache.constructor | applications/views/mermaid.py:110 | a cache starts with the given markers |
| SeedHelpers.Norm | applications/management/commands/seed_portfolio.py:55-59 | `_norm` returns an allowed value or the fallback; None gives the fallback; any other result is the stripped `str(v)` |
| SeedHelpers.NormStaysInSet | applications/management/commands/seed_portfolio.py:55-59 | with an allowed fallback, the result is always allowed |
| SeedHelpers.NormKeepsAllowed | applications/management/commands/seed_portfolio.py:58-59 | an allowed value with whitespace around it normalises to itself |
| SeedHelpers.CleanStr | applications/management/commands/seed_portfolio.py:62-67 | `_clean_str`: None gives the fallback; otherwise no leading whitespace, single spaces, at most max_len characters when max_len > 0, never longer than `str(v)` |
| SeedHelpers.CleanStrFixedPoint | applications/management/commands/seed_portfolio.py:62-67 | a stripped, single-spaced text that fits is its own cleaning |
| SeedHelpers.CollapseSingleSpaced | applications/management/commands/seed_portfolio.py:66 | collapsing whitespace leaves a single-spaced text unchanged |
| SeedHelpers.CleanText | applications/management/commands/seed_portfolio.py:70-74 | `_clean_text`: None gives the fallback; otherwise the stripped text cut to max_len |
| SeedHelpers.Pick | applications/management/commands/seed_portfolio.py:76-77 | `_pick` gives a pool member, or the fallback for an empty pool |
| SeedHelpers.SeverityFromDebtScore | applications/management/commands/seed_portfolio.py:80-87 | Critical iff score ≥ 80, High iff 60 ≤ score < 80, Medium iff 30 ≤ score < 60, Low iff score < 30 |
| SeedHelpers.SeverityMonotonic | applications/management/commands/seed_portfolio.py:80-87 | a higher score never gives a lower severity |
| SeedHelpers.SeverityExamples | applications/management/commands/seed_portfolio.py:80-87 | the boundaries 80, 60 and 30 fall in the higher tier |
| Sanitizer.DropLang | applications/management/commands/seed_portfolio.py:92 | the `[a-zA-Z0-9_-]*` run after the opening fence is removed, leaving a suffix |
| Sanitizer.StripCodeFences | applications/management/commands/seed_portfolio.py:89-94 | the result is stripped and never longer; a text not starting with ``` is only stripped |
| Sanitizer.FencesAddNothing | applications/management/commands/seed_portfolio.py:89-94 | removing fences adds no character |
| Sanitizer.FenceRoundTrip | applications/management/commands/seed_portfolio.py:89-94 | a fenced block with any language tag gives back exactly its stripped body |
| Sanitizer.OpeningRemoved | applications/management/commands/seed_portfolio.py:92 | removing the opening fence, tag and whitespace drops at least the three backticks |
| Sanitizer.Span | applications/management/commands/seed_portfolio.py:107-116 | the span from the first opening to the last closing bracket exists exactly when the first comes before the last, and is delimited by them |
| Sanitizer.SpanBounds | applications/management/commands/seed_portfolio.py:107-109 | a span exists iff `find` of the opener is not -1 and `rfind` of the closer is after it |
| Sanitizer.ExtractJsonObject | applications/management/commands/seed_portfolio.py:97-118 | prefers the `{…}` span, then the `[…]` span, and raises ValueError exactly when neither exists |
| Sanitizer.NoBracketNoJson | applications/management/commands/seed_portfolio.py:118 | a text with no `{` and no `[` raises |
| Sanitizer.ExtractFindsObject | applications/management/commands/seed_portfolio.py:104-110 | an object with no brace before or after it is extracted exactly |
| Sanitizer.FencedObjectExtracted | applications/management/commands/seed_portfolio.py:104-110 | an object in a fenced block is extracted exactly |
| Sanitizer.FencedExample | applications/management/commands/seed_portfolio.py:97-118 | a fenced `{"a":1}` extracts to `{"a":1}` |
| Sanitizer.SameUnfenced | applications/management/commands/seed_portfolio.py:104 | extraction depends only on the unfenced text |
| Sanitizer.Wrap | applications/management/commands/seed_portfolio.py:139-140 | a top-level list is wrapped under "applications" |
| Sanitizer.ParseJsonRobust | applications/management/commands/seed_portfolio.py:131-150 | no prompt when extraction fails (an error) or when the extracted part loads as a list or a dict (the wrapped value); otherwise exactly the one repair prompt for that part; a success is never a list or invalid |
| Sanitizer.Repair | applications/management/commands/seed_portfolio.py:121-128 | the repair sends exactly one prompt with the bad part, and a failed call raises its error |
| Sanitizer.WrappedListIsApplications | applications/management/commands/seed_portfolio.py:140 | a list answer reaches the applications loop whole |
| Sanitizer.WrappedListHasNoIntegrations | applications/management/commands/seed_portfolio.py:484 | a list answer to an integrations prompt yields no integrations |
| Normalizer.Clamp | applications/management/commands/seed_portfolio.py:240 | `max(0, min(100, x))` lies in [0, 100] and keeps values inside it |
| Normalizer.DedupeAppsKeepOrder | applications/management/commands/seed_portfolio.py:153-166 | raises on an item without `.get`; otherwise distinct case-insensitive names, every named input's key kept, each kept item named and from the input, at increasing input positions, and no earlier input with the same key |
| Normalizer.AppName | applications/management/commands/seed_portfolio.py:158 | the name an application is compared by: `_clean_str` to 200 characters, then stripped; "" when the name is missing |
| Normalizer.NameKey | applications/management/commands/seed_portfolio.py:159 | the lowered name, as long as the name; lowering it again changes nothing, so the key is stable |
| Normalizer.KeepFirst | applications/management/commands/seed_portfolio.py:155-165 | keep-first deduplication, never longer than its input; order, distinctness, completeness and provenance are the KeepFirst lemmas below |
| Normalizer.KeptAt | applications/management/commands/seed_portfolio.py:155-165 | one input position per kept element; `KeepFirstOrder` shows the positions increase and point at the kept inputs |
| Normalizer.Dedupe | applications/management/commands/seed_portfolio.py:153-166 | an AttributeError exactly when some item is not a dict; otherwise no more items than the input |
| Normalizer.DedupeFacts | applications/management/commands/seed_portfolio.py:153-166 | the deduplicated list has distinct keys, keeps every named key, holds only named inputs, at increasing first-occurrence positions |
| Normalizer.KeepFirstOrder | applications/management/commands/seed_portfolio.py:155-165 | the kept items are the inputs at strictly increasing positions, each the first named one with its key |
| Normalizer.KeepFirstDistinct | applications/management/commands/seed_portfolio.py:162-164 | no two kept items share a key |
| Normalizer.KeepFirstComplete | applications/management/commands/seed_portfolio.py:157-165 | every named item's key is among the kept ones |
| Normalizer.KeepFirstFromInput | applications/management/commands/seed_portfolio.py:165 | every kept item is a named input |
| Normalizer.KeepFirstStep | applications/management/commands/seed_portfolio.py:157-165 | one more input is appended or skipped |
| Normalizer.VendorFallback | applications/management/commands/seed_portfolio.py:261 | the fallback vendor products fit the 500-character field |
| Normalizer.VendorFallbackShape | applications/management/commands/seed_portfolio.py:261 | the fallback is 1 to 3 distinct pool products joined by ", " |
| Normalizer.NormalizeApp | applications/management/commands/seed_portfolio.py:239-263 | raises on a non-dict or a bad score; otherwise `ValidApp`: every enumerated field allowed, the score in 0..100, every length bound met; score clamped, cleaned name kept, and pool fallbacks for missing owners, database and products |
| Normalizer.PoolLengths | applications/management/commands/seed_portfolio.py:24-50 | every pool value fits the field it falls back into |
| Normalizer.NormalizeIntegration | applications/management/commands/seed_portfolio.py:266-277 | raises on a non-dict or a bad volume; otherwise `ValidIntegration`: allowed labels, the length bounds; the cleaned endpoint names, `int(volume or 0)`, pool fallbacks for transport and frequency |
| Normalizer.FallbackPair | applications/management/commands/seed_portfolio.py:285 | both endpoints come from the names and differ when the names do |
| Normalizer.FallbackFor | applications/management/commands/seed_portfolio.py:283-298 | one fallback record: both endpoint names come from the application names, and differ when the names are distinct |
| Normalizer.FallbackIntegrations | applications/management/commands/seed_portfolio.py:280-299 | [] with fewer than two names, otherwise exactly n records, the k-th from the k-th draws |
| Normalizer.FallbackNormalizes | applications/management/commands/seed_portfolio.py:286-298 | a fallback record normalises to its own endpoints and labels |
| Normalizer.NormalizedEndpoints | applications/management/commands/seed_portfolio.py:268-269 | clean endpoint names are kept |
| Normalizer.NormalizedLabels | applications/management/commands/seed_portfolio.py:270-273 | allowed labels and an int volume are kept |
| Normalizer.AllowedAreStripped | applications/management/commands/seed_portfolio.py:16-22 | the allowed values have no surrounding whitespace |
| Portfolio.NewId | applications/management/commands/seed_portfolio.py:406 | a created application's id exceeds every existing id |
| Portfolio.NamedAt | applications/management/commands/seed_portfolio.py:406 | the rows with a given name are exactly the listed positions |
| Portfolio.AtMostOneNamed | applications/management/commands/seed_portfolio.py:406 | with distinct names, at most one row matches |
| Portfolio.UpsertApp | applications/management/commands/seed_portfolio.py:406-423 | `get_or_create(name=…)` raises iff two rows share the name; otherwise it adds a row only for a new name, rewrites the named row's columns, and keeps ids ordered |
| Portfolio.SeedRows | applications/management/commands/seed_portfolio.py:404-424 | the seeding loop keeps ids ordered and keeps every existing id |
| Portfolio.SeedRowsFacts | applications/management/commands/seed_portfolio.py:404-424 | after a successful pass `name_to_app` holds every seeded name and points each at the one row carrying that name |
| Portfolio.SeedRowsSucceeds | applications/management/commands/seed_portfolio.py:404-424 | a table with distinct names never makes seeding fail, and stays name-distinct |
| Portfolio.SeedRowsErrSticks | applications/management/commands/seed_portfolio.py:396 | once an upsert raises, the whole pass raises |
| Portfolio.UpsertEdge | applications/management/commands/seed_portfolio.py:523-539 | `get_or_create(source, target, type)` raises iff two rows share the `Key` (source, target, type), creates iff none does, and keeps `KeysUnique` (no two rows with one key) |
| Portfolio.KeyedAt | applications/management/commands/seed_portfolio.py:523-531 | the rows with a given key are exactly the listed positions |
| Portfolio.SkipCount | applications/management/commands/seed_portfolio.py:513-521 | the number of records skipped because an endpoint is not a seeded name or both endpoints name the same application; 0 exactly when none is skipped |
| Portfolio.PersistStep | applications/management/commands/seed_portfolio.py:515-542 | one record adds one to `skipped` when skipped, and one to `created` when a row was created |
| Portfolio.PersistAll | applications/management/commands/seed_portfolio.py:512-542 | `skipped` counts exactly the skipped records; created + skipped ≤ records; the table grows by `created` |
| Portfolio.PersistErrSticks | applications/management/commands/seed_portfolio.py:514 | once an upsert raises, the loop raises |
| Portfolio.PersistKeepsTable | applications/management/commands/seed_portfolio.py:514-542 | each row of the result is either the old row at its place or an edge joining two different applications of the table, with allowed labels when every record is valid; with unique keys the loop never raises and keeps them unique |
| Portfolio.PersistWithin | applications/management/commands/seed_portfolio.py:514-542 | the table stays between applications of the table, and the loop never fails when keys were unique |
| Portfolio.CapabilityDraw | applications/management/commands/seed_portfolio.py:438-440 | 2 to 5 distinct capabilities of the pool |
| Portfolio.DebtFor | applications/management/commands/seed_portfolio.py:449-461 | an item of the application, with a pool category and status, and the severity its score gives |
| Portfolio.AppDebts | applications/management/commands/seed_portfolio.py:448-451 | 1 to 4 items per application |
| Portfolio.DebtsFor | applications/management/commands/seed_portfolio.py:447-463 | between one and four items per application |
| Portfolio.DebtsForBelong | applications/management/commands/seed_portfolio.py:454-456 | every item belongs to an application of the table |
| Portfolio.DebtsForSeverity | applications/management/commands/seed_portfolio.py:449 | every item carries the severity its application's score gives |
| Portfolio.RingEdge | applications/management/commands/seed_portfolio.py:556-566 | a ring edge joins the two applications, with allowed labels, a volume in [1000, 300000] and the "a -> b interface" name |
| Portfolio.Next | applications/management/commands/seed_portfolio.py:552 | `(i + 1) % n` wraps to 0 after the last position |
| Portfolio.Prev | applications/management/commands/seed_portfolio.py:553 | Python's floored `(i - 1) % n` wraps to n - 1 before the first position |
| Portfolio.RingNeighbours | applications/management/commands/seed_portfolio.py:552-553 | with two applications or more, a position's neighbours are other applications |
| Portfolio.RingStepGrows | applications/management/commands/seed_portfolio.py:551-581 | after one step the application has an outbound and an inbound edge, at most two rows were added, and keys stay unique |
| Portfolio.Sources | applications/management/commands/seed_portfolio.py:555 | every row's source is among the applications with an outbound integration |
| Portfolio.Targets | applications/management/commands/seed_portfolio.py:569 | every row's target is among the applications with an inbound integration |
| Portfolio.SourcesExact | applications/management/commands/seed_portfolio.py:555 | every member of the set is the source of some row, so `filter(source_app=app).exists()` is exactly membership |
| Portfolio.TargetsExact | applications/management/commands/seed_portfolio.py:569 | every member of the set is the target of some row, so `filter(target_app=app).exists()` is exactly membership |
| Portfolio.RingStep | applications/management/commands/seed_portfolio.py:551-581 | one step keeps the table as a prefix, adds at most two rows, and counts each added row in `ensured` |
| Portfolio.RingFrom | applications/management/commands/seed_portfolio.py:551-581 | the pass from position i adds at most two rows per remaining application, each counted in `ensured` |
| Portfolio.Ring | applications/management/commands/seed_portfolio.py:547-585 | the ring pass adds at most two rows per application and `ensured` is the number of rows added |
| Portfolio.RingCovers | applications/management/commands/seed_portfolio.py:545-585 | the old rows stay a prefix; every added row is a ring edge between applications of the table; `ensured` counts the added rows, at most 2 per application; with two applications or more each has an inbound and an outbound integration; keys stay unique |
| Portfolio.RingWithin | applications/management/commands/seed_portfolio.py:551-581 | the ring pass adds edges between applications of the table only |
| Portfolio.RingVisit | applications/management/commands/seed_portfolio.py:551-581 | one loop iteration is one ring step |
| Portfolio.SeedLoop | applications/management/commands/seed_portfolio.py:405-424 | the loop computes the seeding pass |
| Portfolio.PersistOne | applications/management/commands/seed_portfolio.py:515-542 | one loop iteration is one persistence step |
| Portfolio.PersistLoop | applications/management/commands/seed_portfolio.py:515-542 | the loop computes the persistence pass |
| Portfolio.AppDebtLoop | applications/management/commands/seed_portfolio.py:448-463 | the inner loop creates the application's items |
| Portfolio.DebtLoop | applications/management/commands/seed_portfolio.py:447-463 | the outer loop creates every application's items in order |
| Portfolio.AssignLoop | applications/management/commands/seed_portfolio.py:437-440 | every application gets its own draw, and only applications get one |
| Portfolio.Store.constructor | applications/management/commands/seed_portfolio.py:9 | empty tables |
| Portfolio.Store.SeedApps | applications/management/commands/seed_portfolio.py:396-424 | the first atomic block: wipe empties every table, the upserts build `name_to_app` for every seeded name, and a raise changes nothing |
| Portfolio.Store.EnsureCapabilities | applications/management/commands/seed_portfolio.py:431-434 | every pool capability exists afterwards, nothing is removed, no duplicates are added |
| Portfolio.Store.AssignCapabilities | applications/management/commands/seed_portfolio.py:436-440 | every application, and only those, is given its drawn capabilities |
| Portfolio.Store.SeedDebtItems | applications/management/commands/seed_portfolio.py:444-465 | the items are appended and `created` counts them, 1 to 4 per application |
| Portfolio.Store.PersistIntegrations | applications/management/commands/seed_portfolio.py:512-542 | the pass's result, `skipped` counted exactly, no change on a raise, and never a raise when keys were unique |
| Portfolio.Store.RingPass | applications/management/commands/seed_portfolio.py:547-585 | the table and count the ring pass gives |
| SeedCommand.LimitsOf | applications/management/commands/seed_portfolio.py:321-330 | batch sizes and attempt bounds below 1 become 1, others are kept; the integrations target is `max(50, 2 * apps)` |
| SeedCommand.DefaultLimits | applications/management/commands/seed_portfolio.py:309-318 | the defaults give 40 apps, 80 integrations, batches 8 and 25, attempts 25 and 12 |
| SeedCommand.Fetch | applications/management/commands/seed_portfolio.py:351-353 | a failed call yields its error and no repair; otherwise at most one repair prompt |
| SeedCommand.Requested | applications/management/commands/seed_portfolio.py:344-345 | `min(batch, remaining)` asks for at least 1 and never past the target |
| SeedCommand.AvoidNames | applications/management/commands/seed_portfolio.py:347 | one avoided name per collected application |
| SeedCommand.MergeKeeps | applications/management/commands/seed_portfolio.py:356-368 | merging a batch keeps collected applications named and name-distinct, and drops none |
| SeedCommand.Merge | applications/management/commands/seed_portfolio.py:356-368 | the merged list grows by at most the size of the batch |
| SeedCommand.AppsAttempt | applications/management/commands/seed_portfolio.py:343-379 | one attempt counts one more attempt and first sends the batch prompt |
| SeedCommand.AppsFrom | applications/management/commands/seed_portfolio.py:342-379 | the loop never counts more than `max_attempts_apps` attempts, and stops short of the target only when they are used up |
| SeedCommand.Apps | applications/management/commands/seed_portfolio.py:340-379 | the whole applications loop: at most `max_attempts_apps` attempts, and all of them when the target is not reached |
| SeedCommand.AppsPromptAvoids | applications/management/commands/seed_portfolio.py:192-198 | the batch prompt asks for `min(batch, remaining)` applications and lists the cleaned names of the first 200 collected ones |
| SeedCommand.AppsAttemptKeeps | applications/management/commands/seed_portfolio.py:342-379 | one attempt keeps the list named and name-distinct and drops nothing; it sends the batch prompt and at most one repair; a failed call adds nothing |
| SeedCommand.AppsFromKeeps | applications/management/commands/seed_portfolio.py:342-379 | the loop keeps the list clean, makes at most `max_attempts` attempts and at most two calls each |
| SeedCommand.NoTargetNoApps | applications/management/commands/seed_portfolio.py:342 | a target of zero makes no attempt |
| SeedCommand.KeepFirstExtends | applications/management/commands/seed_portfolio.py:361-368 | merging never drops a collected application |
| SeedCommand.MergeNew | applications/management/commands/seed_portfolio.py:361-368 | the merge loop is keep-first over the collected list then the batch |
| SeedCommand.MergeBatch | applications/management/commands/seed_portfolio.py:353-368 | the batch is deduplicated, then merged |
| SeedCommand.IntsAttemptKeeps | applications/management/commands/seed_portfolio.py:476-497 | one integrations attempt keeps the collected records and adds at most two prompts |
| SeedCommand.IntsAttempt | applications/management/commands/seed_portfolio.py:477-497 | one attempt counts one more attempt, keeps the collected records and sends at least one prompt |
| SeedCommand.IntsFrom | applications/management/commands/seed_portfolio.py:476-497 | the loop never counts more than `max_attempts_int` attempts, and stops short of the target only when they are used up |
| SeedCommand.IntsFromKeeps | applications/management/commands/seed_portfolio.py:476-497 | the loop never drops records and bounds its calls |
| SeedCommand.FallbackList | applications/management/commands/seed_portfolio.py:505 | no fallback records with fewer than two names, otherwise exactly the missing number |
| SeedCommand.TopUpReaches | applications/management/commands/seed_portfolio.py:499-505 | the top-up keeps the collected records first and reaches the target with two names or more |
| SeedCommand.TopUp | applications/management/commands/seed_portfolio.py:499-505 | the top-up never shortens the list and adds nothing once the target is met |
| SeedCommand.NormalizeApps | applications/management/commands/seed_portfolio.py:387 | one record per collected application, each meeting `ValidApp` |
| SeedCommand.NormalizeIntegrations | applications/management/commands/seed_portfolio.py:507 | one record per collected integration, each meeting `ValidIntegration` |
| SeedCommand.AppRecords | applications/management/commands/seed_portfolio.py:387 | fails exactly when normalising fails; otherwise `min(len, target_apps)` records |
| SeedCommand.IntegrationRecords | applications/management/commands/seed_portfolio.py:507 | fails exactly when normalising fails; otherwise `min(len, target_integrations)` records |
| SeedCommand.MapOk | applications/management/commands/seed_portfolio.py:387 | the list comprehension succeeds iff every item does, mapping each item in place; otherwise it raises the error of the first failing item |
| SeedCommand.SliceTo | applications/management/commands/seed_portfolio.py:387 | `s[:t]` is a prefix, of length min(len(s), t) for t ≥ 0 |
| SeedCommand.AppRecordsFacts | applications/management/commands/seed_portfolio.py:387-391 | nothing to seed exactly when nothing was collected; otherwise distinct names, at most the target |
| SeedCommand.NormalizedNamesDistinct | applications/management/commands/seed_portfolio.py:387 | normalising name-distinct applications keeps their names distinct |
| SeedCommand.SeedRowsKeys | applications/management/commands/seed_portfolio.py:424-426 | every key of `name_to_app` is a seeded name |
| SeedCommand.Names | applications/management/commands/seed_portfolio.py:426 | the app names in seeding order |
| SeedRun.CollectApps | applications/management/commands/seed_portfolio.py:339-379 | the applications loop computes `Apps` |
| SeedRun.CollectIntegrations | applications/management/commands/seed_portfolio.py:473-497 | the integrations loop computes `IntsFrom` |
| SeedRun.GenerateApps | applications/management/commands/seed_portfolio.py:339-391 | phase 1: at most 2 calls per attempt; nothing to seed iff nothing collected; distinct names, at most the target |
| SeedRun.GenerateIntegrations | applications/management/commands/seed_portfolio.py:473-507 | phase 3: at most 2 calls per attempt; with two names or more, exactly the target number of records |
| SeedRun.SeedPhase | applications/management/commands/seed_portfolio.py:396-465 | phase 2: every seeded name in `name_to_app` pointing at a row; every application given capabilities; debt items counted |
| SeedRun.LinkPhase | applications/management/commands/seed_portfolio.py:512-585 | phases 4 and 5: `skipped` counted exactly, no change on a raise, and every application with both an inbound and an outbound integration |
| SeedRun.Handle | applications/management/commands/seed_portfolio.py:320-593 | "Nothing to seed" iff the applications loop collected nothing, and then no table changes; the prompts start with those of the applications loop; at most 2 calls per attempt; 1 ≤ seeded ≤ apps; created + skipped ≤ the integrations target; with two applications or more, each has an inbound and an outbound integration |
| MermaidView.NodeId | applications/views/mermaid.py:23-24 | `app_<id>` |
| MermaidView.NodeIdInjective | applications/views/mermaid.py:23-24 | two applications share a node id iff they are the same |
| MermaidView.AllLinkLines | applications/views/mermaid.py:31-42 | three lines per integration |
| MermaidView.Diagram | applications/views/mermaid.py:18-42 | four header lines, then three lines per inbound and per outbound integration |
| MermaidView.AllLinkLinesAt | applications/views/mermaid.py:31-42 | integration j's node, class and edge lines sit at 3j, 3j+1, 3j+2 |
| MermaidView.DiagramShape | applications/views/mermaid.py:18-42 | header, classDef, main node and class, then each inbound with its edge into the main node, then each outbound with its edge out of it |
| MermaidView.BuildDiagram | applications/views/mermaid.py:18-42 | the appended lines are the diagram |
| MermaidView.DiagramTextStart | applications/views/mermaid.py:44 | the joined text starts with the header and classDef lines |
| MermaidView.ApplicationMermaid | applications/views/mermaid.py:9-45 | the page's text is the diagram joined by newlines |
| MermaidView.CheckedCalls | applications/views/mermaid.py:119-131 | at most three calls: generation, check of the stripped diagram, and only after a non-"OK" answer the check of that answer |
| MermaidView.Neighbours | applications/views/mermaid.py:50-67 | the prompt lists each integration's other application, id and name, with the integration type, in order |
| MermaidView.Checked | applications/views/mermaid.py:119-139 | one to three calls, the first the diagram prompt for the application and its integrations, every later one a check prompt |
| MermaidView.CheckedFailure | applications/views/mermaid.py:141-153 | a call error is shown iff the last call raised, and then with an empty diagram |
| MermaidView.CheckedVerified | applications/views/mermaid.py:126-139 | a diagram shown without error passed its last check |
| MermaidView.CheckedFirstOk | applications/views/mermaid.py:123-139 | a first "OK" shows the generated diagram after two calls |
| MermaidView.CheckedUnverified | applications/views/mermaid.py:131-137 | the unverified error is shown iff the repair's check answered something other than "OK", with the repair shown |
| MermaidView.GenerateChecked | applications/views/mermaid.py:119-139 | the calls made in sequence give `Checked` |
| MermaidView.ApplicationMermaidLlm | applications/views/mermaid.py:101-153 | a present marker shows the rate-limit error with no call; otherwise the marker is set for 10 s, then the calls and page of `Checked` with their failure, "OK" and unverified cases |
| QaView.SkipSpaces | applications/views/pages/qa.py:98 | `\s*` consumes the whitespace run |
| QaView.SkipDigits | applications/views/pages/qa.py:98 | `(\d+)` consumes the digit run greedily |
| QaView.MatchAt | applications/views/pages/qa.py:98 | a match ends after the label and at least one digit |
| QaView.Capture | applications/views/pages/qa.py:98 | the captured group is a non-empty digit run |
| QaView.FindAll | applications/views/pages/qa.py:98 | `re.findall` yields digit runs |
| QaView.NoMatchInside | applications/views/pages/qa.py:98 | no match starts inside another |
| QaView.FindAllIsAllMatches | applications/views/pages/qa.py:98 | the scan that resumes after each match lists the same captures as every match position in order |
| QaView.ExtractIdsExact | applications/views/pages/qa.py:98 | as many ids as matches; the match at p gives the id after every earlier match, in text order |
| QaView.ExtractIds | applications/views/pages/qa.py:98 | every extracted id is a non-empty run of decimal digits |
| QaView.ExtractIdsSound | applications/views/pages/qa.py:98 | every extracted id is the capture of a match at its place in text order |
| QaView.FromKeysFacts | applications/views/pages/qa.py:101 | `dict.fromkeys`: first occurrences at increasing positions, no repeats, and the same members as the ids |
| QaView.FromKeys | applications/views/pages/qa.py:101 | no more ids than before, each one of the extracted ids |
| QaView.ByIdKeys | applications/views/pages/qa.py:104-105 | an id is a key of `by_id` iff it is the `str()` of an existing id, and then maps to that application |
| QaView.Select | applications/views/pages/qa.py:106 | the comprehension never yields more items than ids |
| QaView.LinkedAppsFacts | applications/views/pages/qa.py:103-106 | an application is linked iff its `str(id)` is among the ids; each linking id gives its application at the place its first occurrence gives it, so the links follow the text order |
| QaView.LinkedApps | applications/views/pages/qa.py:103-106 | at most one application per id |
| QaView.LeadingZeroNotLinked | applications/views/pages/qa.py:104-106 | "007" fetches application 7 but does not link it, since `by_id` is keyed by "7" |
| QaView.LinkedForFacts | applications/views/pages/qa.py:95-106 | the linked applications are those whose id the answer mentions after "Application ID:", none without an answer |
| QaView.LinkedFor | applications/views/pages/qa.py:94-106 | nothing without an answer; otherwise at most one application per extracted id |
| QaView.Session.constructor | applications/views/pages/qa.py:20-21 | a session holds the given last question and answer |
| QaView.QaView | applications/views/pages/qa.py:14-113 | GET, a blank question or a present marker make no call and change nothing; otherwise the marker is set for 10 s, one call made, and only an answer replaces the session's question and answer; the page shows the session and its linked applications |
| QaView.LlmAsk | applications/views/pages/qa.py:116-163 | 405 for non-POST; 400 for bad JSON or a falsy `app_id`; 429 with the marker present; 500 for other bad bodies or ids; 404 for an unknown id; the marker set only past the guards; 200 exactly when the one description call is answered, 502 for `LLMError` |

## Left out

- HTTP, templates, logging and the command's stdout messages are left out. The views return the values the template would receive.
- `json.loads` is an oracle (`JsonValues.Loads`) and is not modelled.
- `ask_llm` is the oracle `Llm.Oracle`, and its answer is always a string. A JSON null `content` (applications/services/llm_client.py:61) is not modelled, nor the AttributeError that `.strip()` or the parsing would then raise in the callers. A response body without `choices`, whose KeyError or IndexError is not an `LLMError`, is not modelled either.
- The wording of the prompts is not modelled, only the data each carries: the count and the first 200 names to avoid, the application names, the diagram's application with its inbound and outbound neighbours, the code to check, the question, the application to describe. The Q&A prompt's JSON context is left out: the `Count` aggregates and a 25-row sample (qa.py:36-66).
- The random distributions are not modelled. Each random call takes an oracle number, and only its range is modelled.
- The cache's clock is not modelled: a present marker is one that has not expired. `REMOTE_ADDR` is taken as text, and a missing one would read as "None".
- Portfolio.NewId: new application ids are modelled as one more than the largest existing id. SQLite's AUTOINCREMENT does not reuse ids after `--wipe`; the proofs only rely on new ids being fresh and increasing.
- Portfolio.Store.AssignCapabilities: `Application.objects.all()` has no `order_by` and the model has no Meta ordering (seed_portfolio.py:437 and 447). The loops are modelled in id order.
- Portfolio.Store.SeedDebtItems: iterates in id order, for the same reason.
- PyText.Lower: lowers Basic Latin, Latin-1 Supplement, Latin Extended-A and basic Cyrillic capitals only. Other scripts keep their capitals. 'İ' (U+0130), which Python lowers to two characters, is kept. Greek final sigma is not handled.
- PyText.ParseInt: accepts ASCII digits only. Python's `int()` also accepts other Unicode decimal digits ("٣").
- QaView.ExtractIds: `\d` matches ASCII digits only, whereas Python's `\d` also matches other Unicode decimal digits.
- JsonValues.Value: a float carries its `str()` text as given. Python's shortest-repr float formatting is not modelled.
- Database integer limits are not modelled. A very large score, volume or `app_id` would overflow SQLite or Django; the model's integers are unbounded.
- QaView.LlmAsk: the conversion of `app_id` by `Application.objects.get(pk=…)` is modelled as Python's `int()` of the value. Django's own field conversion may differ for unusual types.
- QaView.QaView: the ORM filter is modelled by each id's value, and the id list is never empty there.
- MermaidView.ApplicationMermaid and MermaidView.ApplicationMermaidLlm: `get_object_or_404` and the inbound/outbound queries are inputs. A missing application (404) is not modelled.
- Other views (dashboard, application list, integrations, analysis), the models' `__str__` and the URL routing are not part of this model.

=== FILE: cache.dfy ===
/**
  The shared cache the request handlers use for rate-limit markers. Expiry needs a
  clock, which is not modelled: a marker that is present has not expired yet.
 */
module KeyCache {

  class Cache {
    /** Each present key with the timeout, in seconds, it was set with. */
    var markers: map<string, nat>

    constructor (initial: map<string, nat>)
      ensures markers == initial
    {
      markers := initial;
    }

    /** `cache.get(key)` is truthy. */
    predicate Has(key: string)
      reads this
    {
      key in markers
    }

    /** `cache.set(key, True, timeout=timeout)` */
    method Set(key: string, timeout: nat)
      modifies this
      ensures markers == old(markers)[key := timeout]
    {
      markers := markers[key := timeout];
    }
  }
}

=== FILE: json_values.dfy ===
/**
  The JSON values the seeding code reads out of a generated response, and the
  three Python conversions it applies to them: `str(v)`, truthiness and `int(v or 0)`.
 */
module JsonValues {
  import opened Wrappers
  import opened PyText

  /** A field of a generated record as `json.loads` produced it (`dict.get` of a missing key is Null). */
  datatype Value =
    | Null
    | Bool(b: bool)
    | Int(i: int)
    | Str(s: string)
    | Float(f: Float64, text: string)        // a number with a fraction or an exponent: its value and its `str()` text
    | Container(text: string, empty: bool)   // a list or an object: its `str()` text and whether it is empty

  /** A Python float: a finite value (exactly the binary value, as a real), NaN, or an infinity. */
  datatype Float64 = Finite(r: real) | NaN | Infinity(negative: bool)

  /** `int(x)` of a finite float: the value truncated toward zero. */
  function Truncate(x: real): (r: int)
    ensures x >= 0.0 ==> 0 <= r && r as real <= x < r as real + 1.0
    ensures x < 0.0 ==> r <= 0 && r as real - 1.0 < x <= r as real
  {
    if x >= 0.0 then x.Floor else -((-x).Floor)
  }

  /**
    One element of a generated batch: a JSON object, or anything else. Iterating a
    truthy string or object under "applications" yields characters or keys, which
    are NonRecord elements too.
   */
  datatype Item = Record(fields: map<string, Value>) | NonRecord

  /** A value under a key of the top-level object: something iterable (a falsy value reads as []), or not. */
  datatype Entry = EList(items: seq<Item>) | NotIterable

  /** What `json.loads` returns for a text. */
  datatype Loaded = Invalid | LList(items: seq<Item>) | LDict(entries: map<string, Entry>) | LScalar

  /** `json.loads` itself is not modelled: it is an oracle from text to its outcome. */
  type Loads = string -> Loaded

  /** `d.get(key)` */
  function Get(fields: map<string, Value>, key: string): Value {
    if key in fields then fields[key] else Null
  }

  /** Python truthiness. */
  predicate Truthy(v: Value) {
    match v
    case Null => false
    case Bool(b) => b
    case Int(i) => i != 0
    case Str(s) => s != ""
    case Float(f, _) => f != Finite(0.0)
    case Container(_, empty) => !empty
  }

  /** `str(v)` for a value that is not None. */
  function PyStr(v: Value): string
    requires !v.Null?
  {
    match v
    case Bool(b) => if b then "True" else "False"
    case Int(i) => IntToDecimal(i)
    case Str(s) => s
    case Float(_, text) => text
    case Container(text, _) => text
  }

  /**
    `int(v)`: booleans count as 0 and 1, strings are parsed, floats are truncated
    toward zero (NaN raises ValueError, an infinity OverflowError), None and
    containers raise TypeError.
   */
  function IntOf(v: Value): (r: Result<int, PyError>)
    ensures v.Int? ==> r == Ok(v.i)
    ensures v.Null? || v.Container? ==> r == Err(TypeError)
    ensures v.Str? ==> (r.Ok? <==> ParseInt(v.s).Some?)
    ensures v.Float? ==> match v.f
      case Finite(x) => r.Ok? && -1.0 < x - r.value as real < 1.0 && (r.value == 0 || (r.value > 0 <==> x > 0.0))
      case NaN => r.Err? && r.error.ValueError?
      case Infinity(_) => r == Err(OverflowError)
  {
    match v
    case Null => Err(TypeError)
    case Bool(b) => Ok(if b then 1 else 0)
    case Int(i) => Ok(i)
    case Str(s) =>
      var p := ParseInt(s);
      if p.Some? then Ok(p.value) else Err(ValueError("invalid literal for int()"))
    case Float(f, _) =>
      (match f
       case Finite(x) => Ok(Truncate(x))
       case NaN => Err(ValueError("cannot convert float NaN to integer"))
       case Infinity(_) => Err(OverflowError))
    case Container(_, _) => Err(TypeError)
  }

  /** `int(v or 0)`: a missing or falsy value becomes 0; a malformed string or a non-empty container raises. */
  function IntOrZero(v: Value): (r: Result<int, PyError>)
    ensures !Truthy(v) ==> r == Ok(0)
    ensures Truthy(v) ==> r == IntOf(v)
    ensures r.Err? <==>
      || (v.Str? && v.s != "" && ParseInt(v.s).None?)
      || (v.Float? && !v.f.Finite?)
      || (v.Container? && !v.empty)
  {
    if Truthy(v) then IntOf(v) else Ok(0)
  }

  /** A number written as a quoted decimal string is read back as that number. */
  lemma QuotedNumberReadsBack(i: int)
    ensures IntOrZero(Str(IntToDecimal(i))) == Ok(i)
  {
    IntDecimalRoundTrip(i);
  }

  /** `data.get(key, []) or []` on the parsed response: the batch the loop iterates, or the error it raises. */
  function BatchOf(doc: Loaded, key: string): (r: Result<seq<Item>, PyError>)
    ensures doc.LDict? && key !in doc.entries ==> r == Ok([])
    ensures !doc.LDict? ==> r == Err(AttributeError)
    ensures r.Ok? && r.value != [] ==> doc.LDict? && key in doc.entries && doc.entries[key] == EList(r.value)
  {
    match doc
    case LDict(entries) =>
      if key !in entries then Ok([])
      else (match entries[key]
            case EList(items) => Ok(items)
            case NotIterable => Err(TypeError))
    case _ => Err(AttributeError)
  }
}

=== FILE: llm.dfy ===
/**
  The remote text generator as the rest of the code sees it: `ask_llm(prompt)`
  returns a text or raises. The HTTP exchange, the retry on timeout and the
  settings lookup are not modelled; the generator is an oracle that answers the
  k-th call of a request with a prompt.
 */
module Llm {
  import opened Wrappers

  /**
    What a prompt asks for. The prompt's wording is not modelled; the data it
    carries is, except the portfolio summary (counts and a sample of
    applications) that the question-and-answer prompt sends with the question.
   */
  datatype Prompt =
    | AppsPrompt(count: nat, avoid: seq<string>)               // `_prompt_apps(n, existing_names)`
    | IntegrationsPrompt(appNames: seq<string>, count: nat)    // `_prompt_integrations(app_names, n)`
    | RepairPrompt(badJson: string)                            // `_repair_json_with_llm(bad_json_text)`
    | MermaidPrompt(appId: nat, appName: string,               // `_build_mermaid_prompt(app, inbound, outbound)`
                    inbound: seq<Neighbour>, outbound: seq<Neighbour>)
    | MermaidCheckPrompt(code: string)                         // `_build_mermaid_check_prompt(code)`
    | QaPrompt(question: string)                               // the Q&A prompt around the question
    | DescribePrompt(appName: string)                          // the description prompt of `llm_ask`

  /** An application at the other end of an integration, as the diagram prompt lists it: its id, its name and the integration's type. */
  datatype Neighbour = Neighbour(id: nat, name: string, integrationType: string)

  /** The outcome of one `ask_llm` call: the text, or the exception it raised. */
  datatype Reply = Answer(text: string) | Failed(error: PyError)

  /** The generator: its reply to the k-th call, given the prompt. */
  type Oracle = (nat, Prompt) -> Reply

  /** The error a page shows while the client's rate-limit marker is present. */
  const RateLimitMessage := "Zkus to prosím za chvíli (rate limit)."

  /** The error a page shows for an exception other than `LLMError`. */
  const UnexpectedMessage := "Nastala neočekávaná chyba."

  /** The error a page shows for a failed call: `f"LLM chyba: {str(e)}"` for `LLMError`, a fixed text otherwise. */
  function FailureMessage(e: PyError): string {
    if e.LlmError? then "LLM chyba: " + e.message else UnexpectedMessage
  }
}

=== FILE: mermaid.dfy ===
/**
  The application detail diagram: the Mermaid flowchart of one application's
  integration neighbourhood, built line by line (`application_mermaid`), and
  the generated variant with its check, single repair and final check
  (`application_mermaid_llm`). The ORM queries are not modelled: the main
  application and its inbound and outbound integrations, in query order, are
  the inputs.
 */
module MermaidView {
  import opened Wrappers
  import opened PyText
  import opened Llm
  import opened KeyCache
  import opened Portfolio

  /** An integration as the diagram sees it: the application at its other end, and its type. */
  datatype Link = Link(other: AppRef, integrationType: string)

  const Header := "flowchart LR"
  const ClassDef := "  classDef app fill:#f3f0ff,stroke:#7c3aed,stroke-width:2px;"

  // ----- the lines of the diagram -----

  /** `node_id(a)`: "app_" and the decimal id. */
  function NodeId(id: nat): (r: string)
    ensures |r| > 4 && r[..4] == "app_"
  {
    "app_" + NatToDecimal(id)
  }

  /** Different applications get different node ids, so the diagram never merges two of them. */
  lemma NodeIdInjective(a: nat, b: nat)
    ensures NodeId(a) == NodeId(b) <==> a == b
  {
    if NodeId(a) == NodeId(b) {
      assert NodeId(a)[4..] == NatToDecimal(a);
      assert NodeId(b)[4..] == NatToDecimal(b);
      NatToDecimalInjective(a, b);
    }
  }

  /** The node line of an application, labelled with its name. */
  function NodeLine(a: AppRef): string {
    "  " + NodeId(a.id) + "[\"" + a.name + "\"]"
  }

  /** The line putting a node in the `app` class. */
  function ClassLine(a: AppRef): string {
    "  class " + NodeId(a.id) + " app"
  }

  /** An edge from one node to another, labelled with the integration type. */
  function EdgeLine(from: AppRef, kind: string, to: AppRef): string {
    "  " + NodeId(from.id) + " -->|\"" + kind + "\"| " + NodeId(to.id)
  }

  /**
    The three lines one integration adds: the node at its other end, its
    class, and the edge, pointing into the main node for an inbound
    integration and out of it for an outbound one.
   */
  function LinkLines(main: AppRef, link: Link, inbound: bool): seq<string> {
    [NodeLine(link.other), ClassLine(link.other),
     if inbound then EdgeLine(link.other, link.integrationType, main)
     else EdgeLine(main, link.integrationType, link.other)]
  }

  /** The lines of a list of integrations, three per integration, in order. */
  function AllLinkLines(main: AppRef, links: seq<Link>, inbound: bool): (r: seq<string>)
    ensures |r| == 3 * |links|
    decreases |links|
  {
    if links == [] then []
    else AllLinkLines(main, links[..|links| - 1], inbound) + LinkLines(main, links[|links| - 1], inbound)
  }

  /** The whole diagram: header, class definition, the main node, then every inbound and every outbound integration. */
  function Diagram(main: AppRef, inbound: seq<Link>, outbound: seq<Link>): (r: seq<string>)
    ensures |r| == 4 + 3 * (|inbound| + |outbound|)
  {
    [Header, ClassDef, NodeLine(main), ClassLine(main)]
      + AllLinkLines(main, inbound, true) + AllLinkLines(main, outbound, false)
  }

  /** The j-th integration's lines sit at positions 3j, 3j+1 and 3j+2. */
  lemma {:induction false} AllLinkLinesAt(main: AppRef, links: seq<Link>, inbound: bool, j: nat)
    requires j < |links|
    ensures AllLinkLines(main, links, inbound)[3 * j] == NodeLine(links[j].other)
    ensures AllLinkLines(main, links, inbound)[3 * j + 1] == ClassLine(links[j].other)
    ensures AllLinkLines(main, links, inbound)[3 * j + 2] == LinkLines(main, links[j], inbound)[2]
    decreases |links|
  {
    var init := links[..|links| - 1];
    if j < |links| - 1 {
      AllLinkLinesAt(main, init, inbound, j);
      assert init[j] == links[j];
    }
  }

  /**
    The diagram has 4 + 3(inbound + outbound) lines: it starts with
    "flowchart LR" and the class definition, then the main node; each
    inbound integration contributes its source's node and an edge into the
    main node, and all of them come before the outbound integrations, whose
    edges leave the main node.
   */
  lemma DiagramShape(main: AppRef, inbound: seq<Link>, outbound: seq<Link>)
    ensures var d := Diagram(main, inbound, outbound);
      && |d| == 4 + 3 * (|inbound| + |outbound|)
      && d[0] == Header && d[1] == ClassDef && d[2] == NodeLine(main) && d[3] == ClassLine(main)
    ensures var d := Diagram(main, inbound, outbound);
      forall j :: 0 <= j < |inbound| ==>
        && d[4 + 3 * j] == NodeLine(inbound[j].other)
        && d[4 + 3 * j + 1] == ClassLine(inbound[j].other)
        && d[4 + 3 * j + 2] == EdgeLine(inbound[j].other, inbound[j].integrationType, main)
    ensures var d := Diagram(main, inbound, outbound);
      forall j :: 0 <= j < |outbound| ==>
        && d[4 + 3 * |inbound| + 3 * j] == NodeLine(outbound[j].other)
        && d[4 + 3 * |inbound| + 3 * j + 1] == ClassLine(outbound[j].other)
        && d[4 + 3 * |inbound| + 3 * j + 2] == EdgeLine(main, outbound[j].integrationType, outbound[j].other)
  {
    var head := [Header, ClassDef, NodeLine(main), ClassLine(main)];
    var ins := AllLinkLines(main, inbound, true);
    var outs := AllLinkLines(main, outbound, false);
    var d := Diagram(main, inbound, outbound);
    assert d == head + ins + outs;
    forall j | 0 <= j < |inbound|
      ensures d[4 + 3 * j] == NodeLine(inbound[j].other)
      ensures d[4 + 3 * j + 1] == ClassLine(inbound[j].other)
      ensures d[4 + 3 * j + 2] == EdgeLine(inbound[j].other, inbound[j].integrationType, main)
    {
      AllLinkLinesAt(main, inbound, true, j);
      assert d[4 + 3 * j] == ins[3 * j];
      assert d[4 + 3 * j + 1] == ins[3 * j + 1];
      assert d[4 + 3 * j + 2] == ins[3 * j + 2];
    }
    forall j | 0 <= j < |outbound|
      ensures d[4 + 3 * |inbound| + 3 * j] == NodeLine(outbound[j].other)
      ensures d[4 + 3 * |inbound| + 3 * j + 1] == ClassLine(outbound[j].other)
      ensures d[4 + 3 * |inbound| + 3 * j + 2] == EdgeLine(main, outbound[j].integrationType, outbound[j].other)
    {
      AllLinkLinesAt(main, outbound, false, j);
      assert d[4 + 3 * |inbound| + 3 * j] == outs[3 * j];
      assert d[4 + 3 * |inbound| + 3 * j + 1] == outs[3 * j + 1];
      assert d[4 + 3 * |inbound| + 3 * j + 2] == outs[3 * j + 2];
    }
  }

  /** The lines of `application_mermaid`, appended one by one. */
  method BuildDiagram(main: AppRef, inbound: seq<Link>, outbound: seq<Link>) returns (lines: seq<string>)
    ensures lines == Diagram(main, inbound, outbound)
  {
    lines := [Header, ClassDef];
    lines := lines + [NodeLine(main)];
    lines := lines + [ClassLine(main)];
    ghost var head := lines;
    for i := 0 to |inbound|
      invariant lines == head + AllLinkLines(main, inbound[..i], true)
    {
      var src := inbound[i].other;
      lines := lines + [NodeLine(src)];
      lines := lines + [ClassLine(src)];
      lines := lines + [EdgeLine(src, inbound[i].integrationType, main)];
      assert inbound[..i + 1][..i] == inbound[..i];
    }
    assert inbound[..|inbound|] == inbound;
    ghost var middle := lines;
    for i := 0 to |outbound|
      invariant lines == middle + AllLinkLines(main, outbound[..i], false)
    {
      var tgt := outbound[i].other;
      lines := lines + [NodeLine(tgt)];
      lines := lines + [ClassLine(tgt)];
      lines := lines + [EdgeLine(main, outbound[i].integrationType, tgt)];
      assert outbound[..i + 1][..i] == outbound[..i];
    }
    assert outbound[..|outbound|] == outbound;
  }

  /** `"\n".join(lines)` of the diagram begins with its header line and its class definition line. */
  lemma DiagramTextStart(main: AppRef, inbound: seq<Link>, outbound: seq<Link>)
    ensures StartsWith(Join("\n", Diagram(main, inbound, outbound)), Header + "\n" + ClassDef + "\n")
  {
    var d := Diagram(main, inbound, outbound);
    DiagramShape(main, inbound, outbound);
    var rest := Join("\n", d[2..]);
    assert d[1..][1..] == d[2..];
    assert Join("\n", d) == Header + "\n" + (ClassDef + "\n" + rest);
    assert Join("\n", d) == (Header + "\n" + ClassDef + "\n") + rest;
  }

  /** `application_mermaid`: the diagram text handed to the template. */
  method ApplicationMermaid(main: AppRef, inbound: seq<Link>, outbound: seq<Link>) returns (mermaid: string)
    ensures mermaid == Join("\n", Diagram(main, inbound, outbound))
    ensures StartsWith(mermaid, Header + "\n" + ClassDef + "\n")
  {
    var lines := BuildDiagram(main, inbound, outbound);
    mermaid := Join("\n", lines);
    DiagramTextStart(main, inbound, outbound);
  }

  // ----- the generated diagram -----

  /** The neighbours a diagram prompt lists, in query order. */
  function Neighbours(links: seq<Link>): (r: seq<Neighbour>)
    ensures |r| == |links|
    ensures forall j :: 0 <= j < |links| ==>
      r[j].id == links[j].other.id && r[j].name == links[j].other.name && r[j].integrationType == links[j].integrationType
  {
    seq(|links|, j requires 0 <= j < |links| => Neighbour(links[j].other.id, links[j].other.name, links[j].integrationType))
  }

  /** `_build_mermaid_prompt(app, inbound, outbound)`: the application's id and name and its neighbours on both sides. */
  function DiagramPrompt(main: AppRef, inbound: seq<Link>, outbound: seq<Link>): Prompt {
    MermaidPrompt(main.id, main.name, Neighbours(inbound), Neighbours(outbound))
  }

  /** Why the page shows an error. */
  datatype Problem =
    | RateLimited            // the client's marker is present
    | CallFailed(e: PyError) // a generator call raised
    | Unverified             // the repaired diagram did not pass its check

  /** The error text the template shows for each problem. */
  function ErrorText(p: Problem): string {
    match p
    case RateLimited => RateLimitMessage
    case CallFailed(e) => FailureMessage(e)
    case Unverified => "Mermaid se nepodařilo ověřit ani po jedné opravě. Zkus kliknout znovu."
  }

  /** What the template receives: the diagram text and the error, if any. */
  datatype Page = Page(mermaid: string, error: Option<Problem>)

  /** The rate-limit marker of a client address. */
  function MermaidKey(addr: string): string {
    "mermaid_llm:" + addr
  }

  /** The k-th call of the request was answered, and its answer strips to "OK". */
  predicate SaidOk(llm: Oracle, k: nat, p: Prompt) {
    llm(k, p).Answer? && Strip(llm(k, p).text) == "OK"
  }

  /** The page of a call that raised: an empty diagram and that call's error. */
  function FailedPage(r: Reply): Page
    requires r.Failed?
  {
    Page("", Some(CallFailed(r.error)))
  }

  /**
    The body of the `try` of `application_mermaid_llm` after the marker is
    set, with the prompts sent: the diagram is generated (call 0) and
    checked (call 1); a check answer other than "OK" replaces the diagram
    and is checked once more (call 2), and a second answer other than "OK"
    shows the replacement with an error. A call that raises ends the
    request with an empty diagram and that call's error. The source strips
    the replacement a second time, which changes nothing (`StripOfStripped`).
   */
  function Checked(main: AppRef, inbound: seq<Link>, outbound: seq<Link>, llm: Oracle): (r: (Page, seq<Prompt>))
    ensures 1 <= |r.1| <= 3 && r.1[0] == DiagramPrompt(main, inbound, outbound)
    ensures forall k :: 1 <= k < |r.1| ==> r.1[k].MermaidCheckPrompt?
  {
    var p0 := DiagramPrompt(main, inbound, outbound);
    var generated := llm(0, p0);
    if generated.Failed? then (FailedPage(generated), [p0])
    else
      var p1 := MermaidCheckPrompt(Strip(generated.text));
      var check := llm(1, p1);
      if check.Failed? then (FailedPage(check), [p0, p1])
      else if Strip(check.text) == "OK" then (Page(Strip(generated.text), None), [p0, p1])
      else
        var p2 := MermaidCheckPrompt(Strip(check.text));
        var verify := llm(2, p2);
        if verify.Failed? then (FailedPage(verify), [p0, p1, p2])
        else if Strip(verify.text) == "OK" then (Page(Strip(check.text), None), [p0, p1, p2])
        else (Page(Strip(check.text), Some(Unverified)), [p0, p1, p2])
  }

  /**
    At most three calls, each prompt fixed by the answers before it: the
    generation prompt, the check of the stripped generated diagram and, only
    after a check answer other than "OK", the check of that answer.
   */
  lemma CheckedCalls(main: AppRef, inbound: seq<Link>, outbound: seq<Link>, llm: Oracle)
    ensures var (_, sent) := Checked(main, inbound, outbound, llm);
      && 1 <= |sent| <= 3 && sent[0] == DiagramPrompt(main, inbound, outbound)
      && (|sent| >= 2 ==> llm(0, sent[0]).Answer? && sent[1] == MermaidCheckPrompt(Strip(llm(0, sent[0]).text)))
      && (|sent| == 3 ==>
            && llm(1, sent[1]).Answer? && Strip(llm(1, sent[1]).text) != "OK"
            && sent[2] == MermaidCheckPrompt(Strip(llm(1, sent[1]).text)))
  {
  }

  /** The page shows a call failure exactly when the last call raised, and then shows no diagram. */
  lemma CheckedFailure(main: AppRef, inbound: seq<Link>, outbound: seq<Link>, llm: Oracle)
    ensures var (page, sent) := Checked(main, inbound, outbound, llm);
      && (llm(|sent| - 1, sent[|sent| - 1]).Failed? <==> page.error.Some? && page.error.value.CallFailed?)
      && (llm(|sent| - 1, sent[|sent| - 1]).Failed? ==> page == FailedPage(llm(|sent| - 1, sent[|sent| - 1])))
  {
  }

  /** A diagram is shown without an error only when the last check, of exactly that diagram, answered "OK". */
  lemma CheckedVerified(main: AppRef, inbound: seq<Link>, outbound: seq<Link>, llm: Oracle)
    ensures var (page, sent) := Checked(main, inbound, outbound, llm);
      page.error.None? ==>
        |sent| >= 2 && sent[|sent| - 1] == MermaidCheckPrompt(page.mermaid) && SaidOk(llm, |sent| - 1, sent[|sent| - 1])
  {
  }

  /** A first check answering "OK" keeps the generated diagram, stripped, and makes no repair call. */
  lemma CheckedFirstOk(main: AppRef, inbound: seq<Link>, outbound: seq<Link>, llm: Oracle)
    requires llm(0, DiagramPrompt(main, inbound, outbound)).Answer?
    requires SaidOk(llm, 1, MermaidCheckPrompt(Strip(llm(0, DiagramPrompt(main, inbound, outbound)).text)))
    ensures var (page, sent) := Checked(main, inbound, outbound, llm);
      && page == Page(Strip(llm(0, DiagramPrompt(main, inbound, outbound)).text), None)
      && |sent| == 2
  {
  }

  /**
    The unverified error is shown exactly when the repair was checked and the
    answer was not "OK"; the page then shows the repair that failed its check.
   */
  lemma CheckedUnverified(main: AppRef, inbound: seq<Link>, outbound: seq<Link>, llm: Oracle)
    ensures var (page, sent) := Checked(main, inbound, outbound, llm);
      page.error == Some(Unverified) <==> |sent| == 3 && llm(2, sent[2]).Answer? && !SaidOk(llm, 2, sent[2])
    ensures var (page, sent) := Checked(main, inbound, outbound, llm);
      page.error == Some(Unverified) ==> sent[2] == MermaidCheckPrompt(page.mermaid)
    ensures Checked(main, inbound, outbound, llm).0.error != Some(RateLimited)
  {
  }

  /** The calls of `Checked`, made one after another as the view makes them. */
  method GenerateChecked(main: AppRef, inbound: seq<Link>, outbound: seq<Link>, llm: Oracle) returns (page: Page, sent: seq<Prompt>)
    ensures (page, sent) == Checked(main, inbound, outbound, llm)
  {
    var prompt := DiagramPrompt(main, inbound, outbound);
    sent := [prompt];
    var generated := llm(0, prompt);
    if generated.Failed? {
      return FailedPage(generated), sent;
    }
    var mermaid := Strip(generated.text);

    var checkPrompt := MermaidCheckPrompt(mermaid);
    sent := sent + [checkPrompt];
    var check := llm(1, checkPrompt);
    if check.Failed? {
      assert sent == [prompt, checkPrompt];
      return FailedPage(check), sent;
    }
    var checkResult := Strip(check.text);
    if checkResult != "OK" {
      StripOfStripped(checkResult);
      mermaid := Strip(checkResult);
      var verifyPrompt := MermaidCheckPrompt(mermaid);
      sent := sent + [verifyPrompt];
      assert sent == [prompt, checkPrompt, verifyPrompt];
      var verify := llm(2, verifyPrompt);
      if verify.Failed? {
        return FailedPage(verify), sent;
      }
      if Strip(verify.text) != "OK" {
        return Page(mermaid, Some(Unverified)), sent;
      }
    }
    page := Page(mermaid, None);
  }

  /**
    `application_mermaid_llm`: with the client's marker present, an error
    and no call; otherwise the marker is set for 10 seconds before the
    first call, and the page and the calls are those of `Checked`.
   */
  method ApplicationMermaidLlm(cache: Cache, addr: string, main: AppRef, inbound: seq<Link>, outbound: seq<Link>, llm: Oracle) returns (page: Page, sent: seq<Prompt>)
    modifies cache
    ensures old(cache.Has(MermaidKey(addr))) ==>
      page == Page("", Some(RateLimited)) && sent == [] && cache.markers == old(cache.markers)
    ensures !old(cache.Has(MermaidKey(addr))) ==>
      && cache.markers == old(cache.markers)[MermaidKey(addr) := 10]
      && (page, sent) == Checked(main, inbound, outbound, llm)
      && 1 <= |sent| <= 3 && sent[0] == DiagramPrompt(main, inbound, outbound)
      && (llm(|sent| - 1, sent[|sent| - 1]).Failed? <==> page.error.Some? && page.error.value.CallFailed?)
      && (page.error.None? ==> sent[|sent| - 1] == MermaidCheckPrompt(page.mermaid) && SaidOk(llm, |sent| - 1, sent[|sent| - 1]))
      && (page.error == Some(Unverified) <==> |sent| == 3 && llm(2, sent[2]).Answer? && !SaidOk(llm, 2, sent[2]))
  {
    var key := MermaidKey(addr);
    if cache.Has(key) {
      return Page("", Some(RateLimited)), [];
    }
    cache.Set(key, 10);
    page, sent := GenerateChecked(main, inbound, outbound, llm);
    CheckedCalls(main, inbound, outbound, llm);
    CheckedFailure(main, inbound, outbound, llm);
    CheckedVerified(main, inbound, outbound, llm);
    CheckedUnverified(main, inbound, outbound, llm);
  }
}

=== FILE: normalizer.dfy ===
/**
  Turning generated records into the rows the seeding command stores:
  `_dedupe_apps_keep_order`, `_normalize_app`, `_normalize_integration` and
  `_fallback_integrations`.
 */
module Normalizer {
  import opened Wrappers
  import opened PyText
  import opened JsonValues
  import opened SeedHelpers
  import Rand

  /** The normalised application, one field per column the command fills. */
  datatype AppRecord = AppRecord(
    name: string, domain: string, criticality: string, lifecycle: string,
    environment: string, region: string, hosting: string, techStack: string,
    runtime: string, vendor: string, dataSensitivity: string, techDebtScore: int,
    businessOwner: string, itOwner: string, databaseTechnology: string,
    vendorProducts: string)

  /** The normalised integration. */
  datatype IntegrationRecord = IntegrationRecord(
    sourceAppName: string, targetAppName: string, integrationType: string,
    direction: string, dailyVolume: int, dataSensitivity: string,
    transport: string, frequency: string, interfaceName: string)

  /** What normalisation guarantees of every application it returns. */
  predicate ValidApp(a: AppRecord) {
    && a.criticality in AllowedCriticality && a.lifecycle in AllowedLifecycle
    && a.environment in AllowedEnv && a.hosting in AllowedHosting
    && a.dataSensitivity in AllowedSensitivity
    && 0 <= a.techDebtScore <= 100
    && |a.name| <= 200 && |a.domain| <= 100 && |a.region| <= 100 && |a.runtime| <= 100 && |a.vendor| <= 100
    && |a.businessOwner| <= 120 && |a.itOwner| <= 120 && |a.databaseTechnology| <= 120
    && |a.techStack| <= 2000 && |a.vendorProducts| <= 500
  }

  /** What normalisation guarantees of every integration it returns. */
  predicate ValidIntegration(r: IntegrationRecord) {
    && r.integrationType in AllowedIntegrationType && r.direction in AllowedDirection
    && r.dataSensitivity in AllowedSensitivity
    && |r.sourceAppName| <= 200 && |r.targetAppName| <= 200
    && |r.transport| <= 80 && |r.frequency| <= 80 && |r.interfaceName| <= 120
    && CleanShaped(r.sourceAppName) && CleanShaped(r.targetAppName)
  }

  /** `_clean_str(a.get("name"), 200, "").strip()`: the name the command compares applications by. */
  function AppName(item: Item): (r: string)
    ensures Stripped(r) && |r| <= 200
  {
    if item.Record? then Strip(CleanStr(Get(item.fields, "name"), 200, "")) else ""
  }

  /** The case-insensitive key of an application's name. */
  function NameKey(item: Item): (r: string)
    ensures |r| == |AppName(item)| && Lower(r) == r
  {
    LowerIdempotent(AppName(item));
    Lower(AppName(item))
  }

  /** `max(lo, min(hi, x))` */
  function Clamp(x: int, lo: int, hi: int): (r: int)
    requires lo <= hi
    ensures lo <= r <= hi
    ensures lo <= x <= hi ==> r == x
    ensures x < lo ==> r == lo
    ensures x > hi ==> r == hi
  {
    if x < lo then lo else if x > hi then hi else x
  }

  /** An application whose name is not empty after cleaning. */
  predicate HasName(item: Item) {
    AppName(item) != ""
  }

  /** The keys of a list. */
  function KeysOf<T>(s: seq<T>, key: T -> string): set<string> {
    set k | 0 <= k < |s| :: key(s[k])
  }

  /**
    Keep-first deduplication: going left to right, an element is kept when it
    is named and its key was not kept before.
   */
  function KeepFirst<T>(s: seq<T>, key: T -> string, named: T -> bool): (r: seq<T>)
    ensures |r| <= |s|
  {
    if s == [] then []
    else
      var prev := KeepFirst(s[..|s| - 1], key, named);
      var x := s[|s| - 1];
      if !named(x) || key(x) in KeysOf(prev, key) then prev else prev + [x]
  }

  /** The positions in `s` of the elements KeepFirst keeps, in order. */
  function KeptAt<T>(s: seq<T>, key: T -> string, named: T -> bool): (r: seq<nat>)
    ensures |r| == |KeepFirst(s, key, named)|
  {
    if s == [] then []
    else
      var init := s[..|s| - 1];
      var x := s[|s| - 1];
      if !named(x) || key(x) in KeysOf(KeepFirst(init, key, named), key) then KeptAt(init, key, named)
      else KeptAt(init, key, named) + [|s| - 1]
  }

  /** No two elements share a key. */
  predicate DistinctBy<T>(s: seq<T>, key: T -> string) {
    forall a, b :: 0 <= a < b < |s| ==> key(s[a]) != key(s[b])
  }

  /** No two applications share a name key. */
  predicate DistinctKeys(s: seq<Item>) {
    DistinctBy(s, NameKey)
  }

  /**
    The reference definition of `_dedupe_apps_keep_order`: a non-object raises
    AttributeError; otherwise the named applications, first of each key, in order.
   */
  function Dedupe(apps: seq<Item>): (r: Result<seq<Item>, PyError>)
    ensures r.Err? <==> NonRecord in apps
    ensures r.Ok? ==> |r.value| <= |apps|
  {
    if NonRecord in apps then Err(AttributeError)
    else Ok(KeepFirst(apps, NameKey, HasName))
  }

  /** `_dedupe_apps_keep_order(apps)` */
  method DedupeAppsKeepOrder(apps: seq<Item>) returns (r: Result<seq<Item>, PyError>)
    ensures r == Dedupe(apps)
    ensures r.Ok? ==> DistinctKeys(r.value)
    ensures r.Ok? ==> forall i :: 0 <= i < |apps| && HasName(apps[i]) ==> NameKey(apps[i]) in KeysOf(r.value, NameKey)
    ensures r.Ok? ==> forall k :: 0 <= k < |r.value| ==> r.value[k] in apps && HasName(r.value[k])
    ensures r.Ok? ==> var idx := KeptAt(apps, NameKey, HasName);
      && |idx| == |r.value|
      && (forall k :: 0 <= k < |idx| ==> idx[k] < |apps| && r.value[k] == apps[idx[k]])
      && (forall a, b :: 0 <= a < b < |idx| ==> idx[a] < idx[b])
      && (forall k, j :: 0 <= k < |idx| && 0 <= j < idx[k] && HasName(apps[j]) ==> NameKey(apps[j]) != NameKey(r.value[k]))
  {
    var out: seq<Item> := [];
    var seen: set<string> := {};
    for i := 0 to |apps|
      invariant NonRecord !in apps[..i]
      invariant out == KeepFirst(apps[..i], NameKey, HasName)
      invariant seen == KeysOf(out, NameKey)
    {
      if apps[i].NonRecord? {
        return Err(AttributeError);
      }
      KeepFirstStep(apps, i, NameKey, HasName);
      var name := AppName(apps[i]);
      var key := Lower(name);
      if name == "" || key in seen {
        continue;
      }
      KeysOfAppend(out, apps[i], NameKey);
      seen := seen + {key};
      out := out + [apps[i]];
    }
    assert apps[..|apps|] == apps;
    r := Ok(out);
    DedupeFacts(apps);
  }

  /** What keep-first deduplication by name key guarantees, gathered for `_dedupe_apps_keep_order`. */
  lemma DedupeFacts(apps: seq<Item>)
    ensures var out := KeepFirst(apps, NameKey, HasName);
      && DistinctKeys(out)
      && (forall i :: 0 <= i < |apps| && HasName(apps[i]) ==> NameKey(apps[i]) in KeysOf(out, NameKey))
      && (forall k :: 0 <= k < |out| ==> out[k] in apps && HasName(out[k]))
    ensures var out := KeepFirst(apps, NameKey, HasName); var idx := KeptAt(apps, NameKey, HasName);
      && |idx| == |out|
      && (forall k :: 0 <= k < |idx| ==> idx[k] < |apps| && out[k] == apps[idx[k]])
      && (forall a, b :: 0 <= a < b < |idx| ==> idx[a] < idx[b])
      && (forall k, j :: 0 <= k < |idx| && 0 <= j < idx[k] && HasName(apps[j]) ==> NameKey(apps[j]) != NameKey(out[k]))
  {
    KeepFirstDistinct(apps, NameKey, HasName);
    KeepFirstComplete(apps, NameKey, HasName);
    KeepFirstFromInput(apps, NameKey, HasName);
    KeepFirstOrder(apps, NameKey, HasName);
  }

  /** One more element of the input: KeepFirst keeps it or leaves the result as it was. */
  lemma KeepFirstStep<T>(s: seq<T>, i: nat, key: T -> string, named: T -> bool)
    requires i < |s|
    ensures var prev := KeepFirst(s[..i], key, named);
      KeepFirst(s[..i + 1], key, named) ==
        if !named(s[i]) || key(s[i]) in KeysOf(prev, key) then prev else prev + [s[i]]
  {
    assert s[..i + 1][..i] == s[..i];
  }

  lemma KeysOfAppend<T>(s: seq<T>, x: T, key: T -> string)
    ensures KeysOf(s + [x], key) == KeysOf(s, key) + {key(x)}
  {
    var t := s + [x];
    assert key(t[|s|]) in KeysOf(t, key);
    forall k | 0 <= k < |s| ensures key(t[k]) == key(s[k]) {
    }
  }

  /** No two kept elements share a key. */
  lemma {:induction false} KeepFirstDistinct<T>(s: seq<T>, key: T -> string, named: T -> bool)
    ensures DistinctBy(KeepFirst(s, key, named), key)
  {
    if s != [] {
      var prev := KeepFirst(s[..|s| - 1], key, named);
      KeepFirstDistinct(s[..|s| - 1], key, named);
      var x := s[|s| - 1];
      if named(x) && key(x) !in KeysOf(prev, key) {
        var t := prev + [x];
        forall a, b | 0 <= a < b < |t| ensures key(t[a]) != key(t[b]) {
          if b == |prev| {
            assert key(prev[a]) in KeysOf(prev, key);
          }
        }
      }
    }
  }

  /**
    KeepFirst keeps a subsequence: its elements are the input's at strictly
    increasing positions, each one named, and no named element before a kept
    one has its key, so each kept element is the first of its key.
   */
  lemma {:induction false} KeepFirstOrder<T>(s: seq<T>, key: T -> string, named: T -> bool)
    ensures var r := KeepFirst(s, key, named); var idx := KeptAt(s, key, named);
      && |idx| == |r|
      && (forall k :: 0 <= k < |idx| ==> idx[k] < |s| && r[k] == s[idx[k]] && named(r[k]))
      && (forall a, b :: 0 <= a < b < |idx| ==> idx[a] < idx[b])
      && (forall k, j :: 0 <= k < |idx| && 0 <= j < idx[k] && named(s[j]) ==> key(s[j]) != key(r[k]))
  {
    if s != [] {
      var init := s[..|s| - 1];
      var x := s[|s| - 1];
      var prev := KeepFirst(init, key, named);
      KeepFirstOrder(init, key, named);
      var idx := KeptAt(init, key, named);
      assert forall j :: 0 <= j < |init| ==> init[j] == s[j];
      if named(x) && key(x) !in KeysOf(prev, key) {
        KeepFirstComplete(init, key, named);
        var r := prev + [x];
        var idx2 := idx + [|s| - 1];
        forall k, j | 0 <= k < |idx2| && 0 <= j < idx2[k] && named(s[j]) ensures key(s[j]) != key(r[k]) {
          if k == |idx| {
            assert named(init[j]);
          }
        }
      }
    }
  }

  /** Every named element has its key among the kept ones. */
  lemma {:induction false} KeepFirstComplete<T>(s: seq<T>, key: T -> string, named: T -> bool)
    ensures forall i :: 0 <= i < |s| && named(s[i]) ==> key(s[i]) in KeysOf(KeepFirst(s, key, named), key)
  {
    if s != [] {
      var init := s[..|s| - 1];
      KeepFirstComplete(init, key, named);
      var prev := KeepFirst(init, key, named);
      var x := s[|s| - 1];
      if named(x) && key(x) !in KeysOf(prev, key) {
        KeysOfAppend(prev, x, key);
      }
      forall i | 0 <= i < |s| && named(s[i]) ensures key(s[i]) in KeysOf(KeepFirst(s, key, named), key) {
        if i < |init| {
          assert init[i] == s[i];
        }
      }
    }
  }

  /** Every kept element comes from the input and is named. */
  lemma {:induction false} KeepFirstFromInput<T>(s: seq<T>, key: T -> string, named: T -> bool)
    ensures forall k :: 0 <= k < |KeepFirst(s, key, named)| ==>
      KeepFirst(s, key, named)[k] in s && named(KeepFirst(s, key, named)[k])
  {
    if s != [] {
      var init := s[..|s| - 1];
      KeepFirstFromInput(init, key, named);
      assert forall x :: x in init ==> x in s;
    }
  }

  /** The vendor products a record without them gets: 1 to 3 distinct products from the pool, joined by ", ". */
  function VendorFallback(d: Rand.Draws): (r: string)
    ensures |r| <= 500
  {
    var k := Rand.RandInt(1, 3, d(3));
    var picked := Rand.Sample(VendorProducts, Rand.Take(d, 4, k));
    assert forall i :: 0 <= i < |picked| ==> |picked[i]| <= 17 by {
      assert forall x :: x in VendorProducts ==> |x| <= 17;
    }
    JoinLength(", ", picked, 17);
    Join(", ", picked)
  }

  /**
    `_normalize_app(a)`: every field cleaned or checked against its allowed set,
    the debt score clamped to 0..100. A non-object raises AttributeError; a debt
    score that `int()` rejects raises. The random fallbacks consume draws 0 (business
    owner), 1 (IT owner), 2 (database), 3 (how many vendor products) and 4.. (which).
   */
  function NormalizeApp(item: Item, d: Rand.Draws): (r: Result<AppRecord, PyError>)
    ensures item.NonRecord? ==> r == Err(AttributeError)
    ensures item.Record? ==> (r.Err? <==> IntOrZero(Get(item.fields, "tech_debt_score")).Err?)
    ensures r.Ok? ==> ValidApp(r.value)
    ensures r.Ok? ==> r.value.techDebtScore == Clamp(IntOrZero(Get(item.fields, "tech_debt_score")).value, 0, 100)
    ensures r.Ok? && AppName(item) != "" ==> Strip(r.value.name) == AppName(item)
    ensures r.Ok? && Get(item.fields, "name").Null? ==> r.value.name == "Unnamed App"
    ensures r.Ok? && Get(item.fields, "business_owner").Null? ==> r.value.businessOwner in OwnersBusiness
    ensures r.Ok? && Get(item.fields, "it_owner").Null? ==> r.value.itOwner in OwnersIt
    ensures r.Ok? && Get(item.fields, "database_technology").Null? ==> r.value.databaseTechnology in DbTech
    ensures r.Ok? && Get(item.fields, "vendor_products").Null? ==> r.value.vendorProducts == VendorFallback(d)
  {
    match item
    case NonRecord => Err(AttributeError)
    case Record(f) =>
      var score := IntOrZero(Get(f, "tech_debt_score"));
      if score.Err? then Err(score.error)
      else
        var name := CleanStr(Get(f, "name"), 200, "Unnamed App");
        assert !Get(f, "name").Null? ==> name == CleanStr(Get(f, "name"), 200, "");
        PoolLengths();
        Ok(AppRecord(
          name := name,
          domain := CleanStr(Get(f, "domain"), 100, "General"),
          criticality := Norm(Get(f, "criticality"), AllowedCriticality, "Medium"),
          lifecycle := Norm(Get(f, "lifecycle"), AllowedLifecycle, "Active"),
          environment := Norm(Get(f, "environment"), AllowedEnv, "UAT"),
          region := CleanStr(Get(f, "region"), 100, "EU"),
          hosting := Norm(Get(f, "hosting"), AllowedHosting, "hybrid"),
          techStack := CleanText(Get(f, "tech_stack"), 2000, "N/A"),
          runtime := CleanStr(Get(f, "runtime"), 100, "N/A"),
          vendor := CleanStr(Get(f, "vendor"), 100, "Internal"),
          dataSensitivity := Norm(Get(f, "data_sensitivity"), AllowedSensitivity, "Medium"),
          techDebtScore := Clamp(score.value, 0, 100),
          businessOwner := CleanStr(Get(f, "business_owner"), 120, Pick(OwnersBusiness, "Business Owner", d(0))),
          itOwner := CleanStr(Get(f, "it_owner"), 120, Pick(OwnersIt, "IT Owner", d(1))),
          databaseTechnology := CleanStr(Get(f, "database_technology"), 120, Pick(DbTech, "", d(2))),
          vendorProducts := CleanText(Get(f, "vendor_products"), 500, VendorFallback(d))))
  }

  /** Every fallback a field can take fits the field's length limit. */
  lemma PoolLengths()
    ensures forall x :: x in OwnersBusiness ==> |x| <= 120
    ensures forall x :: x in OwnersIt ==> |x| <= 120
    ensures forall x :: x in DbTech ==> |x| <= 120
    ensures forall x :: x in TransportPool ==> |x| <= 80
    ensures forall x :: x in FrequencyPool ==> |x| <= 80
  {
  }

  /**
    `_normalize_integration(i)`: endpoints and labels cleaned, enumerated fields
    checked against their sets, the daily volume read with `int(v or 0)` and kept
    as given (it is not clamped). Draws 0 and 1 pick the missing transport and frequency.
   */
  function NormalizeIntegration(item: Item, d: Rand.Draws): (r: Result<IntegrationRecord, PyError>)
    ensures item.NonRecord? ==> r == Err(AttributeError)
    ensures item.Record? ==> (r.Err? <==> IntOrZero(Get(item.fields, "daily_volume")).Err?)
    ensures r.Ok? ==> ValidIntegration(r.value)
    ensures r.Ok? ==> r.value.dailyVolume == IntOrZero(Get(item.fields, "daily_volume")).value
    ensures r.Ok? ==> && r.value.sourceAppName == CleanStr(Get(item.fields, "source_app_name"), 200, "")
                      && r.value.targetAppName == CleanStr(Get(item.fields, "target_app_name"), 200, "")
    ensures r.Ok? ==> && r.value.integrationType == Norm(Get(item.fields, "integration_type"), AllowedIntegrationType, "API")
                      && r.value.direction == Norm(Get(item.fields, "direction"), AllowedDirection, "async")
                      && r.value.dataSensitivity == Norm(Get(item.fields, "data_sensitivity"), AllowedSensitivity, "Medium")
    ensures r.Ok? && Get(item.fields, "transport").Null? ==> r.value.transport in TransportPool
    ensures r.Ok? && Get(item.fields, "frequency").Null? ==> r.value.frequency in FrequencyPool
  {
    match item
    case NonRecord => Err(AttributeError)
    case Record(f) =>
      var volume := IntOrZero(Get(f, "daily_volume"));
      if volume.Err? then Err(volume.error)
      else
        var src := CleanStr(Get(f, "source_app_name"), 200, "");
        var tgt := CleanStr(Get(f, "target_app_name"), 200, "");
        var ty := Norm(Get(f, "integration_type"), AllowedIntegrationType, "API");
        var dir := Norm(Get(f, "direction"), AllowedDirection, "async");
        var sens := Norm(Get(f, "data_sensitivity"), AllowedSensitivity, "Medium");
        assert CleanShaped(src) && CleanShaped(tgt) && |src| <= 200 && |tgt| <= 200;
        PoolLengths();
        assert ty in AllowedIntegrationType && dir in AllowedDirection && sens in AllowedSensitivity;
        Ok(IntegrationRecord(
          sourceAppName := src,
          targetAppName := tgt,
          integrationType := ty,
          direction := dir,
          dailyVolume := volume.value,
          dataSensitivity := sens,
          transport := CleanStr(Get(f, "transport"), 80, Pick(TransportPool, "", d(0))),
          frequency := CleanStr(Get(f, "frequency"), 80, Pick(FrequencyPool, "", d(1))),
          interfaceName := CleanStr(Get(f, "interface_name"), 120, "")))
  }

  /** The products in the pool are all different. */
  lemma VendorProductsDistinct()
    ensures Rand.Distinct(VendorProducts)
  {
  }

  /** A record's missing vendor products become 1 to 3 different products of the pool. */
  lemma VendorFallbackShape(d: Rand.Draws)
    ensures exists s: seq<string> ::
      && 1 <= |s| <= 3 && Rand.Distinct(s) && (forall x :: x in s ==> x in VendorProducts)
      && VendorFallback(d) == Join(", ", s)
  {
    VendorProductsDistinct();
    var k := Rand.RandInt(1, 3, d(3));
    var s := Rand.Sample(VendorProducts, Rand.Take(d, 4, k));
    assert VendorFallback(d) == Join(", ", s);
  }

  /** The record `_fallback_integrations` writes for one pair of applications. */
  function FallbackRecord(src: string, tgt: string, d: Rand.Draws): Item {
    Record(map[
      "source_app_name" := Str(src),
      "target_app_name" := Str(tgt),
      "integration_type" := Str(Rand.Choice(AllowedIntegrationType, d(2))),
      "direction" := Str(Rand.Choice(AllowedDirection, d(3))),
      "daily_volume" := Int(Rand.RandInt(1000, 300000, d(4))),
      "data_sensitivity" := Str(Rand.Choice(AllowedSensitivity, d(5))),
      "transport" := Str(Pick(TransportPool, "", d(6))),
      "frequency" := Str(Pick(FrequencyPool, "", d(7))),
      "interface_name" := Str(src + " -> " + tgt + " interface")])
  }

  /**
    `random.sample(app_names, 2)` for one fallback record (its draws 0 and 1):
    two members of the list taken at different positions, so two different
    names when the list has no repeats.
   */
  function FallbackPair(names: seq<string>, d: Rand.Draws): (p: (string, string))
    requires |names| >= 2
    ensures p.0 in names && p.1 in names
    ensures Rand.Distinct(names) ==> p.0 != p.1
  {
    var s := Rand.Sample(names, [d(0), d(1)]);
    (s[0], s[1])
  }

  /** The record written for one fallback integration. */
  function FallbackFor(names: seq<string>, d: Rand.Draws): (r: Item)
    requires |names| >= 2
    ensures r.Record?
    ensures Get(r.fields, "source_app_name").Str? && Get(r.fields, "source_app_name").s in names
    ensures Get(r.fields, "target_app_name").Str? && Get(r.fields, "target_app_name").s in names
    ensures Rand.Distinct(names) ==> Get(r.fields, "source_app_name") != Get(r.fields, "target_app_name")
  {
    var p := FallbackPair(names, d);
    FallbackFields(p.0, p.1, d);
    FallbackRecord(p.0, p.1, d)
  }

  /**
    `_fallback_integrations(app_names, n)`: nothing for fewer than two names;
    otherwise n records, record k drawn with draws(k).
   */
  method FallbackIntegrations(names: seq<string>, n: nat, draws: nat -> Rand.Draws) returns (out: seq<Item>)
    ensures |names| < 2 ==> out == []
    ensures |names| >= 2 ==> |out| == n && forall k :: 0 <= k < n ==> out[k] == FallbackFor(names, draws(k))
  {
    out := [];
    if |names| < 2 {
      return;
    }
    for k := 0 to n
      invariant |out| == k
      invariant forall j :: 0 <= j < k ==> out[j] == FallbackFor(names, draws(j))
    {
      out := out + [FallbackFor(names, draws(k))];
    }
  }

  /** Fallback values are literals the normaliser keeps. */
  lemma AllowedAreStripped()
    ensures forall x :: x in AllowedIntegrationType ==> Strip(x) == x
    ensures forall x :: x in AllowedDirection ==> Strip(x) == x
    ensures forall x :: x in AllowedSensitivity ==> Strip(x) == x
  {
    forall x | x in AllowedIntegrationType + AllowedDirection + AllowedSensitivity
      ensures Strip(x) == x
    {
      StripOfStripped(x);
    }
  }

  /** The fields of a fallback record that normalisation reads back. */
  lemma FallbackFields(src: string, tgt: string, d: Rand.Draws)
    ensures var f := FallbackRecord(src, tgt, d).fields;
      && Get(f, "source_app_name") == Str(src) && Get(f, "target_app_name") == Str(tgt)
      && Get(f, "integration_type") == Str(Rand.Choice(AllowedIntegrationType, d(2)))
      && Get(f, "direction") == Str(Rand.Choice(AllowedDirection, d(3)))
      && Get(f, "daily_volume") == Int(Rand.RandInt(1000, 300000, d(4)))
      && Get(f, "data_sensitivity") == Str(Rand.Choice(AllowedSensitivity, d(5)))
  {
  }

  /** Clean endpoint names are kept as they are. */
  lemma NormalizedEndpoints(f: map<string, Value>, e: Rand.Draws, src: string, tgt: string)
    requires CleanStr(Str(src), 200, "") == src && CleanStr(Str(tgt), 200, "") == tgt
    requires Get(f, "source_app_name") == Str(src) && Get(f, "target_app_name") == Str(tgt)
    requires IntOrZero(Get(f, "daily_volume")).Ok?
    ensures NormalizeIntegration(Record(f), e).Ok?
    ensures NormalizeIntegration(Record(f), e).value.sourceAppName == src
    ensures NormalizeIntegration(Record(f), e).value.targetAppName == tgt
  {
  }

  /** Allowed labels and a numeric volume are kept as they are. */
  lemma NormalizedLabels(f: map<string, Value>, e: Rand.Draws, ty: string, dir: string, sens: string, vol: int)
    requires ty in AllowedIntegrationType && dir in AllowedDirection && sens in AllowedSensitivity
    requires Get(f, "integration_type") == Str(ty) && Get(f, "direction") == Str(dir)
    requires Get(f, "data_sensitivity") == Str(sens) && Get(f, "daily_volume") == Int(vol)
    ensures NormalizeIntegration(Record(f), e).Ok?
    ensures NormalizeIntegration(Record(f), e).value.integrationType == ty
    ensures NormalizeIntegration(Record(f), e).value.direction == dir
    ensures NormalizeIntegration(Record(f), e).value.dataSensitivity == sens
    ensures NormalizeIntegration(Record(f), e).value.dailyVolume == vol
  {
    assert Norm(Str(ty), AllowedIntegrationType, "API") == ty && Norm(Str(dir), AllowedDirection, "async") == dir
      && Norm(Str(sens), AllowedSensitivity, "Medium") == sens by {
      AllowedAreStripped();
      NormOfAllowed(ty, AllowedIntegrationType, "API");
      NormOfAllowed(dir, AllowedDirection, "async");
      NormOfAllowed(sens, AllowedSensitivity, "Medium");
    }
    assert IntOrZero(Int(vol)) == Ok(vol);
  }

  lemma NormOfAllowed(x: string, allowed: seq<string>, fallback: string)
    requires x in allowed && Strip(x) == x
    ensures Norm(Str(x), allowed, fallback) == x
  {
  }

  /**
    A fallback record between two clean names normalises to an integration
    between the same two applications, with the drawn type, direction,
    sensitivity and volume.
   */
  lemma FallbackNormalizes(src: string, tgt: string, d: Rand.Draws, e: Rand.Draws)
    requires Stripped(src) && SingleSpaced(src) && |src| <= 200
    requires Stripped(tgt) && SingleSpaced(tgt) && |tgt| <= 200
    ensures var r := NormalizeIntegration(FallbackRecord(src, tgt, d), e);
      && r.Ok?
      && r.value.sourceAppName == src && r.value.targetAppName == tgt
      && r.value.integrationType == Rand.Choice(AllowedIntegrationType, d(2))
      && r.value.direction == Rand.Choice(AllowedDirection, d(3))
      && r.value.dataSensitivity == Rand.Choice(AllowedSensitivity, d(5))
      && r.value.dailyVolume == Rand.RandInt(1000, 300000, d(4))
  {
    var f := FallbackRecord(src, tgt, d).fields;
    FallbackFields(src, tgt, d);
    NormalizedLabels(f, e, Rand.Choice(AllowedIntegrationType, d(2)), Rand.Choice(AllowedDirection, d(3)),
      Rand.Choice(AllowedSensitivity, d(5)), Rand.RandInt(1000, 300000, d(4)));
    CleanStrFixedPoint(src, 200, "");
    CleanStrFixedPoint(tgt, 200, "");
    NormalizedEndpoints(f, e, src, tgt);
  }
}

=== FILE: portfolio.dfy ===
/**
  The database the seeding command writes, and the writes it makes:
  applications upserted by name, capabilities assigned, technical-debt items
  created, integrations upserted by (source, target, type), and the ring pass
  that gives every application an inbound and an outbound integration.
  Each `transaction.atomic()` block is one method that changes nothing when it
  fails.
 */
module Portfolio {
  import opened Wrappers
  import opened PyText
  import opened SeedHelpers
  import opened Normalizer
  import Rand

  /** An `Application` row: its primary key and the columns the command writes. */
  datatype AppRow = AppRow(id: nat, fields: AppRecord)

  /** An application as the pages show it: its id and name. */
  datatype AppRef = AppRef(id: nat, name: string)

  /** An `Integration` row; `src` and `tgt` are application ids. */
  datatype Edge = Edge(
    src: nat, tgt: nat, integrationType: string, direction: string, dailyVolume: int,
    dataSensitivity: string, transport: string, frequency: string, interfaceName: string)

  /** A `TechDebtItem` row; `app` is an application id. */
  datatype DebtItem = DebtItem(
    app: nat, category: string, severity: string, status: string, title: string, description: string)

  /** The ids of the application rows. */
  function Ids(apps: seq<AppRow>): set<nat> {
    set k | 0 <= k < |apps| :: apps[k].id
  }

  /** Rows are kept in id order (`order_by("id")`); ids are therefore distinct. */
  predicate IdOrdered(apps: seq<AppRow>) {
    forall i, j :: 0 <= i < j < |apps| ==> apps[i].id < apps[j].id
  }

  /** No two rows share a name. */
  predicate NamesDistinct(apps: seq<AppRow>) {
    forall i, j :: 0 <= i < j < |apps| ==> apps[i].fields.name != apps[j].fields.name
  }

  /** The id SQLite gives a new row: one more than the largest, 1 in an empty table. */
  function NewId(apps: seq<AppRow>): (r: nat)
    requires IdOrdered(apps)
    ensures r > 0 && forall k :: 0 <= k < |apps| ==> apps[k].id < r
  {
    if apps == [] then 1 else apps[|apps| - 1].id + 1
  }

  /** `Application.objects.filter(name=name)`: the positions of the rows with that name, in order. */
  function NamedAt(apps: seq<AppRow>, name: string): (r: seq<nat>)
    ensures forall k :: k in r <==> 0 <= k < |apps| && apps[k].fields.name == name
  {
    if apps == [] then []
    else
      var init := NamedAt(apps[..|apps| - 1], name);
      assert forall k :: 0 <= k < |apps| - 1 ==> apps[..|apps| - 1][k] == apps[k];
      init + (if apps[|apps| - 1].fields.name == name then [|apps| - 1] else [])
  }

  /** The positions come in increasing order. */
  lemma {:induction false} NamedAtIncreasing(apps: seq<AppRow>, name: string)
    ensures forall i :: 0 <= i < |NamedAt(apps, name)| ==> NamedAt(apps, name)[i] < |apps|
    ensures forall i, j :: 0 <= i < j < |NamedAt(apps, name)| ==> NamedAt(apps, name)[i] < NamedAt(apps, name)[j]
    decreases |apps|
  {
    if apps != [] {
      var init := apps[..|apps| - 1];
      NamedAtIncreasing(init, name);
      assert NamedAt(apps, name) == NamedAt(init, name) + (if apps[|apps| - 1].fields.name == name then [|apps| - 1] else []);
    }
  }

  lemma NamedAtPosition(apps: seq<AppRow>, name: string, i: nat)
    requires i < |NamedAt(apps, name)|
    ensures NamedAt(apps, name)[i] < |apps| && apps[NamedAt(apps, name)[i]].fields.name == name
  {
    assert NamedAt(apps, name)[i] in NamedAt(apps, name);
  }

  /** With distinct names, at most one row has a given name. */
  lemma AtMostOneNamed(apps: seq<AppRow>, name: string)
    requires NamesDistinct(apps)
    ensures |NamedAt(apps, name)| <= 1
  {
    var r := NamedAt(apps, name);
    if |r| >= 2 {
      NamedAtIncreasing(apps, name);
      NamedAtPosition(apps, name, 0);
      NamedAtPosition(apps, name, 1);
    }
  }

  /**
    `Application.objects.get_or_create(name=a.name)` followed by writing every
    column of `a`: the result is the rows and the id of the row written. Two
    rows with that name make `get` raise (MultipleObjectsReturned).
   */
  function UpsertApp(apps: seq<AppRow>, a: AppRecord): (r: Result<(seq<AppRow>, nat), PyError>)
    requires IdOrdered(apps)
    ensures r.Err? <==> |NamedAt(apps, a.name)| >= 2
    ensures r.Ok? ==> IdOrdered(r.value.0) && Ids(apps) <= Ids(r.value.0) && r.value.1 in Ids(r.value.0)
    ensures r.Ok? ==> |r.value.0| == |apps| + (if NamedAt(apps, a.name) == [] then 1 else 0)
    // the one row with the name holds the record; every other row is as it was
    ensures r.Ok? ==> forall k :: 0 <= k < |r.value.0| ==>
      if r.value.0[k].fields.name == a.name then r.value.0[k] == AppRow(r.value.1, a)
      else k < |apps| && r.value.0[k] == apps[k]
  {
    var at := NamedAt(apps, a.name);
    if |at| >= 2 then Err(Unexpected)
    else if |at| == 1 then
      assert at[0] in at;
      RewriteRow(apps, at[0], a);
      Ok((apps[at[0] := AppRow(apps[at[0]].id, a)], apps[at[0]].id))
    else
      AppendRow(apps, a);
      Ok((apps + [AppRow(NewId(apps), a)], NewId(apps)))
  }

  /** Writing the columns of the one row named `a.name` keeps its id and every other row. */
  lemma RewriteRow(apps: seq<AppRow>, j: nat, a: AppRecord)
    requires IdOrdered(apps) && j < |apps| && apps[j].fields.name == a.name
    requires forall k :: 0 <= k < |apps| && apps[k].fields.name == a.name ==> k == j
    ensures var rows := apps[j := AppRow(apps[j].id, a)];
      && IdOrdered(rows) && Ids(rows) == Ids(apps)
      && forall k :: 0 <= k < |rows| ==>
           if rows[k].fields.name == a.name then rows[k] == AppRow(apps[j].id, a)
           else rows[k] == apps[k]
  {
    var rows := apps[j := AppRow(apps[j].id, a)];
    assert forall k :: 0 <= k < |apps| ==> rows[k].id == apps[k].id;
  }

  /** A new row gets an id above every other and leaves the others as they were. */
  lemma AppendRow(apps: seq<AppRow>, a: AppRecord)
    requires IdOrdered(apps)
    ensures var rows := apps + [AppRow(NewId(apps), a)];
      && IdOrdered(rows) && Ids(apps) <= Ids(rows) && NewId(apps) in Ids(rows)
      && forall k :: 0 <= k < |apps| ==> rows[k] == apps[k]
  {
    var rows := apps + [AppRow(NewId(apps), a)];
    assert rows[|apps|].id == NewId(apps);
    forall k | 0 <= k < |apps| ensures apps[k].id in Ids(rows) {
      assert rows[k] == apps[k];
    }
  }

  /** The application table and `name_to_app` after the seeding loop. */
  datatype Seeded = Seeded(apps: seq<AppRow>, nameToApp: map<string, nat>)

  /** `name_to_app` points every name it holds at the one row with that name. */
  predicate IndexesRows(s: Seeded) {
    && (forall name :: name in s.nameToApp ==> s.nameToApp[name] in Ids(s.apps))
    && (forall k :: 0 <= k < |s.apps| && s.apps[k].fields.name in s.nameToApp ==>
          s.apps[k].id == s.nameToApp[s.apps[k].fields.name])
  }

  /** The upsert of each normalised application in turn, from the given table. */
  function SeedRows(apps: seq<AppRow>, norm: seq<AppRecord>): (r: Result<Seeded, PyError>)
    requires IdOrdered(apps)
    ensures r.Ok? ==> IdOrdered(r.value.apps) && Ids(apps) <= Ids(r.value.apps)
    decreases |norm|
  {
    if norm == [] then Ok(Seeded(apps, map[]))
    else
      var prev := SeedRows(apps, norm[..|norm| - 1]);
      if prev.Err? then prev
      else
        var a := norm[|norm| - 1];
        var up := UpsertApp(prev.value.apps, a);
        if up.Err? then Err(up.error)
        else
          Ok(Seeded(up.value.0, prev.value.nameToApp[a.name := up.value.1]))
  }

  /** What a successful seeding pass gives: `name_to_app` maps every seeded name to the id of its row. */
  lemma SeedRowsFacts(apps: seq<AppRow>, norm: seq<AppRecord>)
    requires IdOrdered(apps)
    ensures SeedRows(apps, norm).Ok? ==> IndexesRows(SeedRows(apps, norm).value)
    ensures SeedRows(apps, norm).Ok? ==> forall i :: 0 <= i < |norm| ==> norm[i].name in SeedRows(apps, norm).value.nameToApp
  {
    if SeedRows(apps, norm).Ok? {
      SeedRowsIndexes(apps, norm);
      SeedRowsNamesAll(apps, norm);
    }
  }

  /** Every seeded name is in `name_to_app`. */
  lemma {:induction false} SeedRowsNamesAll(apps: seq<AppRow>, norm: seq<AppRecord>)
    requires IdOrdered(apps) && SeedRows(apps, norm).Ok?
    ensures forall i :: 0 <= i < |norm| ==> norm[i].name in SeedRows(apps, norm).value.nameToApp
    decreases |norm|
  {
    if norm != [] {
      var init := norm[..|norm| - 1];
      var prev := SeedRows(apps, init);
      SeedRowsNamesAll(apps, init);
      var m := SeedRows(apps, norm).value.nameToApp;
      assert prev.value.nameToApp.Keys <= m.Keys && norm[|norm| - 1].name in m;
      forall i | 0 <= i < |norm| - 1 ensures norm[i].name in m {
        assert init[i] == norm[i];
      }
    }
  }

  /** Once an upsert raises, the seeding raises. */
  lemma {:induction false} SeedRowsErrSticks(apps: seq<AppRow>, norm: seq<AppRecord>, i: nat)
    requires IdOrdered(apps) && i <= |norm| && SeedRows(apps, norm[..i]).Err?
    ensures SeedRows(apps, norm) == SeedRows(apps, norm[..i])
    decreases |norm| - i
  {
    if i < |norm| {
      assert norm[..i + 1][..i] == norm[..i];
      SeedRowsErrSticks(apps, norm, i + 1);
    } else {
      assert norm[..i] == norm;
    }
  }

  /** `name_to_app` points every name it holds at the one row with that name. */
  lemma {:induction false} SeedRowsIndexes(apps: seq<AppRow>, norm: seq<AppRecord>)
    requires IdOrdered(apps) && SeedRows(apps, norm).Ok?
    ensures IndexesRows(SeedRows(apps, norm).value)
    decreases |norm|
  {
    if norm != [] {
      var init := norm[..|norm| - 1];
      var prev := SeedRows(apps, init);
      assert prev.Ok?;
      SeedRowsIndexes(apps, init);
      var a := norm[|norm| - 1];
      var up := UpsertApp(prev.value.apps, a);
      UpsertKeepsIndex(prev.value, a, up.value.0, up.value.1);
    }
  }

  lemma UpsertKeepsIndex(s: Seeded, a: AppRecord, rows: seq<AppRow>, id: nat)
    requires IdOrdered(s.apps) && IndexesRows(s)
    requires UpsertApp(s.apps, a) == Ok((rows, id))
    ensures IndexesRows(Seeded(rows, s.nameToApp[a.name := id]))
  {
  }

  /** A table without duplicate names never makes the seeding fail, and keeps its names distinct. */
  lemma {:induction false} SeedRowsSucceeds(apps: seq<AppRow>, norm: seq<AppRecord>)
    requires IdOrdered(apps) && NamesDistinct(apps)
    ensures SeedRows(apps, norm).Ok? && NamesDistinct(SeedRows(apps, norm).value.apps)
    decreases |norm|
  {
    if norm != [] {
      SeedRowsSucceeds(apps, norm[..|norm| - 1]);
      var prev := SeedRows(apps, norm[..|norm| - 1]).value;
      AtMostOneNamed(prev.apps, norm[|norm| - 1].name);
      UpsertKeepsNamesDistinct(prev.apps, norm[|norm| - 1]);
    }
  }

  lemma UpsertKeepsNamesDistinct(apps: seq<AppRow>, a: AppRecord)
    requires IdOrdered(apps) && NamesDistinct(apps) && |NamedAt(apps, a.name)| <= 1
    ensures UpsertApp(apps, a).Ok? && NamesDistinct(UpsertApp(apps, a).value.0)
  {
    var rows := UpsertApp(apps, a).value.0;
    forall i, j | 0 <= i < j < |rows| ensures rows[i].fields.name != rows[j].fields.name {
    }
  }

  /** The uniqueness key of `get_or_create(source_app, target_app, integration_type)`. */
  function Key(e: Edge): (nat, nat, string) {
    (e.src, e.tgt, e.integrationType)
  }

  /** No two integrations share a key. */
  predicate KeysUnique(edges: seq<Edge>) {
    forall i, j :: 0 <= i < j < |edges| ==> Key(edges[i]) != Key(edges[j])
  }

  /** `Integration.objects.filter(source_app=.., target_app=.., integration_type=..)`: positions in order. */
  function KeyedAt(edges: seq<Edge>, key: (nat, nat, string)): (r: seq<nat>)
    ensures forall k :: k in r <==> 0 <= k < |edges| && Key(edges[k]) == key
  {
    if edges == [] then []
    else
      var init := KeyedAt(edges[..|edges| - 1], key);
      assert forall k :: 0 <= k < |edges| - 1 ==> edges[..|edges| - 1][k] == edges[k];
      init + (if Key(edges[|edges| - 1]) == key then [|edges| - 1] else [])
  }

  /** The positions come in increasing order. */
  lemma {:induction false} KeyedAtIncreasing(edges: seq<Edge>, key: (nat, nat, string))
    ensures forall i :: 0 <= i < |KeyedAt(edges, key)| ==> KeyedAt(edges, key)[i] < |edges|
    ensures forall i, j :: 0 <= i < j < |KeyedAt(edges, key)| ==> KeyedAt(edges, key)[i] < KeyedAt(edges, key)[j]
    decreases |edges|
  {
    if edges != [] {
      var init := edges[..|edges| - 1];
      KeyedAtIncreasing(init, key);
      assert KeyedAt(edges, key) == KeyedAt(init, key) + (if Key(edges[|edges| - 1]) == key then [|edges| - 1] else []);
    }
  }

  lemma KeyedAtPosition(edges: seq<Edge>, key: (nat, nat, string), i: nat)
    requires i < |KeyedAt(edges, key)|
    ensures KeyedAt(edges, key)[i] < |edges| && Key(edges[KeyedAt(edges, key)[i]]) == key
  {
    assert KeyedAt(edges, key)[i] in KeyedAt(edges, key);
  }

  /** The applications with an outbound integration (`filter(source_app=app).exists()`). */
  function Sources(edges: seq<Edge>): (r: set<nat>)
    ensures forall k :: 0 <= k < |edges| ==> edges[k].src in r
  {
    if edges == [] then {}
    else
      assert forall k :: 0 <= k < |edges| - 1 ==> edges[..|edges| - 1][k] == edges[k];
      Sources(edges[..|edges| - 1]) + {edges[|edges| - 1].src}
  }

  /** The applications with an inbound integration (`filter(target_app=app).exists()`). */
  function Targets(edges: seq<Edge>): (r: set<nat>)
    ensures forall k :: 0 <= k < |edges| ==> edges[k].tgt in r
  {
    if edges == [] then {}
    else
      assert forall k :: 0 <= k < |edges| - 1 ==> edges[..|edges| - 1][k] == edges[k];
      Targets(edges[..|edges| - 1]) + {edges[|edges| - 1].tgt}
  }

  /** The set holds nothing else: every member is the source of some row. */
  lemma {:induction false} SourcesExact(edges: seq<Edge>)
    ensures forall v :: v in Sources(edges) ==> exists k :: 0 <= k < |edges| && edges[k].src == v
    decreases |edges|
  {
    if edges != [] {
      var init := edges[..|edges| - 1];
      SourcesExact(init);
      forall v | v in Sources(edges) ensures exists k :: 0 <= k < |edges| && edges[k].src == v {
        if v in Sources(init) {
          var k :| 0 <= k < |init| && init[k].src == v;
          assert edges[k] == init[k];
        } else {
          assert edges[|edges| - 1].src == v;
        }
      }
    }
  }

  /** The set holds nothing else: every member is the target of some row. */
  lemma {:induction false} TargetsExact(edges: seq<Edge>)
    ensures forall v :: v in Targets(edges) ==> exists k :: 0 <= k < |edges| && edges[k].tgt == v
    decreases |edges|
  {
    if edges != [] {
      var init := edges[..|edges| - 1];
      TargetsExact(init);
      forall v | v in Targets(edges) ensures exists k :: 0 <= k < |edges| && edges[k].tgt == v {
        if v in Targets(init) {
          var k :| 0 <= k < |init| && init[k].tgt == v;
          assert edges[k] == init[k];
        } else {
          assert edges[|edges| - 1].tgt == v;
        }
      }
    }
  }

  /** Every row's source and target are among them. */
  lemma {:induction false} InSources(edges: seq<Edge>, k: nat)
    requires k < |edges|
    ensures edges[k].src in Sources(edges) && edges[k].tgt in Targets(edges)
    decreases |edges|
  {
    var init := edges[..|edges| - 1];
    if k < |init| {
      InSources(init, k);
      assert init[k] == edges[k];
    }
  }

  /** The three enumerated columns of an integration hold allowed values. */
  predicate LabelsAllowed(e: Edge) {
    e.integrationType in AllowedIntegrationType && e.direction in AllowedDirection
    && e.dataSensitivity in AllowedSensitivity
  }

  /** The row a normalised integration between two known applications is written as. */
  function EdgeOf(src: nat, tgt: nat, it: IntegrationRecord): Edge {
    Edge(src, tgt, it.integrationType, it.direction, it.dailyVolume, it.dataSensitivity,
      it.transport, it.frequency, it.interfaceName)
  }

  /**
    `Integration.objects.get_or_create(...)` on the key of `e` followed by writing
    its other columns: the row with that key ends up equal to `e`. The result
    tells whether the row was created. Two rows with the key make `get` raise.
   */
  function UpsertEdge(edges: seq<Edge>, e: Edge): (r: Result<(seq<Edge>, bool), PyError>)
    ensures r.Err? <==> |KeyedAt(edges, Key(e))| >= 2
    ensures r.Ok? ==> (r.value.1 <==> KeyedAt(edges, Key(e)) == [])
    ensures r.Ok? ==> |r.value.0| == |edges| + (if r.value.1 then 1 else 0)
    // the row with the key is now `e`; every other row is as it was
    ensures r.Ok? ==> forall k :: 0 <= k < |r.value.0| ==>
      if Key(r.value.0[k]) == Key(e) then r.value.0[k] == e
      else k < |edges| && r.value.0[k] == edges[k]
    ensures r.Ok? && KeysUnique(edges) ==> KeysUnique(r.value.0)
  {
    var at := KeyedAt(edges, Key(e));
    if |at| >= 2 then Err(Unexpected)
    else if |at| == 1 then
      assert at[0] in at;
      ReplaceEdge(edges, at[0], e);
      Ok((edges[at[0] := e], false))
    else
      AppendEdge(edges, e);
      Ok((edges + [e], true))
  }

  /** Replacing the one row with a key by another row with that key keeps keys unique. */
  lemma ReplaceEdge(edges: seq<Edge>, j: nat, e: Edge)
    requires j < |edges| && Key(edges[j]) == Key(e)
    requires forall k :: 0 <= k < |edges| && Key(edges[k]) == Key(e) ==> k == j
    ensures var rows := edges[j := e];
      && (KeysUnique(edges) ==> KeysUnique(rows))
      && forall k :: 0 <= k < |rows| ==> if Key(rows[k]) == Key(e) then rows[k] == e else rows[k] == edges[k]
  {
  }

  /** Appending a row whose key is new keeps keys unique. */
  lemma AppendEdge(edges: seq<Edge>, e: Edge)
    requires forall k :: 0 <= k < |edges| ==> Key(edges[k]) != Key(e)
    ensures var rows := edges + [e];
      && (KeysUnique(edges) ==> KeysUnique(rows))
      && forall k :: 0 <= k < |rows| ==> if k < |edges| then rows[k] == edges[k] else rows[k] == e
  {
  }

  /** The integration table after the persistence loop, with the created and skipped counts. */
  datatype Persisted = Persisted(edges: seq<Edge>, created: nat, skipped: nat)

  /**
    The persistence loop: an integration whose source or target name is not a
    seeded application, or whose source is its target, is skipped; any other is
    upserted by key.
   */
  function PersistAll(edges: seq<Edge>, norm: seq<IntegrationRecord>, nameToApp: map<string, nat>): (r: Result<Persisted, PyError>)
    ensures r.Ok? ==> r.value.skipped == SkipCount(norm, nameToApp)
    ensures r.Ok? ==> r.value.created + r.value.skipped <= |norm|
    ensures r.Ok? ==> |r.value.edges| == |edges| + r.value.created
    decreases |norm|
  {
    if norm == [] then Ok(Persisted(edges, 0, 0))
    else
      var prev := PersistAll(edges, norm[..|norm| - 1], nameToApp);
      if prev.Err? then prev else PersistStep(prev.value, norm[|norm| - 1], nameToApp)
  }

  /** The persistence loop skips a record naming an application that was not seeded, or the same application at both ends. */
  predicate Skips(it: IntegrationRecord, nameToApp: map<string, nat>) {
    || it.sourceAppName !in nameToApp || it.targetAppName !in nameToApp
    || nameToApp[it.sourceAppName] == nameToApp[it.targetAppName]
  }

  /** How many records the persistence loop skips. */
  function SkipCount(norm: seq<IntegrationRecord>, nameToApp: map<string, nat>): (r: nat)
    ensures r <= |norm|
    ensures r == 0 <==> forall k :: 0 <= k < |norm| ==> !Skips(norm[k], nameToApp)
    decreases |norm|
  {
    if norm == [] then 0
    else
      var init := norm[..|norm| - 1];
      assert forall k :: 0 <= k < |init| ==> init[k] == norm[k];
      SkipCount(init, nameToApp) + if Skips(norm[|norm| - 1], nameToApp) then 1 else 0
  }

  /**
    One record of the persistence loop: skipped when it names an unknown
    application or the same one twice, otherwise upserted by (source,
    target, type), counting a created row.
   */
  function PersistStep(p: Persisted, it: IntegrationRecord, nameToApp: map<string, nat>): (r: Result<Persisted, PyError>)
    ensures r.Ok? ==> r.value.skipped == p.skipped + (if Skips(it, nameToApp) then 1 else 0)
    ensures r.Ok? ==> r.value.created == p.created + (if Skips(it, nameToApp) || |r.value.edges| == |p.edges| then 0 else 1)
    ensures r.Ok? ==> |r.value.edges| == |p.edges| + r.value.created - p.created
  {
    if Skips(it, nameToApp)
    then Ok(Persisted(p.edges, p.created, p.skipped + 1))
    else
      var up := UpsertEdge(p.edges, EdgeOf(nameToApp[it.sourceAppName], nameToApp[it.targetAppName], it));
      if up.Err? then Err(up.error)
      else Ok(Persisted(up.value.0, if up.value.1 then p.created + 1 else p.created, p.skipped))
  }

  /** What the persistence loop keeps of the table: unique keys, and endpoints among the seeded ids. */
  predicate EdgesWithin(edges: seq<Edge>, ids: set<nat>) {
    forall k :: 0 <= k < |edges| ==> edges[k].src in ids && edges[k].tgt in ids
  }

  /** Once an upsert raises, the persistence loop raises. */
  lemma {:induction false} PersistErrSticks(edges: seq<Edge>, norm: seq<IntegrationRecord>, nameToApp: map<string, nat>, i: nat)
    requires i <= |norm| && PersistAll(edges, norm[..i], nameToApp).Err?
    ensures PersistAll(edges, norm, nameToApp) == PersistAll(edges, norm[..i], nameToApp)
    decreases |norm| - i
  {
    if i < |norm| {
      assert norm[..i + 1][..i] == norm[..i];
      PersistErrSticks(edges, norm, nameToApp, i + 1);
    } else {
      assert norm[..i] == norm;
    }
  }

  /** A row the persistence loop wrote: it joins two different applications among `ids`. */
  predicate JoinsTwo(e: Edge, ids: set<nat>) {
    e.src != e.tgt && e.src in ids && e.tgt in ids
  }

  /**
    Every row of `rows` is the row that was at its position in `edges`, or a
    written one joining two different applications among `ids` (with allowed
    labels when `labelled`).
   */
  predicate Kept(rows: seq<Edge>, edges: seq<Edge>, ids: set<nat>, labelled: bool) {
    && |edges| <= |rows|
    && forall k :: 0 <= k < |rows| ==>
         (k < |edges| && rows[k] == edges[k]) || (JoinsTwo(rows[k], ids) && (labelled ==> LabelsAllowed(rows[k])))
  }

  lemma KeptUpsert(rows: seq<Edge>, edges: seq<Edge>, ids: set<nat>, labelled: bool, e: Edge)
    requires Kept(rows, edges, ids, labelled) && JoinsTwo(e, ids) && (labelled ==> LabelsAllowed(e))
    requires UpsertEdge(rows, e).Ok?
    ensures Kept(UpsertEdge(rows, e).value.0, edges, ids, labelled)
  {
  }

  /** All the records are normalised integrations. */
  predicate AllValid(norm: seq<IntegrationRecord>) {
    forall i :: 0 <= i < |norm| ==> ValidIntegration(norm[i])
  }

  /**
    The persistence loop keeps every row or writes one joining two different
    seeded applications, with allowed labels when the records were normalised.
    Keys that were unique stay unique, and then the loop never fails.
   */
  lemma {:induction false} PersistKeepsTable(edges: seq<Edge>, norm: seq<IntegrationRecord>, nameToApp: map<string, nat>, ids: set<nat>)
    requires forall n :: n in nameToApp ==> nameToApp[n] in ids
    ensures var r := PersistAll(edges, norm, nameToApp);
      && (KeysUnique(edges) ==> r.Ok? && KeysUnique(r.value.edges))
      && (r.Ok? ==> Kept(r.value.edges, edges, ids, AllValid(norm)))
    decreases |norm|
  {
    if norm != [] {
      var init := norm[..|norm| - 1];
      PersistKeepsTable(edges, init, nameToApp, ids);
      var it := norm[|norm| - 1];
      var prev := PersistAll(edges, init, nameToApp);
      assert AllValid(norm) ==> AllValid(init) && ValidIntegration(it) by {
        assert forall i :: 0 <= i < |init| ==> init[i] == norm[i];
      }
      if prev.Ok? {
        if Skips(it, nameToApp) {
          assert Kept(prev.value.edges, edges, ids, AllValid(norm));
        } else {
          var e := EdgeOf(nameToApp[it.sourceAppName], nameToApp[it.targetAppName], it);
          if KeysUnique(prev.value.edges) {
            UpsertEdgeKeepsUnique(prev.value.edges, e);
          }
          if UpsertEdge(prev.value.edges, e).Ok? {
            assert Kept(prev.value.edges, edges, ids, AllValid(norm));
            KeptUpsert(prev.value.edges, edges, ids, AllValid(norm), e);
          }
        }
      }
    }
  }

  /** Kept rows stay between applications of the table. */
  lemma KeptWithin(rows: seq<Edge>, edges: seq<Edge>, ids: set<nat>, labelled: bool)
    requires Kept(rows, edges, ids, labelled) && EdgesWithin(edges, ids)
    ensures EdgesWithin(rows, ids)
  {
  }

  /** The persistence loop over a table within `ids` leaves it within `ids`, and never fails when keys were unique. */
  lemma PersistWithin(edges: seq<Edge>, norm: seq<IntegrationRecord>, nameToApp: map<string, nat>, ids: set<nat>)
    requires forall n :: n in nameToApp ==> nameToApp[n] in ids
    requires EdgesWithin(edges, ids)
    ensures PersistAll(edges, norm, nameToApp).Ok? ==> EdgesWithin(PersistAll(edges, norm, nameToApp).value.edges, ids)
    ensures KeysUnique(edges) ==>
      PersistAll(edges, norm, nameToApp).Ok? && KeysUnique(PersistAll(edges, norm, nameToApp).value.edges)
  {
    PersistKeepsTable(edges, norm, nameToApp, ids);
    if PersistAll(edges, norm, nameToApp).Ok? {
      KeptWithin(PersistAll(edges, norm, nameToApp).value.edges, edges, ids, AllValid(norm));
    }
  }

  lemma UpsertEdgeKeepsUnique(edges: seq<Edge>, e: Edge)
    requires KeysUnique(edges)
    ensures var r := UpsertEdge(edges, e);
      && r.Ok? && KeysUnique(r.value.0) && |edges| <= |r.value.0|
      && forall k :: 0 <= k < |r.value.0| ==> r.value.0[k] == e || (k < |edges| && r.value.0[k] == edges[k])
  {
    var at := KeyedAt(edges, Key(e));
    if |at| >= 2 {
      KeyedAtIncreasing(edges, Key(e));
      KeyedAtPosition(edges, Key(e), 0);
      KeyedAtPosition(edges, Key(e), 1);
    }
  }

  // ----- capabilities and technical debt -----

  lemma CapabilitiesDistinct()
    ensures Rand.Distinct(CapabilitiesPool)
  {
  }

  /** `random.sample(CAPABILITIES_POOL, k=random.randint(2, 5))`: draw 0 picks k, draws 1.. the sample. */
  function CapabilityDraw(d: Rand.Draws): (r: seq<string>)
    ensures 2 <= |r| <= 5 && Rand.Distinct(r)
    ensures forall c :: c in r ==> c in CapabilitiesPool
  {
    CapabilitiesDistinct();
    Rand.Sample(CapabilitiesPool, Rand.Take(d, 1, Rand.RandInt(2, 5, d(0))))
  }

  /**
    The idx-th debt item of an application: a category from the pool (draw
    1 + 2·idx), the status (draw 2 + 2·idx), the severity its debt score gives,
    and the generated title and description.
   */
  function DebtFor(app: AppRow, idx: nat, d: Rand.Draws): (r: DebtItem)
    ensures r.app == app.id && r.category in TechDebtCategories && r.status in TechDebtStatus
    ensures r.severity == SeverityFromDebtScore(app.fields.techDebtScore)
  {
    var cat := Pick(TechDebtCategories, "CodeQuality", d(1 + 2 * idx));
    DebtItem(app.id, cat, SeverityFromDebtScore(app.fields.techDebtScore), Rand.Choice(TechDebtStatus, d(2 + 2 * idx)),
      cat + ": issue " + NatToDecimal(idx + 1) + " in " + app.fields.name,
      "Auto-generated debt item for " + app.fields.name + ".")
  }

  /** The first n items of an application, in the order they are created. */
  function DebtsUpTo(app: AppRow, d: Rand.Draws, n: nat): (r: seq<DebtItem>)
    ensures |r| == n
  {
    if n == 0 then [] else DebtsUpTo(app, d, n - 1) + [DebtFor(app, n - 1, d)]
  }

  /** The item at position j is the one made with index j. */
  lemma {:induction false} DebtsUpToAt(app: AppRow, d: Rand.Draws, n: nat)
    ensures forall j :: 0 <= j < n ==> DebtsUpTo(app, d, n)[j] == DebtFor(app, j, d)
  {
    if n > 0 {
      var prev := DebtsUpTo(app, d, n - 1);
      DebtsUpToAt(app, d, n - 1);
      assert DebtsUpTo(app, d, n) == prev + [DebtFor(app, n - 1, d)];
      forall j | 0 <= j < n ensures DebtsUpTo(app, d, n)[j] == DebtFor(app, j, d) {
        if j < n - 1 {
          assert DebtsUpTo(app, d, n)[j] == prev[j];
        }
      }
    }
  }

  /** The items of one application: `random.randint(1, 4)` of them (draw 0). */
  function AppDebts(app: AppRow, d: Rand.Draws): (r: seq<DebtItem>)
    ensures 1 <= |r| <= 4
  {
    DebtsUpTo(app, d, Rand.RandInt(1, 4, d(0)))
  }

  /** The items of all the applications, the k-th application using draws(k). */
  function DebtsFor(apps: seq<AppRow>, draws: nat -> Rand.Draws): (r: seq<DebtItem>)
    ensures |apps| <= |r| <= 4 * |apps|
  {
    if apps == [] then []
    else DebtsFor(apps[..|apps| - 1], draws) + AppDebts(apps[|apps| - 1], draws(|apps| - 1))
  }

  /** Every item belongs to one of the applications and has a severity from the ladder. */
  predicate DebtsBelong(items: seq<DebtItem>, apps: seq<AppRow>) {
    forall i :: 0 <= i < |items| ==> items[i].app in Ids(apps) && items[i].severity in TechDebtSeverity
  }

  /** Every item carries the severity the debt score of its application gives. */
  predicate SeverityFollowsScore(items: seq<DebtItem>, apps: seq<AppRow>) {
    forall i, k :: 0 <= i < |items| && 0 <= k < |apps| && items[i].app == apps[k].id ==>
      items[i].severity == SeverityFromDebtScore(apps[k].fields.techDebtScore)
  }

  /** Extending the prefix by one application appends that application's items. */
  lemma DebtsForStep(apps: seq<AppRow>, k: nat, draws: nat -> Rand.Draws)
    requires k < |apps|
    ensures DebtsFor(apps[..k + 1], draws) == DebtsFor(apps[..k], draws) + AppDebts(apps[k], draws(k))
  {
    assert apps[..k + 1][..k] == apps[..k];
  }

  /** Appending items that belong to the applications keeps every item's application among them. */
  lemma DebtsAppendWithin(debts: seq<DebtItem>, items: seq<DebtItem>, ids: set<nat>)
    requires forall k :: 0 <= k < |debts| ==> debts[k].app in ids
    requires forall k :: 0 <= k < |items| ==> items[k].app in ids
    ensures forall k :: 0 <= k < |debts + items| ==> (debts + items)[k].app in ids
  {
  }

  /** The ids of all but the last row are ids of the whole table, and below the last id. */
  lemma IdsOfInit(apps: seq<AppRow>, init: seq<AppRow>)
    requires IdOrdered(apps) && apps != [] && init == apps[..|apps| - 1]
    ensures Ids(init) <= Ids(apps)
    ensures forall x :: x in Ids(init) ==> x < apps[|apps| - 1].id
    ensures apps[|apps| - 1].id in Ids(apps)
  {
    assert forall k :: 0 <= k < |init| ==> init[k] == apps[k];
  }

  /** Every item belongs to one of the applications and has a severity from the ladder. */
  lemma {:induction false} DebtsForBelong(apps: seq<AppRow>, draws: nat -> Rand.Draws)
    requires IdOrdered(apps)
    ensures DebtsBelong(DebtsFor(apps, draws), apps)
    decreases |apps|
  {
    if apps != [] {
      var init := apps[..|apps| - 1];
      var last := apps[|apps| - 1];
      DebtsForBelong(init, draws);
      IdsOfInit(apps, init);
      var r0 := DebtsFor(init, draws);
      var r := DebtsFor(apps, draws);
      assert r == r0 + AppDebts(last, draws(|apps| - 1));
      forall i | 0 <= i < |r| ensures r[i].app in Ids(apps) && r[i].severity in TechDebtSeverity {
        if i < |r0| {
          assert r[i] == r0[i];
        } else {
          DebtsUpToAt(last, draws(|apps| - 1), |AppDebts(last, draws(|apps| - 1))|);
          assert r[i] == DebtFor(last, i - |r0|, draws(|apps| - 1));
        }
      }
    }
  }

  /** An item of the earlier applications gets its severity from the application with its id. */
  lemma SeverityOfInit(apps: seq<AppRow>, init: seq<AppRow>, r0: seq<DebtItem>, i: nat, k: nat)
    requires IdOrdered(apps) && apps != [] && init == apps[..|apps| - 1]
    requires SeverityFollowsScore(r0, init) && DebtsBelong(r0, init)
    requires i < |r0| && k < |apps| && r0[i].app == apps[k].id
    ensures r0[i].severity == SeverityFromDebtScore(apps[k].fields.techDebtScore)
  {
    IdsOfInit(apps, init);
    assert r0[i].app in Ids(init);
    assert k < |init| && init[k] == apps[k];
  }

  /** Every item carries the severity that its application's debt score gives. */
  lemma {:induction false} DebtsForSeverity(apps: seq<AppRow>, draws: nat -> Rand.Draws)
    requires IdOrdered(apps)
    ensures SeverityFollowsScore(DebtsFor(apps, draws), apps)
    decreases |apps|
  {
    if apps != [] {
      var init := apps[..|apps| - 1];
      var last := apps[|apps| - 1];
      var d := draws(|apps| - 1);
      DebtsForSeverity(init, draws);
      DebtsForBelong(init, draws);
      DebtsUpToAt(last, d, |AppDebts(last, d)|);
      var r0 := DebtsFor(init, draws);
      var r := DebtsFor(apps, draws);
      assert r == r0 + AppDebts(last, d);
      forall i, k | 0 <= i < |r| && 0 <= k < |apps| && r[i].app == apps[k].id
        ensures r[i].severity == SeverityFromDebtScore(apps[k].fields.techDebtScore)
      {
        if i < |r0| {
          assert r[i] == r0[i];
          SeverityOfInit(apps, init, r0, i, k);
        } else {
          assert r[i] == DebtFor(last, i - |r0|, d);
          assert k == |apps| - 1;
        }
      }
    }
  }

  // ----- the ring pass -----

  /**
    The integration the ring pass creates from one application to another:
    labels drawn from the allowed sets (draws 0, 1, 3), a volume in
    1000..300000 (draw 2), a transport and frequency from the pools (draws 4, 5).
   */
  function RingEdge(from: AppRow, to: AppRow, d: Rand.Draws): (e: Edge)
    ensures e.src == from.id && e.tgt == to.id && LabelsAllowed(e)
    ensures 1000 <= e.dailyVolume <= 300000
    ensures e.interfaceName == from.fields.name + " -> " + to.fields.name + " interface"
  {
    Edge(from.id, to.id, Rand.Choice(AllowedIntegrationType, d(0)), Rand.Choice(AllowedDirection, d(1)),
      Rand.RandInt(1000, 300000, d(2)), Rand.Choice(AllowedSensitivity, d(3)),
      Pick(TransportPool, "", d(4)), Pick(FrequencyPool, "", d(5)),
      from.fields.name + " -> " + to.fields.name + " interface")
  }

  /** Python's `(i + 1) % n` on the ring of n positions: the next position, wrapping to 0. */
  function Next(i: nat, n: nat): (r: nat)
    requires i < n
    ensures r == if i + 1 < n then i + 1 else 0
  {
    (i + 1) % n
  }

  /** Python's `(i - 1) % n` (a floored modulo, so -1 becomes n - 1): the previous position, wrapping to n - 1. */
  function Prev(i: nat, n: nat): (r: nat)
    requires i < n
    ensures r == if i == 0 then n - 1 else i - 1
  {
    (i - 1) % n
  }

  /** What an edge the ring pass added is: no self-loop, between two applications, allowed labels, and its source had no outbound or its target no inbound integration before. */
  predicate RingAdded(e: Edge, before: seq<Edge>, ids: set<nat>) {
    JoinsTwo(e, ids) && LabelsAllowed(e) && (e.src !in Sources(before) || e.tgt !in Targets(before))
  }

  /** `after` keeps `before` as its prefix and every row past it is one the ring pass may add. */
  predicate RingGrown(before: seq<Edge>, after: seq<Edge>, ids: set<nat>) {
    && |before| <= |after| && after[..|before|] == before
    && (forall k :: |before| <= k < |after| ==> RingAdded(after[k], before, ids))
  }

  /**
    The ring pass at position i of the id-ordered applications: an edge to
    the next application when this one has no outbound integration, then an
    edge from the previous one when it has no inbound integration. `s` is
    the table so far and how many edges the pass has added (which also
    indexes the draws).
   */
  function RingStep(apps: seq<AppRow>, i: nat, s: (seq<Edge>, nat), draws: nat -> Rand.Draws): (r: (seq<Edge>, nat))
    requires 2 <= |apps| && i < |apps|
    ensures |s.0| <= |r.0| <= |s.0| + 2 && r.1 == s.1 + (|r.0| - |s.0|)
    ensures r.0[..|s.0|] == s.0
  {
    RingIn(apps, i, RingOut(apps, i, s, draws), draws)
  }

  /** The first half of a step: an edge to the next application when this one has no outbound integration. */
  function RingOut(apps: seq<AppRow>, i: nat, s: (seq<Edge>, nat), draws: nat -> Rand.Draws): (seq<Edge>, nat)
    requires 2 <= |apps| && i < |apps|
  {
    if apps[i].id !in Sources(s.0) then (s.0 + [RingEdge(apps[i], apps[Next(i, |apps|)], draws(s.1))], s.1 + 1) else s
  }

  /** The second half: an edge from the previous application when this one has no inbound integration. */
  function RingIn(apps: seq<AppRow>, i: nat, s: (seq<Edge>, nat), draws: nat -> Rand.Draws): (seq<Edge>, nat)
    requires 2 <= |apps| && i < |apps|
  {
    if apps[i].id !in Targets(s.0) then (s.0 + [RingEdge(apps[Prev(i, |apps|)], apps[i], draws(s.1))], s.1 + 1) else s
  }

  /** The ring pass from position i to the end, starting from table-and-count `s`. */
  function RingFrom(apps: seq<AppRow>, i: nat, s: (seq<Edge>, nat), draws: nat -> Rand.Draws): (r: (seq<Edge>, nat))
    requires 2 <= |apps| && i <= |apps|
    ensures |s.0| <= |r.0| <= |s.0| + 2 * (|apps| - i) && r.1 == s.1 + (|r.0| - |s.0|)
    decreases |apps| - i
  {
    if i == |apps| then s else RingFrom(apps, i + 1, RingStep(apps, i, s, draws), draws)
  }

  /** The whole ring pass: the new table and the number of edges added; nothing with fewer than two applications. */
  function Ring(apps: seq<AppRow>, edges: seq<Edge>, draws: nat -> Rand.Draws): (r: (seq<Edge>, nat))
    ensures |edges| <= |r.0| <= |edges| + 2 * |apps| && r.1 == |r.0| - |edges|
  {
    if |apps| < 2 then (edges, 0) else RingFrom(apps, 0, (edges, 0), draws)
  }

  lemma AppendSets(edges: seq<Edge>, e: Edge)
    ensures Sources(edges + [e]) == Sources(edges) + {e.src}
    ensures Targets(edges + [e]) == Targets(edges) + {e.tgt}
  {
    assert (edges + [e])[..|edges|] == edges;
  }

  /** A prefix has no more sources and targets than the whole table. */
  lemma {:induction false} PrefixSets(before: seq<Edge>, after: seq<Edge>)
    requires |before| <= |after| && after[..|before|] == before
    ensures Sources(before) <= Sources(after) && Targets(before) <= Targets(after)
    decreases |after|
  {
    if |before| == |after| {
      assert before == after[..|after|] == after;
    } else {
      var init := after[..|after| - 1];
      assert init[..|before|] == before;
      PrefixSets(before, init);
    }
  }

  /** A new source (or a new target) gives a key no row has. */
  lemma FreshKey(edges: seq<Edge>, e: Edge)
    requires e.src !in Sources(edges) || e.tgt !in Targets(edges)
    ensures forall k :: 0 <= k < |edges| ==> Key(edges[k]) != Key(e)
  {
    forall k | 0 <= k < |edges| ensures Key(edges[k]) != Key(e) {
      InSources(edges, k);
    }
  }

  /** Appending a ring edge whose source or target is new keeps the table growing as the pass allows, and keys unique. */
  lemma RingAppend(before: seq<Edge>, cur: seq<Edge>, e: Edge, ids: set<nat>)
    requires RingGrown(before, cur, ids) && JoinsTwo(e, ids) && LabelsAllowed(e)
    requires e.src !in Sources(cur) || e.tgt !in Targets(cur)
    ensures RingGrown(before, cur + [e], ids)
    ensures Sources(cur + [e]) == Sources(cur) + {e.src} && Targets(cur + [e]) == Targets(cur) + {e.tgt}
    ensures KeysUnique(cur) ==> KeysUnique(cur + [e])
  {
    PrefixSets(before, cur);
    AppendSets(cur, e);
    FreshKey(cur, e);
    AppendEdge(cur, e);
    var r := cur + [e];
    assert r[..|before|] == before by {
      assert r[..|cur|] == cur;
    }
    forall k | |before| <= k < |r| ensures RingAdded(r[k], before, ids) {
      if k < |cur| {
        assert r[k] == cur[k];
      }
    }
  }

  /** The neighbours of a position on the ring are applications with ids other than its own. */
  lemma RingNeighbours(apps: seq<AppRow>, i: nat)
    requires IdOrdered(apps) && 2 <= |apps| && i < |apps|
    ensures apps[Next(i, |apps|)].id != apps[i].id && apps[Prev(i, |apps|)].id != apps[i].id
    ensures apps[i].id in Ids(apps) && apps[Next(i, |apps|)].id in Ids(apps) && apps[Prev(i, |apps|)].id in Ids(apps)
  {
  }

  /** One step of the ring pass: the application at i ends with an outbound and an inbound integration, at most two rows are added. */
  lemma RingStepGrows(apps: seq<AppRow>, i: nat, s: (seq<Edge>, nat), draws: nat -> Rand.Draws, edges: seq<Edge>, t: (seq<Edge>, nat))
    requires IdOrdered(apps) && 2 <= |apps| && i < |apps|
    requires RingGrown(edges, s.0, Ids(apps)) && t == RingStep(apps, i, s, draws)
    ensures RingGrown(edges, t.0, Ids(apps))
    ensures |s.0| <= |t.0| <= |s.0| + 2 && t.1 == s.1 + (|t.0| - |s.0|)
    ensures Sources(s.0) <= Sources(t.0) && Targets(s.0) <= Targets(t.0)
    ensures apps[i].id in Sources(t.0) && apps[i].id in Targets(t.0)
    ensures KeysUnique(s.0) ==> KeysUnique(t.0)
  {
    var n := |apps|;
    var app := apps[i];
    RingNeighbours(apps, i);
    var out := RingOut(apps, i, s, draws);
    if app.id !in Sources(s.0) {
      RingAppend(edges, s.0, RingEdge(app, apps[Next(i, n)], draws(s.1)), Ids(apps));
    }
    if app.id !in Targets(out.0) {
      RingAppend(edges, out.0, RingEdge(apps[Prev(i, n)], app, draws(out.1)), Ids(apps));
    }
  }

  /**
    Continuing the ring pass from position i, when the applications before
    i already have an outbound and an inbound integration: it only appends
    rows the pass may add, at most two per application, keeps keys unique,
    and leaves every application with both.
   */
  lemma {:induction false} RingFromGrows(apps: seq<AppRow>, edges: seq<Edge>, i: nat, s: (seq<Edge>, nat), draws: nat -> Rand.Draws)
    requires IdOrdered(apps) && 2 <= |apps| && i <= |apps|
    requires RingGrown(edges, s.0, Ids(apps)) && s.1 == |s.0| - |edges| <= 2 * i
    requires forall j :: 0 <= j < i ==> apps[j].id in Sources(s.0) && apps[j].id in Targets(s.0)
    ensures RingGrown(edges, RingFrom(apps, i, s, draws).0, Ids(apps))
    ensures RingFrom(apps, i, s, draws).1 == |RingFrom(apps, i, s, draws).0| - |edges| <= 2 * |apps|
    ensures forall j :: 0 <= j < |apps| ==>
      apps[j].id in Sources(RingFrom(apps, i, s, draws).0) && apps[j].id in Targets(RingFrom(apps, i, s, draws).0)
    ensures KeysUnique(s.0) ==> KeysUnique(RingFrom(apps, i, s, draws).0)
    decreases |apps| - i
  {
    if i < |apps| {
      var t := RingStep(apps, i, s, draws);
      RingStepGrows(apps, i, s, draws, edges, t);
      forall j | 0 <= j < i + 1 ensures apps[j].id in Sources(t.0) && apps[j].id in Targets(t.0) {
        if j < i {
          assert apps[j].id in Sources(s.0) && apps[j].id in Targets(s.0);
        }
      }
      RingFromGrows(apps, edges, i + 1, t, draws);
      assert RingFrom(apps, i, s, draws) == RingFrom(apps, i + 1, t, draws);
    }
  }

  /**
    The whole ring pass: with at least two applications every one of them
    ends with an outbound and an inbound integration; the old rows stay,
    each added row joins two different applications with allowed labels and
    has a source or target that had none before, at most two per
    application; the key stays unique.
   */
  lemma RingCovers(apps: seq<AppRow>, edges: seq<Edge>, draws: nat -> Rand.Draws)
    requires IdOrdered(apps)
    ensures RingGrown(edges, Ring(apps, edges, draws).0, Ids(apps))
    ensures Ring(apps, edges, draws).1 == |Ring(apps, edges, draws).0| - |edges| <= 2 * |apps|
    ensures |apps| >= 2 ==> forall k :: 0 <= k < |apps| ==>
      apps[k].id in Sources(Ring(apps, edges, draws).0) && apps[k].id in Targets(Ring(apps, edges, draws).0)
    ensures KeysUnique(edges) ==> KeysUnique(Ring(apps, edges, draws).0)
  {
    assert edges[..|edges|] == edges;
    if |apps| >= 2 {
      RingFromGrows(apps, edges, 0, (edges, 0), draws);
    }
  }

  /** Rows the ring pass adds join applications of the table, so the table stays within it. */
  lemma RingGrownWithin(before: seq<Edge>, after: seq<Edge>, ids: set<nat>)
    requires RingGrown(before, after, ids) && EdgesWithin(before, ids)
    ensures EdgesWithin(after, ids)
  {
    forall k | 0 <= k < |after| ensures after[k].src in ids && after[k].tgt in ids {
      if k < |before| {
        assert after[k] == after[..|before|][k];
      }
    }
  }

  /** The ring pass keeps every integration between applications of the table. */
  lemma RingWithin(apps: seq<AppRow>, edges: seq<Edge>, draws: nat -> Rand.Draws)
    requires IdOrdered(apps) && EdgesWithin(edges, Ids(apps))
    ensures EdgesWithin(Ring(apps, edges, draws).0, Ids(apps))
  {
    RingCovers(apps, edges, draws);
    RingGrownWithin(edges, Ring(apps, edges, draws).0, Ids(apps));
  }

  /** One iteration of the ring pass, at position i. */
  method RingVisit(apps: seq<AppRow>, i: nat, rows: seq<Edge>, ensured: nat, draws: nat -> Rand.Draws)
    returns (rows': seq<Edge>, ensured': nat)
    requires 2 <= |apps| && i < |apps|
    ensures (rows', ensured') == RingStep(apps, i, (rows, ensured), draws)
  {
    var n := |apps|;
    var app, nxt, prv := apps[i], apps[Next(i, n)], apps[Prev(i, n)];
    rows', ensured' := rows, ensured;
    if app.id !in Sources(rows') {
      rows' := rows' + [RingEdge(app, nxt, draws(ensured'))];
      ensured' := ensured' + 1;
    }
    assert (rows', ensured') == RingOut(apps, i, (rows, ensured), draws);
    if app.id !in Targets(rows') {
      rows' := rows' + [RingEdge(prv, app, draws(ensured'))];
      ensured' := ensured' + 1;
    }
  }

  /** The loop of the first atomic block: each normalised application upserted in turn, `name_to_app` filled. */
  method SeedLoop(base: seq<AppRow>, norm: seq<AppRecord>) returns (r: Result<Seeded, PyError>)
    requires IdOrdered(base)
    ensures r == SeedRows(base, norm)
  {
    var rows, index: map<string, nat> := base, map[];
    for i := 0 to |norm|
      invariant SeedRows(base, norm[..i]) == Ok(Seeded(rows, index))
    {
      assert norm[..i + 1][..i] == norm[..i];
      var up := UpsertApp(rows, norm[i]);
      if up.Err? {
        SeedRowsErrSticks(base, norm, i + 1);
        return Err(up.error);
      }
      rows, index := up.value.0, index[norm[i].name := up.value.1];
    }
    assert norm[..|norm|] == norm;
    r := Ok(Seeded(rows, index));
  }

  /** The body of the persistence loop for one record. */
  method PersistOne(p: Persisted, it: IntegrationRecord, nameToApp: map<string, nat>) returns (r: Result<Persisted, PyError>)
    ensures r == PersistStep(p, it, nameToApp)
  {
    if Skips(it, nameToApp) {
      return Ok(Persisted(p.edges, p.created, p.skipped + 1));
    }
    var up := UpsertEdge(p.edges, EdgeOf(nameToApp[it.sourceAppName], nameToApp[it.targetAppName], it));
    if up.Err? {
      return Err(up.error);
    }
    var created := p.created;
    if up.value.1 {
      created := created + 1;
    }
    r := Ok(Persisted(up.value.0, created, p.skipped));
  }

  /** The loop of the integrations' atomic block, from the table as it is. */
  method PersistLoop(edges: seq<Edge>, norm: seq<IntegrationRecord>, nameToApp: map<string, nat>) returns (r: Result<Persisted, PyError>)
    ensures r == PersistAll(edges, norm, nameToApp)
  {
    var acc := Persisted(edges, 0, 0);
    for i := 0 to |norm|
      invariant PersistAll(edges, norm[..i], nameToApp) == Ok(acc)
    {
      assert norm[..i + 1][..i] == norm[..i];
      var next := PersistOne(acc, norm[i], nameToApp);
      if next.Err? {
        PersistErrSticks(edges, norm, nameToApp, i + 1);
        return next;
      }
      acc := next.value;
    }
    assert norm[..|norm|] == norm;
    r := Ok(acc);
  }

  /** The items of one application: `random.randint(1, 4)` of them, made one at a time. */
  method AppDebtLoop(app: AppRow, d: Rand.Draws) returns (items: seq<DebtItem>)
    ensures items == AppDebts(app, d)
  {
    var n := Rand.RandInt(1, 4, d(0));
    items := [];
    for idx := 0 to n
      invariant items == DebtsUpTo(app, d, idx)
    {
      items := items + [DebtFor(app, idx, d)];
    }
  }

  /** The loop over the applications in id order, each with its own draws. */
  method DebtLoop(apps: seq<AppRow>, draws: nat -> Rand.Draws) returns (items: seq<DebtItem>)
    ensures items == DebtsFor(apps, draws)
  {
    items := [];
    for k := 0 to |apps|
      invariant items == DebtsFor(apps[..k], draws)
    {
      var more := AppDebtLoop(apps[k], draws(k));
      items := items + more;
      DebtsForStep(apps, k, draws);
    }
    assert apps[..|apps|] == apps;
  }

  /** `app.capabilities.set(...)` for every application in id order, the k-th getting f(k). */
  method AssignLoop<V>(m0: map<nat, V>, apps: seq<AppRow>, f: nat -> V) returns (m: map<nat, V>)
    requires IdOrdered(apps) && m0.Keys <= Ids(apps)
    ensures m.Keys == Ids(apps)
    ensures forall k :: 0 <= k < |apps| ==> m[apps[k].id] == f(k)
  {
    m := m0;
    for k := 0 to |apps|
      invariant m.Keys <= Ids(apps)
      invariant forall j :: 0 <= j < k ==> apps[j].id in m && m[apps[j].id] == f(j)
    {
      m := m[apps[k].id := f(k)];
    }
  }

  // ----- the database -----

  /** The tables the seeding command reads and writes. */
  class Store {
    /** `Application`, in id order. */
    var apps: seq<AppRow>
    /** `Integration`, in creation order. */
    var edges: seq<Edge>
    /** `TechDebtItem`, in creation order. */
    var debts: seq<DebtItem>
    /** `Capability` names. */
    var capabilities: seq<string>
    /** `Application.capabilities`: each application id with its capability names. */
    var appCapabilities: map<nat, seq<string>>

    /** Ids in order, and every reference to an application names an existing row. */
    ghost predicate Valid()
      reads this
    {
      IdOrdered(apps) && RefsWithin(Ids(apps))
    }

    /** Integrations, debt items and capability assignments refer to applications among `ids`. */
    ghost predicate RefsWithin(ids: set<nat>)
      reads this
    {
      && EdgesWithin(edges, ids)
      && (forall k :: 0 <= k < |debts| ==> debts[k].app in ids)
      && (forall id :: id in appCapabilities ==> id in ids)
    }

    /** References within some ids stay within more ids. */
    lemma RefsWithinMore(ids: set<nat>, more: set<nat>)
      requires RefsWithin(ids) && ids <= more
      ensures RefsWithin(more)
    {
    }

    constructor ()
      ensures Valid() && apps == [] && edges == [] && debts == [] && capabilities == [] && appCapabilities == map[]
    {
      apps, edges, debts, capabilities, appCapabilities := [], [], [], [], map[];
    }

    /**
      The first atomic block: with `wipe`, every table is emptied; then each
      normalised application is upserted by name, and `name_to_app` built. When
      an upsert raises, the block is rolled back and nothing changes.
     */
    method SeedApps(norm: seq<AppRecord>, wipe: bool) returns (r: Result<map<string, nat>, PyError>)
      requires Valid()
      modifies this
      ensures Valid()
      ensures var s := SeedRows(if wipe then [] else old(apps), norm);
        && (r.Ok? <==> s.Ok?)
        && (r.Ok? ==> apps == s.value.apps && r.value == s.value.nameToApp && IndexesRows(s.value))
      ensures r.Ok? ==> forall i :: 0 <= i < |norm| ==> norm[i].name in r.value
      ensures r.Ok? && wipe ==> edges == [] && debts == [] && capabilities == [] && appCapabilities == map[]
      ensures r.Ok? && !wipe ==>
        (edges == old(edges) && debts == old(debts) && capabilities == old(capabilities)
         && appCapabilities == old(appCapabilities))
      ensures r.Err? ==>
        (apps == old(apps) && edges == old(edges) && debts == old(debts)
         && capabilities == old(capabilities) && appCapabilities == old(appCapabilities))
    {
      var base := if wipe then [] else apps;
      SeedRowsFacts(base, norm);
      var seeded := SeedLoop(base, norm);
      if seeded.Err? {
        return Err(seeded.error);
      }
      if wipe {
        edges, debts, capabilities, appCapabilities := [], [], [], map[];
      } else {
        RefsWithinMore(Ids(apps), Ids(seeded.value.apps));
      }
      apps := seeded.value.apps;
      r := Ok(seeded.value.nameToApp);
    }

    /** `Capability.objects.get_or_create(name=...)` for each name of the pool. */
    method EnsureCapabilities()
      requires Valid()
      modifies this`capabilities
      ensures Valid()
      ensures |old(capabilities)| <= |capabilities| && capabilities[..|old(capabilities)|] == old(capabilities)
      ensures forall c :: c in capabilities <==> c in old(capabilities) || c in CapabilitiesPool
      ensures Rand.Distinct(old(capabilities)) ==> Rand.Distinct(capabilities)
    {
      ghost var before := capabilities;
      for i := 0 to |CapabilitiesPool|
        invariant |before| <= |capabilities| && capabilities[..|before|] == before
        invariant forall c :: c in capabilities <==> c in before || c in CapabilitiesPool[..i]
        invariant Rand.Distinct(before) ==> Rand.Distinct(capabilities)
      {
        var name := CapabilitiesPool[i];
        if name !in capabilities {
          capabilities := capabilities + [name];
        }
        assert CapabilitiesPool[..i + 1] == CapabilitiesPool[..i] + [name];
      }
      assert CapabilitiesPool[..|CapabilitiesPool|] == CapabilitiesPool;
    }

    /** Every application is given `CapabilityDraw(draws(k))`, k its position in id order. */
    method AssignCapabilities(draws: nat -> Rand.Draws)
      requires Valid()
      modifies this`appCapabilities
      ensures Valid()
      ensures appCapabilities.Keys == Ids(apps)
      ensures forall k :: 0 <= k < |apps| ==> appCapabilities[apps[k].id] == CapabilityDraw(draws(k))
    {
      appCapabilities := AssignLoop(appCapabilities, apps, k => CapabilityDraw(draws(k)));
    }

    /**
      The debt items of every application, in id order, each application's
      created one at a time; returns how many were created.
     */
    method SeedDebtItems(draws: nat -> Rand.Draws) returns (created: nat)
      requires Valid()
      modifies this`debts
      ensures Valid()
      ensures debts == old(debts) + DebtsFor(apps, draws)
      ensures created == |DebtsFor(apps, draws)| && |apps| <= created <= 4 * |apps|
    {
      var items := DebtLoop(apps, draws);
      DebtsForBelong(apps, draws);
      DebtsAppendWithin(debts, items, Ids(apps));
      debts := debts + items;
      created := |items|;
    }

    /**
      The second atomic block for integrations: the persistence loop on the
      table, committed when it does not raise.
     */
    method PersistIntegrations(norm: seq<IntegrationRecord>, nameToApp: map<string, nat>) returns (r: Result<(nat, nat), PyError>)
      requires Valid()
      requires forall n :: n in nameToApp ==> nameToApp[n] in Ids(apps)
      modifies this`edges
      ensures Valid()
      ensures var p := PersistAll(old(edges), norm, nameToApp);
        && (r.Ok? <==> p.Ok?)
        && (r.Ok? ==> edges == p.value.edges && r.value == (p.value.created, p.value.skipped))
      ensures r.Ok? ==> r.value.1 == SkipCount(norm, nameToApp) && r.value.0 + r.value.1 <= |norm|
      ensures r.Err? ==> edges == old(edges)
      ensures KeysUnique(old(edges)) ==> r.Ok? && KeysUnique(edges)
    {
      PersistWithin(edges, norm, nameToApp, Ids(apps));
      var p := PersistLoop(edges, norm, nameToApp);
      if p.Err? {
        return Err(p.error);
      }
      edges := p.value.edges;
      r := Ok((p.value.created, p.value.skipped));
    }

    /**
      The ring pass over the applications in id order (`order_by("id")`),
      inside one atomic block; returns how many integrations it added.
     */
    method RingPass(draws: nat -> Rand.Draws) returns (ensured: nat)
      requires Valid()
      modifies this`edges
      ensures Valid()
      ensures (edges, ensured) == Ring(apps, old(edges), draws)
    {
      ensured := 0;
      var n := |apps|;
      if n < 2 {
        return;
      }
      ghost var goal := Ring(apps, edges, draws);
      RingWithin(apps, edges, draws);
      for i := 0 to n
        invariant RingFrom(apps, i, (edges, ensured), draws) == goal
      {
        edges, ensured := RingVisit(apps, i, edges, ensured, draws);
      }
    }
  }
}

=== FILE: py_text.dfy ===
/**
  The Python string operations the portfolio code relies on: `str.isspace`,
  `strip`, the regex class `\s`, `lower`, `find`/`rfind`, `str(int)` and `int(str)`.
  Strings are sequences of Unicode scalar values, as Python's `str` is.
 */
module PyText {
  import opened Wrappers

  /** Python's whitespace: what `str.strip()`, `str.isspace()` and the regex class `\s` match. */
  predicate IsSpace(c: char) {
    if c <= ' ' then '\t' <= c <= '\r' || '\U{1C}' <= c
    else if c < '\U{85}' then false
    else (
      || c == '\U{85}' || c == '\U{A0}' || c == '\U{1680}' || ('\U{2000}' <= c <= '\U{200A}')
      || c == '\U{2028}' || c == '\U{2029}' || c == '\U{202F}' || c == '\U{205F}' || c == '\U{3000}')
  }

  predicate IsDigit(c: char) {
    '0' <= c <= '9'
  }

  predicate AllDigits(s: string) {
    forall i :: 0 <= i < |s| ==> IsDigit(s[i])
  }

  /** Nothing but whitespace. */
  predicate AllSpace(s: string) {
    forall i :: 0 <= i < |s| ==> IsSpace(s[i])
  }

  lemma AllSpaceConcat(a: string, b: string)
    requires AllSpace(a) && AllSpace(b)
    ensures AllSpace(a + b)
  {
    forall i | 0 <= i < |a + b|
      ensures IsSpace((a + b)[i])
    {
      if i < |a| {
        assert (a + b)[i] == a[i];
      } else {
        assert (a + b)[i] == b[i - |a|];
      }
    }
  }

  /** No whitespace at either end: what `strip()` returns. */
  predicate Stripped(s: string) {
    s == [] || (!IsSpace(s[0]) && !IsSpace(s[|s| - 1]))
  }

  /** `s.lstrip()`: the suffix left after the leading whitespace. */
  function LStrip(s: string): (r: string)
    ensures |r| <= |s| && r == s[|s| - |r|..]
    ensures r == [] || !IsSpace(r[0])
  {
    if s != [] && IsSpace(s[0]) then LStrip(s[1..]) else s
  }

  /** `s.rstrip()`: the prefix left before the trailing whitespace. */
  function RStrip(s: string): (r: string)
    ensures |r| <= |s| && r == s[..|r|]
    ensures r == [] || !IsSpace(r[|r| - 1])
  {
    if s != [] && IsSpace(s[|s| - 1]) then RStrip(s[..|s| - 1]) else s
  }

  /** `s.strip()`: the whitespace at the end, then the whitespace at the start, removed one character at a time. */
  function Strip(s: string): (r: string)
    ensures Stripped(r) && |r| <= |s|
  {
    if s != [] && IsSpace(s[|s| - 1]) then Strip(s[..|s| - 1])
    else if s != [] && IsSpace(s[0]) then Strip(s[1..])
    else s
  }

  /** `s.strip()` is `s.rstrip().lstrip()`. */
  lemma {:induction false} StripSplit(s: string)
    ensures Strip(s) == LStrip(RStrip(s))
    decreases |s|
  {
    if s == [] || (!IsSpace(s[0]) && !IsSpace(s[|s| - 1])) {
      StripNothing(s);
    } else if IsSpace(s[|s| - 1]) {
      StripSplit(s[..|s| - 1]);
      StripLastSpace(s);
    } else {
      StripSplit(s[1..]);
      StripFirstSpace(s);
    }
  }

  lemma StripNothing(s: string)
    requires s == [] || (!IsSpace(s[0]) && !IsSpace(s[|s| - 1]))
    ensures Strip(s) == s && RStrip(s) == s && LStrip(s) == s
  {
  }

  lemma StripLastSpace(s: string)
    requires s != [] && IsSpace(s[|s| - 1])
    ensures Strip(s) == Strip(s[..|s| - 1]) && RStrip(s) == RStrip(s[..|s| - 1])
  {
  }

  lemma StripFirstSpace(s: string)
    requires s != [] && IsSpace(s[0]) && !IsSpace(s[|s| - 1])
    ensures Strip(s) == Strip(s[1..]) && LStrip(s) == LStrip(s[1..])
    ensures RStrip(s) == s && RStrip(s[1..]) == s[1..]
  {
    var u := s[1..];
    assert u != [] ==> u[|u| - 1] == s[|s| - 1];
  }

  /** Stripping adds no character. */
  lemma StripKeepsOut(s: string, c: char)
    requires c !in s
    ensures c !in Strip(s)
  {
    StripSplit(s);
    var t := RStrip(s);
    PrefixKeepsOut(s, |t|, c);
    LStripKeepsOut(t, c);
  }

  lemma PrefixKeepsOut(s: string, k: nat, c: char)
    requires c !in s && k <= |s|
    ensures c !in s[..k]
  {
    forall i | 0 <= i < k ensures s[..k][i] != c {
      assert s[..k][i] == s[i];
    }
  }

  lemma {:induction false} LStripKeepsOut(s: string, c: char)
    requires c !in s
    ensures c !in LStrip(s)
    decreases |s|
  {
    if s != [] && IsSpace(s[0]) {
      assert c !in s[1..];
      LStripKeepsOut(s[1..], c);
    }
  }

  lemma StripOfStripped(s: string)
    requires Stripped(s)
    ensures Strip(s) == s
  {
  }

  /** Stripping removes exactly the whitespace around a stripped core. */
  lemma {:induction false} StripAround(pre: string, x: string, post: string)
    requires x != [] && !IsSpace(x[0]) && !IsSpace(x[|x| - 1])
    requires AllSpace(pre)
    requires AllSpace(post)
    ensures Strip(pre + x + post) == x
  {
    StripSplit(pre + x + post);
    RStripAfter(pre + x, post);
    assert pre + x + post == (pre + x) + post;
    LStripBefore(pre, x);
  }

  lemma {:induction false} RStripAfter(s: string, post: string)
    requires s != [] && !IsSpace(s[|s| - 1])
    requires AllSpace(post)
    ensures RStrip(s + post) == s
    decreases |post|
  {
    if post == [] {
      assert s + post == s;
    } else {
      var t := s + post;
      assert t[..|t| - 1] == s + post[..|post| - 1];
      RStripAfter(s, post[..|post| - 1]);
    }
  }

  lemma {:induction false} LStripBefore(pre: string, x: string)
    requires x != [] && !IsSpace(x[0])
    requires AllSpace(pre)
    ensures LStrip(pre + x) == x
    decreases |pre|
  {
    var s := pre + x;
    if pre == [] {
      assert s == x;
    } else {
      assert s[0] == pre[0] && IsSpace(s[0]);
      assert s[1..] == pre[1..] + x;
      LStripBefore(pre[1..], x);
      assert LStrip(s) == LStrip(s[1..]);
    }
  }

  /** `re.sub(r"\s+", " ", s)`: every maximal run of whitespace becomes one space. */
  function CollapseSpaces(s: string): (r: string)
    ensures |r| <= |s|
    ensures r == [] <==> s == []
    ensures r != [] ==> (IsSpace(r[0]) <==> IsSpace(s[0]))
    ensures SingleSpaced(r)
    decreases |s|
  {
    if s == [] then []
    else if IsSpace(s[0]) then
      var rest := LStrip(s[1..]);
      var r := CollapseSpaces(rest);
      SingleSpacedCons(' ', r);
      [' '] + r
    else
      var r := CollapseSpaces(s[1..]);
      SingleSpacedCons(s[0], r);
      [s[0]] + r
  }

  /** Prepending a character keeps single spacing unless it makes two whitespaces meet. */
  lemma SingleSpacedCons(c: char, r: string)
    requires SingleSpaced(r)
    requires IsSpace(c) ==> c == ' ' && (r == [] || !IsSpace(r[0]))
    ensures SingleSpaced([c] + r)
  {
    var t := [c] + r;
    assert forall i :: 1 <= i < |t| ==> t[i] == r[i - 1];
  }

  /** Every whitespace character is a plain space and no two whitespace characters are adjacent. */
  predicate SingleSpaced(s: string) {
    && (forall i :: 0 <= i < |s| && IsSpace(s[i]) ==> s[i] == ' ')
    && (forall i :: 0 <= i < |s| - 1 && IsSpace(s[i]) ==> !IsSpace(s[i + 1]))
  }

  /** `s[:n]` for a non-negative n. */
  function Take(s: string, n: nat): (r: string)
    ensures |r| <= n && |r| <= |s| && r == s[..|r|]
    ensures |s| <= n ==> r == s
    ensures |s| >= n ==> |r| == n
  {
    if |s| <= n then s else s[..n]
  }

  lemma SingleSpacedPrefix(s: string, n: nat)
    requires SingleSpaced(s) && n <= |s|
    ensures SingleSpaced(s[..n])
  {
  }

  /**
    The lower-case form of a character, for the letters of the Basic Latin,
    Latin-1 Supplement, Latin Extended-A and basic Cyrillic blocks (the
    Czech alphabet among them); any other character is kept.
   */
  function LowerChar(c: char): char {
    var n := c as int;
    if 'A' <= c <= 'Z' then (n + 0x20) as char
    else if 0xC0 <= n <= 0xDE && n != 0xD7 then (n + 0x20) as char
    else if 0x100 <= n <= 0x17F then LatinExtendedALower(c)
    else if 0x400 <= n <= 0x40F then (n + 0x50) as char
    else if 0x410 <= n <= 0x42F then (n + 0x20) as char
    else c
  }

  /** Latin Extended-A pairs each capital with the next code point, except Ÿ, whose small form is in Latin-1. */
  function LatinExtendedALower(c: char): (r: char)
    requires 0x100 <= c as int <= 0x17F
    ensures 0xFF <= r as int <= 0x17F
    ensures r == c || r as int == c as int + 1 || (c as int == 0x178 && r == '\U{FF}')
  {
    var n := c as int;
    if n == 0x178 then '\U{FF}'
    else if (n <= 0x12F || 0x132 <= n <= 0x137 || 0x14A <= n <= 0x177) && n % 2 == 0 then (n + 1) as char
    else if (0x139 <= n <= 0x148 || 0x179 <= n <= 0x17E) && n % 2 == 1 then (n + 1) as char
    else c
  }

  /** Only the capitals of the pair ranges move to the next code point. */
  lemma LatinExtendedAPairs(c: char)
    requires 0x100 <= c as int <= 0x17F
    ensures LatinExtendedALower(c) as int == c as int + 1 <==>
      || (c as int % 2 == 0 && (c as int <= 0x12F || 0x132 <= c as int <= 0x137 || 0x14A <= c as int <= 0x177))
      || (c as int % 2 == 1 && (0x139 <= c as int <= 0x148 || 0x179 <= c as int <= 0x17E))
  {
  }

  /** A small letter of the block is its own lower-case form. */
  lemma LatinExtendedALowerStable(c: char)
    requires 0x100 <= c as int <= 0x17F
    ensures var r := LatinExtendedALower(c); 0x100 <= r as int ==> LatinExtendedALower(r) == r
  {
  }

  /** The Czech capitals of the block lower to their small letters: Č č, Ď ď, Ě ě, Ň ň, Ř ř, Š š, Ť ť, Ů ů, Ž ž. */
  lemma CzechCapitalsLower()
    ensures LatinExtendedALower('\U{10C}') == '\U{10D}' && LatinExtendedALower('\U{10E}') == '\U{10F}'
    ensures LatinExtendedALower('\U{11A}') == '\U{11B}' && LatinExtendedALower('\U{147}') == '\U{148}'
    ensures LatinExtendedALower('\U{158}') == '\U{159}' && LatinExtendedALower('\U{160}') == '\U{161}'
    ensures LatinExtendedALower('\U{164}') == '\U{165}' && LatinExtendedALower('\U{16E}') == '\U{16F}'
    ensures LatinExtendedALower('\U{17D}') == '\U{17E}'
  {
  }

  /** `s.lower()`, character by character. */
  function Lower(s: string): (r: string)
    ensures |r| == |s|
    ensures forall i :: 0 <= i < |s| ==> r[i] == LowerChar(s[i])
  {
    seq(|s|, i requires 0 <= i < |s| => LowerChar(s[i]))
  }

  /** Lowering a lowered string changes nothing, so the lowered name is a stable key. */
  lemma LowerIdempotent(s: string)
    ensures Lower(Lower(s)) == Lower(s)
  {
    forall i | 0 <= i < |s| ensures LowerChar(LowerChar(s[i])) == LowerChar(s[i]) {
      LowerCharIdempotent(s[i]);
    }
  }

  lemma LowerCharIdempotent(c: char)
    ensures LowerChar(LowerChar(c)) == LowerChar(c)
  {
    var n := c as int;
    if 0x100 <= n <= 0x17F {
      var m := LatinExtendedALower(c) as int;
      assert m == n || m == n + 1 || m == 0xFF;
    }
  }

  function StartsWith(s: string, prefix: string): bool {
    |prefix| <= |s| && s[..|prefix|] == prefix
  }

  function EndsWith(s: string, suffix: string): bool {
    |suffix| <= |s| && s[|s| - |suffix|..] == suffix
  }

  /** `s.find(c)`: the first index of c, or -1. */
  function Find(s: string, c: char): (r: int)
    ensures -1 <= r < |s|
    ensures r == -1 <==> c !in s
    ensures r >= 0 ==> s[r] == c && c !in s[..r]
  {
    if s == [] then -1
    else if s[0] == c then 0
    else
      var k := Find(s[1..], c);
      if k == -1 then -1
      else
        assert s[..k + 1] == [s[0]] + s[1..][..k];
        k + 1
  }

  /** `s.rfind(c)`: the last index of c, or -1. */
  function RFind(s: string, c: char): (r: int)
    ensures -1 <= r < |s|
    ensures r == -1 <==> c !in s
    ensures r >= 0 ==> s[r] == c && c !in s[r + 1..]
  {
    if s == [] then -1
    else if s[|s| - 1] == c then |s| - 1
    else
      var init := s[..|s| - 1];
      var k := RFind(init, c);
      assert s == init + [s[|s| - 1]];
      if k == -1 then -1
      else
        assert s[k + 1..] == init[k + 1..] + [s[|s| - 1]];
        k
  }

  /** An occurrence with none before it is what `find` returns. */
  lemma FindIs(s: string, c: char, i: nat)
    requires i < |s| && s[i] == c && c !in s[..i]
    ensures Find(s, c) == i
  {
    assert c in s;
  }

  /** An occurrence with none after it is what `rfind` returns. */
  lemma RFindIs(s: string, c: char, i: nat)
    requires i < |s| && s[i] == c && c !in s[i + 1..]
    ensures RFind(s, c) == i
  {
    assert c in s;
  }

  /** `", ".join(parts)` and its kin. */
  function Join(sep: string, parts: seq<string>): string {
    if parts == [] then ""
    else if |parts| == 1 then parts[0]
    else parts[0] + sep + Join(sep, parts[1..])
  }

  /** Joining parts no longer than `m` gives at most `m` plus the separator per part. */
  lemma {:induction false} JoinLength(sep: string, parts: seq<string>, m: nat)
    requires forall i :: 0 <= i < |parts| ==> |parts[i]| <= m
    ensures |Join(sep, parts)| <= |parts| * (m + |sep|)
    decreases |parts|
  {
    if |parts| > 1 {
      JoinLength(sep, parts[1..], m);
    }
  }

  function DigitChar(d: nat): char
    requires d < 10
  {
    ('0' as int + d) as char
  }

  function DigitValue(c: char): nat
    requires IsDigit(c)
  {
    c as int - '0' as int
  }

  /** `str(n)` for a non-negative integer: its decimal digits, without leading zeros. */
  function NatToDecimal(n: nat): (r: string)
    ensures |r| >= 1 && AllDigits(r)
    ensures r[0] == '0' ==> r == "0"
    decreases n
  {
    if n < 10 then [DigitChar(n)] else NatToDecimal(n / 10) + [DigitChar(n % 10)]
  }

  /** `str(i)` for any integer. */
  function IntToDecimal(i: int): (r: string)
    ensures |r| >= 1
  {
    if i < 0 then "-" + NatToDecimal(-i) else NatToDecimal(i)
  }

  /** The number a run of decimal digits denotes. */
  function DigitsValue(s: string): nat
    requires AllDigits(s)
  {
    if s == [] then 0 else DigitsValue(s[..|s| - 1]) * 10 + DigitValue(s[|s| - 1])
  }

  /** Digits with single underscores between them, the digit runs `int()` accepts ("1_000"). */
  predicate DigitGroups(d: string) {
    && |d| >= 1 && IsDigit(d[0]) && IsDigit(d[|d| - 1])
    && DigitsOrUnderscores(d)
    && (forall i :: 0 <= i < |d| - 1 ==> d[i] == '_' ==> d[i + 1] != '_')
  }

  /** The digits of a digit run, its underscores dropped. */
  function DropUnderscores(d: string): (r: string)
    requires DigitsOrUnderscores(d)
    ensures AllDigits(r) && |r| <= |d|
    ensures AllDigits(d) ==> r == d
  {
    if d == [] then []
    else
      var rest := DropUnderscores(d[1..]);
      if d[0] == '_' then rest else [d[0]] + rest
  }

  /**
    `int(s)` for a string: surrounding whitespace, an optional sign and ASCII
    digits, single underscores allowed between digits; anything else raises ValueError.
   */
  function ParseInt(s: string): (r: Option<int>)
    ensures r.Some? ==> Strip(s) != []
  {
    var t := Strip(s);
    if |t| >= 2 && (t[0] == '-' || t[0] == '+') && DigitGroups(t[1..]) then
      var v: int := DigitsValue(DropUnderscores(t[1..]));
      Some(if t[0] == '-' then -v else v)
    else if DigitGroups(t) then
      Some(DigitsValue(DropUnderscores(t)))
    else
      None
  }

  /** Underscores between digit groups do not change the number: `int("1_000") == int("1000")`. */
  lemma GroupedParse(a: string, b: string)
    requires |a| >= 1 && AllDigits(a) && |b| >= 1 && AllDigits(b)
    ensures ParseInt(a + "_" + b) == ParseInt(a + b)
  {
    var g := a + "_" + b;
    Grouped(a, b);
    ParseGroups(g);
    ParseUnsigned(a + b);
  }

  /** Two digit runs joined by one underscore are digit groups, whose digits are the two runs. */
  lemma Grouped(a: string, b: string)
    requires |a| >= 1 && AllDigits(a) && |b| >= 1 && AllDigits(b)
    ensures DigitGroups(a + "_" + b) && DropUnderscores(a + "_" + b) == a + b
  {
    GroupedShape(a, b);
    var au := a + "_";
    DropUnderscoresConcat(a, "_");
    assert DropUnderscores("_") == [];
    assert DropUnderscores(au) == a by {
      assert a + [] == a;
    }
    DropUnderscoresConcat(au, b);
  }

  lemma GroupedShape(a: string, b: string)
    requires |a| >= 1 && AllDigits(a) && |b| >= 1 && AllDigits(b)
    ensures DigitGroups(a + "_" + b)
  {
    var g := a + "_" + b;
    assert DigitsOrUnderscores(g);
    assert g[0] == a[0] && g[|g| - 1] == b[|b| - 1];
    forall i | 0 <= i < |g| - 1 && g[i] == '_' ensures g[i + 1] != '_' {
      assert i == |a|;
      assert g[i + 1] == b[0];
    }
  }

  /** Unsigned digit groups are read as the number their digits spell. */
  lemma ParseGroups(g: string)
    requires DigitGroups(g)
    ensures ParseInt(g) == Some(DigitsValue(DropUnderscores(g)))
  {
    assert Stripped(g);
    StripOfStripped(g);
  }

  /** A digit run: ASCII digits and underscores. */
  predicate DigitsOrUnderscores(d: string) {
    forall i :: 0 <= i < |d| ==> IsDigit(d[i]) || d[i] == '_'
  }

  lemma {:induction false} DropUnderscoresConcat(x: string, y: string)
    requires DigitsOrUnderscores(x) && DigitsOrUnderscores(y)
    ensures DigitsOrUnderscores(x + y)
    ensures DropUnderscores(x + y) == DropUnderscores(x) + DropUnderscores(y)
    decreases |x|
  {
    if x == [] {
      assert x + y == y;
    } else {
      assert (x + y)[1..] == x[1..] + y;
      DropUnderscoresConcat(x[1..], y);
    }
  }

  /** `int(str(n)) == n` for every natural number: the digits denote the number. */
  lemma {:induction false} NatDecimalRoundTrip(n: nat)
    ensures DigitsValue(NatToDecimal(n)) == n
    decreases n
  {
    if n >= 10 {
      NatDecimalRoundTrip(n / 10);
      var s := NatToDecimal(n);
      assert s[..|s| - 1] == NatToDecimal(n / 10);
    }
  }

  /** Distinct numbers print differently. */
  lemma NatToDecimalInjective(a: nat, b: nat)
    ensures NatToDecimal(a) == NatToDecimal(b) ==> a == b
  {
    NatDecimalRoundTrip(a);
    NatDecimalRoundTrip(b);
  }

  /** `int(str(i)) == i` for every integer, negative ones included. */
  lemma IntDecimalRoundTrip(i: int)
    ensures ParseInt(IntToDecimal(i)) == Some(i)
  {
    var n: nat := if i < 0 then -i else i;
    var d := NatToDecimal(n);
    NatDecimalRoundTrip(n);
    if i < 0 {
      ParseSigned(d);
    } else {
      ParseUnsigned(d);
    }
  }

  lemma ParseUnsigned(d: string)
    requires |d| >= 1 && AllDigits(d)
    ensures ParseInt(d) == Some(DigitsValue(d))
  {
    assert IsDigit(d[0]) && IsDigit(d[|d| - 1]);
    StripOfStripped(d);
  }

  lemma ParseSigned(d: string)
    requires |d| >= 1 && AllDigits(d)
    ensures ParseInt("-" + d) == Some(-(DigitsValue(d) as int))
  {
    var s := "-" + d;
    SignedShape(d);
    StripOfStripped(s);
    NegativeParse(s, d);
  }

  /** A plus sign before digits is accepted and changes nothing: `int("+42") == 42`. */
  lemma ParsePlus(d: string)
    requires |d| >= 1 && AllDigits(d)
    ensures ParseInt("+" + d) == Some(DigitsValue(d) as int)
  {
    var s := "+" + d;
    assert IsDigit(d[|d| - 1]) && s[|s| - 1] == d[|d| - 1];
    StripOfStripped(s);
    assert s[1..] == d;
  }

  /**
    What `int()` rejects: an accepted text, once stripped, ends with a digit,
    starts with a digit or with one sign followed by a digit, and has no two
    underscores in a row.
   */
  lemma ParseIntShape(s: string)
    ensures ParseInt(s).Some? ==> var t := Strip(s);
      && |t| >= 1 && IsDigit(t[|t| - 1])
      && (IsDigit(t[0]) || (|t| >= 2 && (t[0] == '-' || t[0] == '+') && IsDigit(t[1])))
      && (forall i :: 0 <= i < |t| - 1 ==> t[i] == '_' ==> t[i + 1] != '_')
  {
    var t := Strip(s);
    if ParseInt(s).Some? && |t| >= 2 && (t[0] == '-' || t[0] == '+') && DigitGroups(t[1..]) {
      var d := t[1..];
      forall i | 0 <= i < |t| - 1 && t[i] == '_' ensures t[i + 1] != '_' {
        assert i >= 1 && d[i - 1] == t[i] && d[i] == t[i + 1];
      }
      assert t[|t| - 1] == d[|d| - 1];
    }
  }

  /** Doubled, leading and trailing underscores and a doubled sign are rejected. */
  lemma ParseIntRejects()
    ensures ParseInt("1__0") == None && ParseInt("_1") == None && ParseInt("1_") == None && ParseInt("+-1") == None
  {
    StripOfStripped("1__0");
    StripOfStripped("_1");
    StripOfStripped("1_");
    StripOfStripped("+-1");
    ParseIntShape("1__0");
    ParseIntShape("_1");
    ParseIntShape("1_");
    ParseIntShape("+-1");
  }

  lemma NegativeParse(t: string, d: string)
    requires Strip(t) == t && |t| >= 2 && t[0] == '-' && t[1..] == d && AllDigits(d)
    ensures ParseInt(t) == Some(-(DigitsValue(d) as int))
  {
  }

  lemma SignedShape(d: string)
    requires |d| >= 1 && AllDigits(d)
    ensures var s := "-" + d; |s| >= 2 && s[0] == '-' && s[1..] == d && Stripped(s)
  {
    var s := "-" + d;
    assert IsDigit(d[|d| - 1]) && s[|s| - 1] == d[|d| - 1];
  }
}

=== FILE: qa.dfy ===
/**
  The question-and-answer page (`qa_view`) and the description endpoint
  (`llm_ask`): their guards, the rate-limit markers and the session's last
  question and answer, and the clickable applications of an answer — every
  "Application ID: <digits>" it mentions (`re.findall`), first mentions only
  (`dict.fromkeys`), joined with the application table.
 */
module QaView {
  import opened Wrappers
  import opened PyText
  import opened JsonValues
  import opened Llm
  import opened KeyCache
  import opened Portfolio
  import opened Normalizer

  // ----- `re.findall(r"Application ID\s*:\s*(\d+)", answer)` -----

  const Label := "Application ID"

  /** The end of the run of whitespace (`\s*`) starting at `i`. */
  function SkipSpaces(s: string, i: nat): (r: nat)
    requires i <= |s|
    ensures i <= r <= |s| && (r == |s| || !IsSpace(s[r]))
    ensures forall p :: i <= p < r ==> IsSpace(s[p])
    decreases |s| - i
  {
    if i < |s| && IsSpace(s[i]) then SkipSpaces(s, i + 1) else i
  }

  /** The end of the run of digits (`\d+`, greedy) starting at `i`. */
  function SkipDigits(s: string, i: nat): (r: nat)
    requires i <= |s|
    ensures i <= r <= |s| && (r == |s| || !IsDigit(s[r]))
    ensures forall p :: i <= p < r ==> IsDigit(s[p])
    decreases |s| - i
  {
    if i < |s| && IsDigit(s[i]) then SkipDigits(s, i + 1) else i
  }

  /**
    The pattern tried at position `i`: the label, optional whitespace, a colon,
    optional whitespace and one or more digits. On a match, the bounds of the
    digits (the captured group), which end the match.
   */
  function MatchAt(s: string, i: nat): (r: Option<(nat, nat)>)
    ensures r.Some? ==> i + |Label| < r.value.0 < r.value.1 <= |s|
  {
    if i + |Label| <= |s| && s[i..i + |Label|] == Label then
      var j := SkipSpaces(s, i + |Label|);
      if j < |s| && s[j] == ':' then
        var k := SkipSpaces(s, j + 1);
        var e := SkipDigits(s, k);
        if e > k then Some((k, e)) else None
      else None
    else None
  }

  /** The digits a match at `i` captures. */
  function Capture(s: string, i: nat): (r: string)
    requires MatchAt(s, i).Some?
    ensures |r| >= 1 && AllDigits(r)
  {
    s[MatchAt(s, i).value.0..MatchAt(s, i).value.1]
  }

  /**
    The scan `findall` makes from position `i`: a match is reported and the
    scan resumes where it ends; otherwise the scan moves on by one character.
   */
  function FindAll(s: string, i: nat): (r: seq<string>)
    ensures forall k :: 0 <= k < |r| ==> |r[k]| >= 1 && AllDigits(r[k])
    decreases |s| - i
  {
    if i >= |s| then []
    else if MatchAt(s, i).Some? then [Capture(s, i)] + FindAll(s, MatchAt(s, i).value.1)
    else FindAll(s, i + 1)
  }

  /** `re.findall(r"Application ID\s*:\s*(\d+)", answer)` */
  function ExtractIds(answer: string): (r: seq<string>)
    ensures forall k :: 0 <= k < |r| ==> |r[k]| >= 1 && AllDigits(r[k])
  {
    FindAll(answer, 0)
  }

  /** The capture at `i`, if the pattern matches there. */
  function Hit(s: string, i: nat): (r: seq<string>)
    ensures |r| <= 1
  {
    if MatchAt(s, i).Some? then [Capture(s, i)] else []
  }

  function Hits(s: string): nat -> seq<string> {
    (i: nat) => Hit(s, i)
  }

  /** The hits at the positions in [i, n), in order. */
  function Gather(h: nat -> seq<string>, i: nat, n: nat): seq<string>
    decreases n - i
  {
    if i >= n then [] else h(i) + Gather(h, i + 1, n)
  }

  /** The number of hits at the positions in [i, p). */
  function Tally(h: nat -> seq<string>, i: nat, p: nat): nat
    requires i <= p
    decreases p - i
  {
    if i == p then 0 else |h(i)| + Tally(h, i + 1, p)
  }

  /** The reference list: the capture of every position where the pattern matches, in text order. */
  function AllMatches(s: string, i: nat): seq<string> {
    Gather(Hits(s), i, |s|)
  }

  /** How many positions in [i, p) the pattern matches at. */
  function CountMatches(s: string, i: nat, p: nat): nat
    requires i <= p
  {
    Tally(Hits(s), i, p)
  }

  lemma AllMatchesStep(s: string, i: nat)
    requires i < |s|
    ensures AllMatches(s, i) == Hit(s, i) + AllMatches(s, i + 1)
  {
    assert Hits(s)(i) == Hit(s, i);
  }

  lemma CountStep(s: string, i: nat, p: nat)
    requires i < p
    ensures CountMatches(s, i, p) == |Hit(s, i)| + CountMatches(s, i + 1, p)
  {
    assert Hits(s)(i) == Hit(s, i);
  }

  /** A hit at p is listed after the hits before it. */
  lemma {:induction false} GatherListed(h: nat -> seq<string>, i: nat, p: nat, n: nat)
    requires i <= p < n && |h(p)| == 1
    ensures Tally(h, i, p) < |Gather(h, i, n)| && Gather(h, i, n)[Tally(h, i, p)] == h(p)[0]
    decreases p - i
  {
    if i < p {
      GatherListed(h, i + 1, p, n);
      IndexAfter(h(i), Gather(h, i + 1, n), Tally(h, i + 1, p));
    }
  }

  lemma IndexAfter(head: seq<string>, rest: seq<string>, c: nat)
    requires c < |rest|
    ensures |head| + c < |head + rest| && (head + rest)[|head| + c] == rest[c]
  {
  }

  /** A match starts with the label's capital A. */
  lemma MatchStartsWithA(s: string, i: nat)
    requires MatchAt(s, i).Some?
    ensures s[i] == 'A'
  {
    assert s[i..i + |Label|][0] == Label[0];
  }

  /** No match starts inside another: the label has one capital A, and whitespace, ':' and digits are not one. */
  lemma NoMatchInside(s: string, i: nat, p: nat)
    requires MatchAt(s, i).Some? && i < p < MatchAt(s, i).value.1
    ensures MatchAt(s, p).None?
  {
    var j := SkipSpaces(s, i + |Label|);
    var k := SkipSpaces(s, j + 1);
    if p < i + |Label| {
      assert s[p] == s[i..i + |Label|][p - i];
      assert s[p] != 'A';
    } else if p < j || j < p < k {
      assert IsSpace(s[p]);
    } else if p == j {
      assert s[p] == ':';
    } else {
      assert IsDigit(s[p]);
    }
    if MatchAt(s, p).Some? {
      MatchStartsWithA(s, p);
    }
  }

  lemma {:induction false} AllMatchesSkip(s: string, a: nat, b: nat)
    requires a <= b
    requires forall p :: a <= p < b ==> MatchAt(s, p).None?
    ensures AllMatches(s, a) == AllMatches(s, b)
    decreases b - a
  {
    if a < b && a < |s| {
      AllMatchesStep(s, a);
      AllMatchesSkip(s, a + 1, b);
    }
  }

  /** The scan that resumes at the end of each match lists the same captures as the reference. */
  lemma {:induction false} FindAllIsAllMatches(s: string, i: nat)
    ensures FindAll(s, i) == AllMatches(s, i)
    decreases |s| - i
  {
    if i < |s| {
      AllMatchesStep(s, i);
      if MatchAt(s, i).Some? {
        var e := MatchAt(s, i).value.1;
        FindAllIsAllMatches(s, e);
        forall p | i + 1 <= p < e ensures MatchAt(s, p).None? {
          NoMatchInside(s, i, p);
        }
        AllMatchesSkip(s, i + 1, e);
      } else {
        FindAllIsAllMatches(s, i + 1);
      }
    }
  }

  /** The reference lists one capture per match. */
  lemma {:induction false} AllMatchesCount(s: string, i: nat)
    requires i <= |s|
    ensures |AllMatches(s, i)| == CountMatches(s, i, |s|)
    decreases |s| - i
  {
    if i < |s| {
      AllMatchesStep(s, i);
      CountStep(s, i, |s|);
      AllMatchesCount(s, i + 1);
    }
  }

  /** The match at `p` is listed, after the matches before it. */
  lemma MatchListed(s: string, i: nat, p: nat)
    requires i <= p < |s| && MatchAt(s, p).Some?
    ensures CountMatches(s, i, p) < |AllMatches(s, i)|
    ensures AllMatches(s, i)[CountMatches(s, i, p)] == Capture(s, p)
  {
    assert Hits(s)(p) == [Capture(s, p)];
    GatherListed(Hits(s), i, p, |s|);
  }

  /** Every listed capture is the capture of a match, the one at its place in text order. */
  lemma {:induction false} ListedMatch(s: string, i: nat, k: nat) returns (p: nat)
    requires k < |AllMatches(s, i)|
    ensures i <= p < |s| && MatchAt(s, p).Some?
    ensures CountMatches(s, i, p) == k && AllMatches(s, i)[k] == Capture(s, p)
    decreases |s| - i
  {
    assert i < |s|;
    AllMatchesStep(s, i);
    var head := Hit(s, i);
    if MatchAt(s, i).Some? && k == 0 {
      p := i;
    } else {
      p := ListedMatch(s, i + 1, k - |head|);
      CountStep(s, i, p);
    }
  }

  /** Counting matches up to a later position counts the match at an earlier one. */
  lemma {:induction false} CountMatchesGrows(s: string, i: nat, p: nat, q: nat)
    requires i <= p < q && MatchAt(s, p).Some?
    ensures CountMatches(s, i, p) < CountMatches(s, i, q)
    decreases p - i
  {
    CountStep(s, i, q);
    if i < p {
      CountStep(s, i, p);
      CountMatchesGrows(s, i + 1, p, q);
    }
  }

  /**
    Every match is extracted, in text order: there are as many ids as
    matches, and the match at position p gives the id at index (number of
    matches before p).
   */
  lemma ExtractIdsExact(answer: string)
    ensures |ExtractIds(answer)| == CountMatches(answer, 0, |answer|)
    ensures forall p :: 0 <= p < |answer| && MatchAt(answer, p).Some? ==>
      CountMatches(answer, 0, p) < |ExtractIds(answer)| && ExtractIds(answer)[CountMatches(answer, 0, p)] == Capture(answer, p)
    ensures forall p, q :: 0 <= p < q <= |answer| && MatchAt(answer, p).Some? ==> CountMatches(answer, 0, p) < CountMatches(answer, 0, q)
  {
    FindAllIsAllMatches(answer, 0);
    AllMatchesCount(answer, 0);
    forall p | 0 <= p < |answer| && MatchAt(answer, p).Some?
      ensures CountMatches(answer, 0, p) < |ExtractIds(answer)| && ExtractIds(answer)[CountMatches(answer, 0, p)] == Capture(answer, p)
    {
      MatchListed(answer, 0, p);
    }
    forall p, q | 0 <= p < q <= |answer| && MatchAt(answer, p).Some?
      ensures CountMatches(answer, 0, p) < CountMatches(answer, 0, q)
    {
      CountMatchesGrows(answer, 0, p, q);
    }
  }

  /** Every extracted id is the capture of a match: the one with k matches before it. */
  lemma ExtractIdsSound(answer: string, k: nat) returns (p: nat)
    requires k < |ExtractIds(answer)|
    ensures p < |answer| && MatchAt(answer, p).Some?
    ensures CountMatches(answer, 0, p) == k && ExtractIds(answer)[k] == Capture(answer, p)
  {
    FindAllIsAllMatches(answer, 0);
    p := ListedMatch(answer, 0, k);
  }

  // ----- `list(dict.fromkeys(ids))` -----

  function Itself(x: string): string { x }

  function Always(x: string): bool { true }

  /** `list(dict.fromkeys(ids))`: the ids without repeats, each at its first occurrence. */
  function FromKeys(ids: seq<string>): (r: seq<string>)
    ensures |r| <= |ids| && forall k :: 0 <= k < |r| ==> r[k] in ids
  {
    KeepFirstFromInput(ids, Itself, Always);
    KeepFirst(ids, Itself, Always)
  }

  /**
    The deduplicated ids are a subsequence of the ids (kept at strictly
    increasing positions, each at its first occurrence), without repeats,
    and every id is among them.
   */
  lemma FromKeysFacts(ids: seq<string>)
    ensures var r := FromKeys(ids); var at := KeptAt(ids, Itself, Always);
      && |at| == |r|
      && (forall k :: 0 <= k < |at| ==> at[k] < |ids| && r[k] == ids[at[k]])
      && (forall a, b :: 0 <= a < b < |at| ==> at[a] < at[b])
      && (forall k, j :: 0 <= k < |at| && 0 <= j < at[k] ==> ids[j] != r[k])
    ensures forall a, b :: 0 <= a < b < |FromKeys(ids)| ==> FromKeys(ids)[a] != FromKeys(ids)[b]
    ensures forall x :: x in FromKeys(ids) <==> x in ids
  {
    var r := FromKeys(ids);
    KeepFirstOrder(ids, Itself, Always);
    KeepFirstDistinct(ids, Itself, Always);
    KeepFirstComplete(ids, Itself, Always);
    KeepFirstFromInput(ids, Itself, Always);
    forall x | x in ids ensures x in r {
      var i :| 0 <= i < |ids| && ids[i] == x;
      assert Itself(ids[i]) in KeysOf(r, Itself);
    }
  }

  // ----- the join with the application table -----

  /** Ids as the regex captures them: non-empty runs of ASCII digits. */
  predicate DigitRuns(ids: seq<string>) {
    forall k :: 0 <= k < |ids| ==> |ids[k]| >= 1 && AllDigits(ids[k])
  }

  /** `Application.objects.filter(id__in=ids)`: the lookup turns each id into a number with `int()`. */
  function Wanted(ids: seq<string>): set<nat>
    requires DigitRuns(ids)
  {
    set k | 0 <= k < |ids| :: DigitsValue(ids[k])
  }

  /** `{str(a.id): a for a in qs}` over the table of application ids and names. */
  function ById(ids: seq<string>, apps: map<nat, string>): map<string, AppRef>
    requires DigitRuns(ids)
  {
    DecimalInjective();
    map n | n in apps && n in Wanted(ids) :: NatToDecimal(n) := AppRef(n, apps[n])
  }

  lemma DecimalInjective()
    ensures forall a: nat, b: nat :: NatToDecimal(a) == NatToDecimal(b) ==> a == b
  {
    forall a: nat, b: nat ensures NatToDecimal(a) == NatToDecimal(b) ==> a == b {
      NatToDecimalInjective(a, b);
    }
  }

  /** `[by_id[i] for i in ids if i in by_id]` */
  function Select(ids: seq<string>, byId: map<string, AppRef>): (r: seq<AppRef>)
    ensures |r| <= |ids|
  {
    if ids == [] then []
    else (if ids[0] in byId then [byId[ids[0]]] else []) + Select(ids[1..], byId)
  }

  /** The applications linked from a list of ids, in the ids' order. */
  function LinkedApps(ids: seq<string>, apps: map<nat, string>): (r: seq<AppRef>)
    requires DigitRuns(ids)
    ensures |r| <= |ids|
  {
    Select(ids, ById(ids, apps))
  }

  /** An id links an application when it is that application's id written as `str()` writes it, without leading zeros. */
  predicate Links(id: string, apps: map<nat, string>)
    requires |id| >= 1 && AllDigits(id)
  {
    DigitsValue(id) in apps && NatToDecimal(DigitsValue(id)) == id
  }

  /** An id is a key of `by_id` exactly when it links an application, and then it maps to that application. */
  lemma ByIdKeys(ids: seq<string>, apps: map<nat, string>, k: nat)
    requires DigitRuns(ids) && k < |ids|
    ensures ids[k] in ById(ids, apps) <==> Links(ids[k], apps)
    ensures Links(ids[k], apps) ==> ById(ids, apps)[ids[k]] == AppRef(DigitsValue(ids[k]), apps[DigitsValue(ids[k])])
  {
    var m := ById(ids, apps);
    var n := DigitsValue(ids[k]);
    assert n in Wanted(ids);
    if ids[k] in m {
      var x :| x in apps && x in Wanted(ids) && NatToDecimal(x) == ids[k];
      NatDecimalRoundTrip(x);
      DecimalInjective();
      assert m[NatToDecimal(x)] == AppRef(x, apps[x]);
    }
  }

  /** How many linked applications the first k ids give. */
  lemma {:induction false} SelectPrefix(ids: seq<string>, byId: map<string, AppRef>, k: nat)
    requires k < |ids| && ids[k] in byId
    ensures |Select(ids[..k], byId)| < |Select(ids, byId)|
    ensures Select(ids, byId)[|Select(ids[..k], byId)|] == byId[ids[k]]
    decreases k
  {
    var head := if ids[0] in byId then [byId[ids[0]]] else [];
    assert Select(ids, byId) == head + Select(ids[1..], byId);
    if k > 0 {
      SelectPrefix(ids[1..], byId, k - 1);
      assert ids[..k] == [ids[0]] + ids[1..][..k - 1];
      assert Select(ids[..k], byId) == head + Select(ids[1..][..k - 1], byId);
    } else {
      assert ids[..k] == [];
    }
  }

  lemma {:induction false} SelectPrefixGrows(ids: seq<string>, byId: map<string, AppRef>, j: nat, k: nat)
    requires j < k <= |ids| && ids[j] in byId
    ensures |Select(ids[..j], byId)| < |Select(ids[..k], byId)|
    decreases k - j
  {
    if k == j + 1 {
      var t := ids[..k];
      SelectPrefix(t, byId, j);
      assert t[..j] == ids[..j];
    } else {
      SelectPrefixGrows(ids, byId, j, k - 1);
      SelectMonotone(ids, byId, k - 1);
    }
  }

  lemma {:induction false} SelectMonotone(ids: seq<string>, byId: map<string, AppRef>, k: nat)
    requires k < |ids|
    ensures |Select(ids[..k], byId)| <= |Select(ids[..k + 1], byId)|
    decreases k
  {
    var t := ids[..k + 1];
    assert Select(t, byId) == (if t[0] in byId then [byId[t[0]]] else []) + Select(t[1..], byId);
    if k > 0 {
      SelectMonotone(ids[1..], byId, k - 1);
      assert t[1..] == ids[1..][..k];
      assert ids[..k] == [ids[0]] + ids[1..][..k - 1];
    }
  }

  /** Every linked application comes from an id that links it. */
  lemma {:induction false} SelectFrom(ids: seq<string>, byId: map<string, AppRef>, x: AppRef)
    requires x in Select(ids, byId)
    ensures exists k :: 0 <= k < |ids| && ids[k] in byId && byId[ids[k]] == x
  {
    if ids[0] in byId && byId[ids[0]] == x {
    } else {
      SelectFrom(ids[1..], byId, x);
      var k :| 0 <= k < |ids[1..]| && ids[1..][k] in byId && byId[ids[1..][k]] == x;
      assert ids[k + 1] == ids[1..][k];
    }
  }

  /**
    The linked applications are exactly those whose id the list writes
    without leading zeros, in the order of the list: the id at index k links
    the application at index (number linked by the ids before k). An id with
    leading zeros ("007") is fetched by the query but not linked.
   */
  lemma LinkedAppsFacts(ids: seq<string>, apps: map<nat, string>)
    requires DigitRuns(ids)
    ensures forall a :: a in LinkedApps(ids, apps) <==> a.id in apps && a.name == apps[a.id] && NatToDecimal(a.id) in ids
    ensures forall k :: 0 <= k < |ids| && Links(ids[k], apps) ==>
      var at := |Select(ids[..k], ById(ids, apps))|;
      at < |LinkedApps(ids, apps)| && LinkedApps(ids, apps)[at] == AppRef(DigitsValue(ids[k]), apps[DigitsValue(ids[k])])
    ensures forall j, k :: 0 <= j < k <= |ids| && Links(ids[j], apps) ==>
      |Select(ids[..j], ById(ids, apps))| < |Select(ids[..k], ById(ids, apps))|
  {
    var m := ById(ids, apps);
    forall a ensures a in LinkedApps(ids, apps) <==> a.id in apps && a.name == apps[a.id] && NatToDecimal(a.id) in ids {
      if a in LinkedApps(ids, apps) {
        SelectFrom(ids, m, a);
        var k :| 0 <= k < |ids| && ids[k] in m && m[ids[k]] == a;
        ByIdKeys(ids, apps, k);
        NatDecimalRoundTrip(a.id);
      }
      if a.id in apps && a.name == apps[a.id] && NatToDecimal(a.id) in ids {
        var k :| 0 <= k < |ids| && ids[k] == NatToDecimal(a.id);
        NatDecimalRoundTrip(a.id);
        ByIdKeys(ids, apps, k);
        SelectPrefix(ids, m, k);
      }
    }
    forall k | 0 <= k < |ids| && Links(ids[k], apps)
      ensures var at := |Select(ids[..k], m)|;
        at < |LinkedApps(ids, apps)| && LinkedApps(ids, apps)[at] == AppRef(DigitsValue(ids[k]), apps[DigitsValue(ids[k])])
    {
      ByIdKeys(ids, apps, k);
      SelectPrefix(ids, m, k);
    }
    forall j, k | 0 <= j < k <= |ids| && Links(ids[j], apps)
      ensures |Select(ids[..j], m)| < |Select(ids[..k], m)|
    {
      ByIdKeys(ids, apps, j);
      SelectPrefixGrows(ids, m, j, k);
    }
  }

  /** An id written with a leading zero is not linked, though the query fetches its application. */
  lemma LeadingZeroNotLinked(apps: map<nat, string>)
    requires 7 in apps
    ensures 7 in Wanted(["007"]) && LinkedApps(["007"], apps) == []
  {
    assert DigitsValue("007") == 7 by {
      assert "007"[..2] == "00" && "00"[..1] == "0" && "0"[..0] == "";
    }
    assert "007" != NatToDecimal(7);
    ByIdKeys(["007"], apps, 0);
  }

  /** The clickable applications of a stored answer: none unless the answer is truthy, then those its ids link. */
  function LinkedFor(lastAnswer: Option<string>, apps: map<nat, string>): (r: seq<AppRef>)
    ensures lastAnswer.None? ==> r == []
    ensures lastAnswer.Some? ==> |r| <= |ExtractIds(lastAnswer.value)|
  {
    if lastAnswer.None? || lastAnswer.value == "" then []
    else
      var ids := FromKeys(ExtractIds(lastAnswer.value));
      KeepFirstFromInput(ExtractIds(lastAnswer.value), Itself, Always);
      if ids == [] then [] else LinkedApps(ids, apps)
  }

  /**
    The applications an answer links, from the answer's text alone: an
    application is linked exactly when the answer is non-empty and mentions
    "Application ID: <its id>" with the id written without leading zeros.
   */
  lemma LinkedForFacts(answer: string, apps: map<nat, string>)
    ensures forall a :: a in LinkedFor(Some(answer), apps) <==>
      answer != "" && a.id in apps && a.name == apps[a.id] && NatToDecimal(a.id) in ExtractIds(answer)
    ensures LinkedFor(None, apps) == []
  {
    if answer != "" {
      var ids := FromKeys(ExtractIds(answer));
      FromKeysFacts(ExtractIds(answer));
      KeepFirstFromInput(ExtractIds(answer), Itself, Always);
      LinkedAppsFacts(ids, apps);
    }
  }

  // ----- `qa_view` -----

  /** The session entries the page keeps between requests. */
  class Session {
    /** `session["qa_last_question"]` */
    var lastQuestion: Option<string>
    /** `session["qa_last_answer"]` */
    var lastAnswer: Option<string>

    constructor (question: Option<string>, answer: Option<string>)
      ensures lastQuestion == question && lastAnswer == answer
    {
      lastQuestion := question;
      lastAnswer := answer;
    }
  }

  /** Why the page shows an error. */
  datatype Problem =
    | EmptyQuestion          // the posted question strips to nothing
    | RateLimited            // the client's marker is present
    | CallFailed(e: PyError) // the generator call raised

  /** The error text the template shows for each problem. */
  function ErrorText(p: Problem): string {
    match p
    case EmptyQuestion => "Zadej otázku."
    case RateLimited => RateLimitMessage
    case CallFailed(e) => FailureMessage(e)
  }

  /** What the template is given. */
  datatype QaPage = QaPage(lastQuestion: Option<string>, lastAnswer: Option<string>, linked: seq<AppRef>, error: Option<Problem>)

  /** The rate-limit marker of a client address. */
  function QaKey(addr: string): string {
    "qa:" + addr
  }

  /**
    `qa_view`: a GET, an empty question or a present marker change nothing
    and make no call; otherwise the marker is set for 10 seconds and the
    question is sent once, and only an answer replaces the stored question
    and answer. The page always shows what the session holds afterwards,
    with the applications that answer links.
   */
  method QaView(session: Session, cache: Cache, addr: string, isPost: bool, posted: Option<string>,
                llm: Oracle, apps: map<nat, string>) returns (page: QaPage, sent: seq<Prompt>)
    modifies session, cache
    ensures var question := Strip(if posted.Some? then posted.value else "");
      if !isPost || question == "" || old(cache.Has(QaKey(addr))) then
        && sent == [] && cache.markers == old(cache.markers)
        && session.lastQuestion == old(session.lastQuestion) && session.lastAnswer == old(session.lastAnswer)
        && page.error == (if !isPost then None else if question == "" then Some(EmptyQuestion) else Some(RateLimited))
      else
        && sent == [QaPrompt(question)] && cache.markers == old(cache.markers)[QaKey(addr) := 10]
        && match llm(0, sent[0])
           case Answer(text) =>
             session.lastQuestion == Some(question) && session.lastAnswer == Some(text) && page.error == None
           case Failed(e) =>
             && session.lastQuestion == old(session.lastQuestion) && session.lastAnswer == old(session.lastAnswer)
             && page.error == Some(CallFailed(e))
    ensures page.lastQuestion == session.lastQuestion && page.lastAnswer == session.lastAnswer
    ensures page.linked == LinkedFor(session.lastAnswer, apps)
  {
    sent := [];
    var error: Option<Problem> := None;
    if isPost {
      var question := Strip(if posted.Some? then posted.value else "");
      if question == "" {
        error := Some(EmptyQuestion);
      } else {
        var key := QaKey(addr);
        if cache.Has(key) {
          error := Some(RateLimited);
        } else {
          cache.Set(key, 10);
          var prompt := QaPrompt(question);
          sent := [prompt];
          var reply := llm(0, prompt);
          if reply.Answer? {
            session.lastQuestion := Some(question);
            session.lastAnswer := Some(reply.text);
          } else {
            error := Some(CallFailed(reply.error));
          }
        }
      }
    }
    page := QaPage(session.lastQuestion, session.lastAnswer, LinkedFor(session.lastAnswer, apps), error);
  }

  // ----- `llm_ask` -----

  /** The request body as `json.loads(request.body.decode("utf-8"))` sees it. */
  datatype Body =
    | Undecodable                          // not UTF-8
    | InvalidJson                          // json.loads raised
    | NonObject                            // a JSON value without `.get`
    | Object(fields: map<string, Value>)   // a JSON object

  /** The response: the decorator's 405, or a JSON object with one field. */
  datatype Response = NotAllowed | Json(status: nat, field: string, text: string)

  /** The rate-limit marker of a client address. */
  function AskKey(addr: string): string {
    "llm:" + addr
  }

  function ErrorResponse(status: nat, text: string): Response {
    Json(status, "error", text)
  }

  /**
    `llm_ask`: every guard answers without a call, and the marker is set
    only once the body carries a truthy `app_id` and no marker is present;
    the one call describes the application the id names, and the response
    is 200 exactly when that call is answered.
   */
  method LlmAsk(cache: Cache, addr: string, isPost: bool, body: Body, llm: Oracle, apps: map<nat, string>)
    returns (resp: Response, sent: seq<Prompt>)
    modifies cache
    ensures !isPost ==> resp == NotAllowed && sent == [] && cache.markers == old(cache.markers)
    ensures isPost && !body.Object? ==>
      && sent == [] && cache.markers == old(cache.markers)
      && resp == (if body.InvalidJson? then ErrorResponse(400, "Invalid JSON") else ErrorResponse(500, "Internal server error"))
    ensures isPost && body.Object? && !Truthy(Get(body.fields, "app_id")) ==>
      resp == ErrorResponse(400, "Missing app_id") && sent == [] && cache.markers == old(cache.markers)
    ensures isPost && body.Object? && Truthy(Get(body.fields, "app_id")) && old(cache.Has(AskKey(addr))) ==>
      resp == ErrorResponse(429, "Too many requests, try again.") && sent == [] && cache.markers == old(cache.markers)
    ensures isPost && body.Object? && Truthy(Get(body.fields, "app_id")) && !old(cache.Has(AskKey(addr))) ==>
      && cache.markers == old(cache.markers)[AskKey(addr) := 10]
      && match IntOf(Get(body.fields, "app_id"))
         case Err(_) => resp == ErrorResponse(500, "Internal server error") && sent == []
         case Ok(n) =>
           if n < 0 || n !in apps then resp == ErrorResponse(404, "Application not found") && sent == []
           else
             && sent == [DescribePrompt(apps[n])]
             && resp == match llm(0, sent[0])
                case Answer(text) => Json(200, "answer", text)
                case Failed(e) =>
                  if e.LlmError? then ErrorResponse(502, "LLM temporarily unavailable")
                  else ErrorResponse(500, "Internal server error")
    ensures resp.Json? && resp.status == 200 <==> |sent| == 1 && llm(0, sent[0]).Answer?
  {
    sent := [];
    if !isPost {
      return NotAllowed, [];
    }
    match body
    case Undecodable =>
      resp := ErrorResponse(500, "Internal server error");
    case InvalidJson =>
      resp := ErrorResponse(400, "Invalid JSON");
    case NonObject =>
      resp := ErrorResponse(500, "Internal server error");
    case Object(fields) =>
      var appId := Get(fields, "app_id");
      if !Truthy(appId) {
        return ErrorResponse(400, "Missing app_id"), [];
      }
      var key := AskKey(addr);
      if cache.Has(key) {
        return ErrorResponse(429, "Too many requests, try again."), [];
      }
      cache.Set(key, 10);
      var pk := IntOf(appId);
      if pk.Err? {
        return ErrorResponse(500, "Internal server error"), [];
      }
      var n := pk.value;
      if n < 0 || n !in apps {
        return ErrorResponse(404, "Application not found"), [];
      }
      var prompt := DescribePrompt(apps[n]);
      sent := [prompt];
      var reply := llm(0, prompt);
      if reply.Answer? {
        resp := Json(200, "answer", reply.text);
      } else if reply.error.LlmError? {
        resp := ErrorResponse(502, "LLM temporarily unavailable");
      } else {
        resp := ErrorResponse(500, "Internal server error");
      }
  }
}

=== FILE: rand.dfy ===
/**
  Python's `random` as the seeding code uses it. Distributions are not modelled:
  each random call is given an oracle number, and the functions here map it to a
  value in the range the call promises.
 */
module Rand {

  /** The oracle numbers for the random calls made while producing one record, in call order. */
  type Draws = nat -> nat

  predicate Distinct<T(==)>(s: seq<T>) {
    forall i, j :: 0 <= i < j < |s| ==> s[i] != s[j]
  }

  /** `random.choice(pool)` */
  function Choice<T>(pool: seq<T>, x: nat): (r: T)
    requires |pool| > 0
    ensures r in pool
  {
    pool[x % |pool|]
  }

  /** `random.randint(lo, hi)`: both ends included. */
  function RandInt(lo: int, hi: int, x: nat): (r: int)
    requires lo <= hi
    ensures lo <= r <= hi
  {
    lo + x % (hi - lo + 1)
  }

  /** `pool` without its element at index j. */
  function Without<T>(pool: seq<T>, j: nat): (r: seq<T>)
    requires j < |pool|
    ensures |r| == |pool| - 1
    ensures forall x :: x in r ==> x in pool
    ensures Distinct(pool) ==> Distinct(r) && pool[j] !in r
  {
    var r := pool[..j] + pool[j + 1..];
    assert forall i :: 0 <= i < |r| ==> r[i] == pool[if i < j then i else i + 1];
    r
  }

  /**
    `random.sample(pool, len(draws))`: the i-th draw picks one of the members not
    taken yet, so the sample takes distinct positions of the pool.
   */
  function Sample<T>(pool: seq<T>, draws: seq<nat>): (r: seq<T>)
    requires |draws| <= |pool|
    ensures |r| == |draws|
    ensures forall x :: x in r ==> x in pool
    ensures Distinct(pool) ==> Distinct(r)
    decreases |draws|
  {
    if draws == [] then []
    else
      var j := draws[0] % |pool|;
      var rest := Sample(Without(pool, j), draws[1..]);
      [pool[j]] + rest
  }

  /** The first n oracle numbers of a record's draws, starting at position `from`. */
  function Take(d: Draws, from: nat, n: nat): (r: seq<nat>)
    ensures |r| == n
  {
    seq(n, i requires 0 <= i < n => d(from + i))
  }
}

=== FILE: sanitizer.dfy ===
/**
  The response sanitiser of the seeding command: `_strip_code_fences`,
  `_extract_json_object` and `_parse_json_robust`.
 */
module Sanitizer {
  import opened Wrappers
  import opened PyText
  import opened JsonValues
  import opened Llm

  const Fence: string := "```"
  const NoJsonMessage: string := "No JSON object/array found in text"

  /** The characters of a fence's language tag: the regex class `[a-zA-Z0-9_-]`. */
  predicate IsLangChar(c: char) {
    ('a' <= c <= 'z') || ('A' <= c <= 'Z') || ('0' <= c <= '9') || c == '_' || c == '-'
  }

  /** Drops the leading run of language-tag characters. */
  function DropLang(s: string): (r: string)
    ensures |r| <= |s| && r == s[|s| - |r|..]
    ensures r == [] || !IsLangChar(r[0])
  {
    if s != [] && IsLangChar(s[0]) then DropLang(s[1..]) else s
  }

  /**
    `_strip_code_fences(text)`: strips the text; when it then starts with a fence,
    removes the opening fence with its language tag and the whitespace after it,
    and a closing fence at the very end with the whitespace before it.
   */
  function StripCodeFences(text: string): (r: string)
    ensures Stripped(r) && |r| <= |text|
    ensures !StartsWith(Strip(text), Fence) ==> r == Strip(text)
  {
    var t := Strip(text);
    if StartsWith(t, Fence) then
      var u := OpeningRemoved(t);
      Strip(if EndsWith(u, Fence) then RStrip(u[..|u| - 3]) else u)
    else t
  }

  /** Removing fences adds no character: one absent from the text is absent from the result. */
  lemma FencesAddNothing(text: string, c: char)
    requires c !in text
    ensures c !in StripCodeFences(text)
  {
    var t := Strip(text);
    StripKeepsOut(text, c);
    if StartsWith(t, Fence) {
      var u := OpeningRemoved(t);
      OpeningKeepsOut(t, c);
      var v := if EndsWith(u, Fence) then RStrip(u[..|u| - 3]) else u;
      if EndsWith(u, Fence) {
        assert c !in u[..|u| - 3];
        assert v == u[..|u| - 3][..|v|];
      }
      StripKeepsOut(v, c);
    }
  }

  /** What follows the opening fence, its language tag and the whitespace after them. */
  function OpeningRemoved(t: string): (u: string)
    requires |t| >= 3
    ensures |u| <= |t| - 3
  {
    LStrip(DropLang(t[3..]))
  }

  /** Removing the opening adds no character. */
  lemma OpeningKeepsOut(t: string, c: char)
    requires |t| >= 3 && c !in t
    ensures c !in OpeningRemoved(t)
  {
    assert c !in t[3..];
    DropLangKeepsOut(t[3..], c);
    LStripKeepsOut(DropLang(t[3..]), c);
  }

  lemma {:induction false} DropLangKeepsOut(s: string, c: char)
    requires c !in s
    ensures c !in DropLang(s)
    decreases |s|
  {
    if s != [] && IsLangChar(s[0]) {
      assert c !in s[1..];
      DropLangKeepsOut(s[1..], c);
    }
  }

  /** A fenced block: the opening fence, a language tag, whitespace, the body, whitespace and the closing fence. */
  function Fenced(lang: string, open: string, body: string, close: string): string {
    Fence + (lang + (open + body + close + Fence))
  }

  /** Removing the fence gives back exactly the stripped body that was fenced. */
  lemma FenceRoundTrip(lang: string, open: string, body: string, close: string)
    requires forall i :: 0 <= i < |lang| ==> IsLangChar(lang[i])
    requires |open| > 0 && AllSpace(open)
    requires AllSpace(close)
    requires Stripped(body)
    ensures StripCodeFences(Fenced(lang, open, body, close)) == body
  {
    var t := Fenced(lang, open, body, close);
    var rest := open + body + close + Fence;
    assert rest[0] == open[0] && rest[|rest| - 1] == '`';
    OpeningOfFenced(t, lang, rest);
    var u := LStrip(rest);
    ClosingOfFenced(open, body, close, u);
    ClosedFence(t, u, body);
  }

  /** The result for a stripped text that opens with a fence and, past the opening, ends with one. */
  lemma ClosedFence(t: string, u: string, body: string)
    requires Strip(t) == t && StartsWith(t, Fence)
    requires OpeningRemoved(t) == u && EndsWith(u, Fence)
    requires Strip(RStrip(u[..|u| - 3])) == body
    ensures StripCodeFences(t) == body
  {
  }

  /** After the opening, the whitespace, the body, the whitespace and the closing fence leave the body. */
  lemma ClosingOfFenced(open: string, body: string, close: string, u: string)
    requires |open| > 0 && AllSpace(open)
    requires AllSpace(close)
    requires Stripped(body)
    requires u == LStrip(open + body + close + Fence)
    ensures EndsWith(u, Fence) && Strip(RStrip(u[..|u| - 3])) == body
  {
    if body == [] {
      EmptyBodyClosing(open, body, close, u);
    } else {
      BodyClosing(open, body, close, u);
      RStripAfter(body, close);
      StripOfStripped(body);
    }
  }

  lemma EmptyBodyClosing(open: string, body: string, close: string, u: string)
    requires AllSpace(open) && AllSpace(close) && body == []
    requires u == LStrip(open + body + close + Fence)
    ensures u == Fence
  {
    Regroup(open, body, close, Fence);
    WhitespaceThenFence(open, close);
  }

  lemma WhitespaceThenFence(open: string, close: string)
    requires AllSpace(open) && AllSpace(close)
    ensures LStrip((open + close) + Fence) == Fence
  {
    AllSpaceConcat(open, close);
    LStripBefore(open + close, Fence);
  }

  lemma BodyClosing(open: string, body: string, close: string, u: string)
    requires AllSpace(open) && AllSpace(close)
    requires body != [] && Stripped(body)
    requires u == LStrip(open + body + close + Fence)
    ensures EndsWith(u, Fence) && u[..|u| - 3] == body + close
  {
    Regroup(open, body, close, Fence);
    LStripBefore(open, body + close + Fence);
    FenceSuffix(body + close);
  }

  /** The two groupings of a four-part text the fence proofs use. */
  lemma Regroup(a: string, b: string, c: string, d: string)
    ensures a + b + c + d == a + (b + c + d)
    ensures b == [] ==> a + b + c + d == (a + c) + d
  {
  }

  lemma FenceSuffix(x: string)
    ensures EndsWith(x + Fence, Fence) && (x + Fence)[..|x|] == x
  {
    assert (x + Fence)[|x|..] == Fence;
  }

  /** A fence with a language tag opens the text: its removal leaves what follows the tag, left-stripped. */
  lemma OpeningOfFenced(t: string, lang: string, rest: string)
    requires t == Fence + (lang + rest)
    requires forall i :: 0 <= i < |lang| ==> IsLangChar(lang[i])
    requires rest != [] && IsSpace(rest[0]) && rest[|rest| - 1] == '`'
    ensures Strip(t) == t && StartsWith(t, Fence)
    ensures OpeningRemoved(t) == LStrip(rest)
  {
    FencedIsStripped(t, lang, rest);
    FenceOpens(t, lang, rest);
    AfterTag(t, lang, rest);
  }

  lemma FencedIsStripped(t: string, lang: string, rest: string)
    requires t == Fence + (lang + rest)
    requires rest != [] && rest[|rest| - 1] == '`'
    ensures Strip(t) == t
  {
    assert t[0] == '`' && t[|t| - 1] == '`';
    StripOfStripped(t);
  }

  lemma FenceOpens(t: string, lang: string, rest: string)
    requires t == Fence + (lang + rest)
    ensures StartsWith(t, Fence) && t[3..] == lang + rest
  {
    assert t[..3] == Fence;
  }

  lemma AfterTag(t: string, lang: string, rest: string)
    requires forall i :: 0 <= i < |lang| ==> IsLangChar(lang[i])
    requires rest != [] && IsSpace(rest[0])
    requires StartsWith(t, Fence) && t[3..] == lang + rest
    ensures OpeningRemoved(t) == LStrip(rest)
  {
    DropLangPrefix(lang, rest);
  }

  lemma {:induction false} DropLangPrefix(lang: string, rest: string)
    requires forall i :: 0 <= i < |lang| ==> IsLangChar(lang[i])
    requires rest != [] && !IsLangChar(rest[0])
    ensures DropLang(lang + rest) == rest
    decreases |lang|
  {
    if lang == [] {
      assert lang + rest == rest;
    } else {
      assert (lang + rest)[1..] == lang[1..] + rest;
      DropLangPrefix(lang[1..], rest);
    }
  }

  /** Some `open` character comes before some `close` character. */
  predicate HasSpan(t: string, open: char, close: char) {
    exists i, j :: 0 <= i < j < |t| && t[i] == open && t[j] == close
  }

  /** s opens with `open` and closes with `close`. */
  predicate Delimited(s: string, open: char, close: char) {
    |s| >= 2 && s[0] == open && s[|s| - 1] == close
  }

  /** The text from the first `open` to the last `close`, when the first comes before the last. */
  function Span(t: string, open: char, close: char): (r: Option<string>)
    ensures r.Some? <==> HasSpan(t, open, close)
    ensures r.Some? ==> Delimited(r.value, open, close)
  {
    var start := Find(t, open);
    var end := RFind(t, close);
    SpanBounds(t, open, close);
    if start != -1 && end != -1 && end > start then
      Some(t[start..end + 1])
    else
      None
  }

  /** When there is a span, the first `open` lies before the last `close`. */
  lemma SpanBounds(t: string, open: char, close: char)
    ensures HasSpan(t, open, close) <==> Find(t, open) != -1 && RFind(t, close) > Find(t, open)
  {
    var start := Find(t, open);
    var end := RFind(t, close);
    if HasSpan(t, open, close) {
      var i, j :| 0 <= i < j < |t| && t[i] == open && t[j] == close;
      assert open in t && close in t;
      assert start <= i;
      assert end >= j;
    }
    if start != -1 && end > start {
      assert t[start] == open && t[end] == close;
    }
  }

  /**
    `_extract_json_object(text)`: after removing code fences, the span from the
    first `{` to the last `}`; failing that the span from the first `[` to the
    last `]`; failing that ValueError.
   */
  function ExtractJsonObject(text: string): (r: Result<string, PyError>)
    ensures r.Ok? ==> Delimited(r.value, '{', '}') || Delimited(r.value, '[', ']')
    ensures HasSpan(StripCodeFences(text), '{', '}') ==> r.Ok? && Delimited(r.value, '{', '}')
    ensures r.Err? <==> !HasSpan(StripCodeFences(text), '{', '}') && !HasSpan(StripCodeFences(text), '[', ']')
  {
    var t := StripCodeFences(text);
    var obj := Span(t, '{', '}');
    if obj.Some? then Ok(obj.value)
    else
      var arr := Span(t, '[', ']');
      if arr.Some? then Ok(arr.value)
      else Err(ValueError(NoJsonMessage))
  }

  /** A text without any `{` or `[` has no JSON span. */
  lemma NoBracketNoJson(text: string)
    requires '{' !in text && '[' !in text
    ensures ExtractJsonObject(text).Err?
  {
    FencesAddNothing(text, '{');
    FencesAddNothing(text, '[');
    NoOpenNoSpan(StripCodeFences(text), '{', '}');
    NoOpenNoSpan(StripCodeFences(text), '[', ']');
  }

  lemma NoOpenNoSpan(t: string, open: char, close: char)
    requires open !in t
    ensures !HasSpan(t, open, close)
  {
  }

  /**
    In an unfenced, stripped text whose only `{` before the object is its own and
    whose only `}` after it is its own, the object is what is extracted.
   */
  lemma ExtractFindsObject(pre: string, obj: string, post: string)
    requires Delimited(obj, '{', '}')
    requires '{' !in pre && '}' !in post
    requires Stripped(pre + obj + post)
    requires pre == [] || pre[0] != '`'
    ensures ExtractJsonObject(pre + obj + post) == Ok(obj)
  {
    var t := pre + obj + post;
    ObjectBounds(pre, obj, post);
    UnfencedParts(pre, obj, post);
    Middle(pre, obj, post);
    ObjectSpan(t, |pre|, |pre| + |obj| - 1);
  }

  lemma Middle(pre: string, obj: string, post: string)
    requires obj != []
    ensures (pre + obj + post)[|pre|..|pre| + |obj| - 1 + 1] == obj
  {
    ThreeParts(pre, obj, post);
  }

  lemma UnfencedParts(pre: string, obj: string, post: string)
    requires Delimited(obj, '{', '}')
    requires Stripped(pre + obj + post)
    requires pre == [] || pre[0] != '`'
    ensures StripCodeFences(pre + obj + post) == pre + obj + post
  {
    assert (pre + obj + post)[0] == if pre == [] then obj[0] else pre[0];
    Unfenced(pre + obj + post);
  }

  lemma ObjectBounds(pre: string, obj: string, post: string)
    requires Delimited(obj, '{', '}')
    requires '{' !in pre && '}' !in post
    ensures Find(pre + obj + post, '{') == |pre|
    ensures RFind(pre + obj + post, '}') == |pre| + |obj| - 1
  {
    assert pre + obj + post == pre + (obj + post);
    FirstOpen(pre, obj + post);
    LastClose(pre + obj, post);
  }

  /** The first `{` of `pre + rest` is the head of rest when pre has none. */
  lemma FirstOpen(pre: string, rest: string)
    requires '{' !in pre && rest != [] && rest[0] == '{'
    ensures Find(pre + rest, '{') == |pre|
  {
    var t := pre + rest;
    assert t[..|pre|] == pre;
    FindIs(t, '{', |pre|);
  }

  /** The last `}` of `front + post` is the end of front when post has none. */
  lemma LastClose(front: string, post: string)
    requires '}' !in post && front != [] && front[|front| - 1] == '}'
    ensures RFind(front + post, '}') == |front| - 1
  {
    var t := front + post;
    assert t[|front|..] == post;
    RFindIs(t, '}', |front| - 1);
  }

  /** With the first `{` before the last `}` in an unfenced text, the object span is extracted. */
  lemma ObjectSpan(t: string, i: nat, j: nat)
    requires StripCodeFences(t) == t
    requires Find(t, '{') == i && RFind(t, '}') == j && i < j
    ensures ExtractJsonObject(t) == Ok(t[i..j + 1])
  {
    SpanBetween(t, i, j);
    UnfencedSpan(t, i, j);
  }

  lemma SpanBetween(t: string, i: nat, j: nat)
    requires Find(t, '{') == i && RFind(t, '}') == j && i < j
    ensures Span(t, '{', '}') == Some(t[i..j + 1])
  {
  }

  lemma UnfencedSpan(t: string, i: nat, j: nat)
    requires StripCodeFences(t) == t
    requires i <= j < |t| && Span(t, '{', '}') == Some(t[i..j + 1])
    ensures ExtractJsonObject(t) == Ok(t[i..j + 1])
  {
  }

  /** A stripped text that does not open with a backtick has no fence to remove. */
  lemma Unfenced(t: string)
    requires Stripped(t) && (t == [] || t[0] != '`')
    ensures StripCodeFences(t) == t
  {
    StripOfStripped(t);
    if |t| >= 3 {
      assert t[..3][0] == t[0];
    }
  }

  lemma ThreeParts(pre: string, obj: string, post: string)
    requires obj != []
    ensures var t := pre + obj + post;
      && t[..|pre|] == pre && t[|pre|] == obj[0]
      && t[|pre| + |obj| - 1] == obj[|obj| - 1] && t[|pre| + |obj|..] == post
      && t[|pre|..|pre| + |obj|] == obj
      && (pre != [] ==> t[0] == pre[0])
      && (pre == [] ==> t[0] == obj[0])
  {
  }

  /** A JSON object in a fenced block is extracted exactly. */
  lemma FencedObjectExtracted(lang: string, open: string, obj: string, close: string)
    requires forall i :: 0 <= i < |lang| ==> IsLangChar(lang[i])
    requires |open| > 0 && AllSpace(open) && AllSpace(close)
    requires Delimited(obj, '{', '}') && Stripped(obj)
    ensures ExtractJsonObject(Fenced(lang, open, obj, close)) == Ok(obj)
  {
    FenceRoundTrip(lang, open, obj, close);
    Alone(obj);
    ExtractFindsObject("", obj, "");
    Unfenced(obj);
    SameUnfenced(Fenced(lang, open, obj, close), obj);
  }

  lemma Alone(s: string)
    ensures "" + s + "" == s
  {
  }

  /** The sanitiser's own example: a fenced `{"a":1}` extracts to `{"a":1}`. */
  lemma FencedExample()
    ensures ExtractJsonObject("```json\n{\"a\":1}\n```") == Ok("{\"a\":1}")
  {
    assert Fenced("json", "\n", "{\"a\":1}", "\n") == "```json\n{\"a\":1}\n```";
    FencedObjectExtracted("json", "\n", "{\"a\":1}", "\n");
  }

  /** Extraction sees only the unfenced text. */
  lemma SameUnfenced(a: string, b: string)
    requires StripCodeFences(a) == StripCodeFences(b)
    ensures ExtractJsonObject(a) == ExtractJsonObject(b)
  {
  }

  /** The outcome of `_parse_json_robust` and the prompts it sent (the repair prompt, if any). */
  datatype Parsed = Parsed(result: Result<Loaded, PyError>, prompts: seq<Prompt>)

  /** A top-level list is handed on as `{"applications": list}`. */
  function Wrap(doc: Loaded): (r: Loaded)
    ensures !r.LList?
  {
    match doc
    case LList(items) => LDict(map["applications" := EList(items)])
    case _ => doc
  }

  /**
    `_parse_json_robust(raw)`: extracts the JSON span (a missing span raises at
    once, without repair); a span that parses to a list or an object is returned
    (a list wrapped); otherwise one repair prompt is sent and its answer extracted
    and parsed, and any failure there propagates.
   */
  function ParseJsonRobust(raw: string, loads: Loads, llm: Oracle, k: nat): (p: Parsed)
    ensures p.prompts == [] || (|p.prompts| == 1 && p.prompts[0].RepairPrompt?)
    ensures ExtractJsonObject(raw).Err? ==> p.result.Err? && p.prompts == []
    ensures p.result.Ok? ==> !p.result.value.LList? && !p.result.value.Invalid?
    ensures ExtractJsonObject(raw).Ok? ==>
      var part := ExtractJsonObject(raw).value;
      && (loads(part).LList? || loads(part).LDict? ==> p == Parsed(Ok(Wrap(loads(part))), []))
      && (!loads(part).LList? && !loads(part).LDict? ==> p.prompts == [RepairPrompt(part)])
  {
    var part := ExtractJsonObject(raw);
    if part.Err? then Parsed(Err(part.error), [])
    else
      var data := loads(part.value);
      if data.LList? || data.LDict? then Parsed(Ok(Wrap(data)), [])
      // json.loads raised, or returned neither a list nor a dict: one repair attempt
      else Repair(part.value, loads, llm, k)
  }

  /**
    The repair step of `_parse_json_robust`: one repair prompt; the stripped
    answer's JSON span is extracted and parsed, and every failure propagates.
   */
  function Repair(part: string, loads: Loads, llm: Oracle, k: nat): (p: Parsed)
    ensures p.prompts == [RepairPrompt(part)]
    ensures p.result.Ok? ==> !p.result.value.LList? && !p.result.value.Invalid?
    ensures llm(k, RepairPrompt(part)).Failed? ==> p.result == Err(llm(k, RepairPrompt(part)).error)
  {
    var prompt := RepairPrompt(part);
    match llm(k, prompt)
    case Failed(e) => Parsed(Err(e), [prompt])
    case Answer(text) =>
      var fixed := ExtractJsonObject(Strip(text));
      if fixed.Err? then Parsed(Err(fixed.error), [prompt])
      else
        var repaired := loads(fixed.value);
        if repaired.Invalid? then Parsed(Err(JsonDecodeError), [prompt])
        else Parsed(Ok(Wrap(repaired)), [prompt])
  }

  /** A list answer reaches the applications loop whole. */
  lemma WrappedListIsApplications(items: seq<Item>)
    ensures BatchOf(Wrap(LList(items)), "applications") == Ok(items)
  {
  }

  /** A list answer to an integrations prompt yields no integrations: the wrap files it under "applications". */
  lemma WrappedListHasNoIntegrations(items: seq<Item>)
    ensures BatchOf(Wrap(LList(items)), "integrations") == Ok([])
  {
  }
}

=== FILE: seed_command.dfy ===
/**
  `Command.handle` of the seeding command: the two batched generation loops
  over the text generator, normalisation and truncation, and the order of the
  database phases. The LLM call number runs across the whole command, so the
  k-th prompt of `sent` is the one the generator answered k-th.
 */
module SeedCommand {
  import opened Wrappers
  import opened PyText
  import opened JsonValues
  import opened Llm
  import opened SeedHelpers
  import opened Sanitizer
  import opened Normalizer
  import opened Portfolio
  import Rand

  // ----- options and limits -----

  /** The parsed options `--apps`, `--wipe`, `--batch`, `--max-attempts`, `--int-batch`, `--int-max-attempts`. */
  datatype Options = Options(apps: int, wipe: bool, batch: int, maxAttempts: int, intBatch: int, intMaxAttempts: int)

  /** The defaults of the argument parser. */
  const Defaults := Options(40, false, 8, 25, 25, 12)

  /** The bounds `handle` works with. */
  datatype Limits = Limits(
    targetApps: int, targetIntegrations: nat,
    appBatch: nat, appAttempts: nat, intBatch: nat, intAttempts: nat)

  /** Python's `max(a, b)`. */
  function Max(a: int, b: int): (r: int)
    ensures r >= a && r >= b && (r == a || r == b)
  {
    if a >= b then a else b
  }

  /** Python's `min(a, b)`. */
  function Min(a: int, b: int): (r: int)
    ensures r <= a && r <= b && (r == a || r == b)
  {
    if a <= b then a else b
  }

  /** `max(1, x)`: an option clamped to at least one. */
  function AtLeastOne(x: int): (r: nat)
    ensures r >= 1 && (x >= 1 ==> r == x) && (x < 1 ==> r == 1)
  {
    if x >= 1 then x else 1
  }

  /** The limits are usable by the loops: every batch size and attempt bound is at least one. */
  predicate Clamped(l: Limits) {
    l.appBatch >= 1 && l.appAttempts >= 1 && l.intBatch >= 1 && l.intAttempts >= 1
  }

  /**
    The bounds derived from the options: the integration target is at least
    50 and at least twice the application target, and every batch size and
    attempt bound is at least one.
   */
  function LimitsOf(o: Options): (l: Limits)
    ensures Clamped(l)
    ensures l.targetApps == o.apps
    ensures l.targetIntegrations >= 50 && l.targetIntegrations >= 2 * o.apps
    ensures l.targetIntegrations == 50 || l.targetIntegrations == 2 * o.apps
    ensures o.batch >= 1 ==> l.appBatch == o.batch
    ensures o.maxAttempts >= 1 ==> l.appAttempts == o.maxAttempts
    ensures o.intBatch >= 1 ==> l.intBatch == o.intBatch
    ensures o.intMaxAttempts >= 1 ==> l.intAttempts == o.intMaxAttempts
  {
    Limits(o.apps, Max(50, o.apps * 2) as nat,
      AtLeastOne(o.batch), AtLeastOne(o.maxAttempts),
      AtLeastOne(o.intBatch), AtLeastOne(o.intMaxAttempts))
  }

  /** With the defaults: 40 applications, 80 integrations, batches of 8 and 25, 25 and 12 attempts. */
  lemma DefaultLimits()
    ensures LimitsOf(Defaults) == Limits(40, 80, 8, 25, 25, 12)
  {
  }

  // ----- one generation call -----

  /** A generation loop's state: the records collected, the attempts made, and every prompt the command has sent. */
  datatype Gen = Gen(items: seq<Item>, attempts: nat, sent: seq<Prompt>)

  /**
    The body of the `try` of one attempt after the generation call: the reply
    stripped and parsed (a repair, if any, is the next call, number k), then
    `data.get(key, []) or []`. Any exception raised on the way is the error,
    and the attempt adds nothing.
   */
  function Fetch(reply: Reply, key: string, loads: Loads, llm: Oracle, k: nat): (r: (Result<seq<Item>, PyError>, seq<Prompt>))
    ensures r.1 == [] || (|r.1| == 1 && r.1[0].RepairPrompt?)
    ensures reply.Failed? ==> r == (Err(reply.error), [])
    ensures r.0.Ok? ==> reply.Answer?
  {
    match reply
    case Failed(e) => (Err(e), [])
    case Answer(text) =>
      var p := ParseJsonRobust(Strip(text), loads, llm, k);
      if p.result.Err? then (Err(p.result.error), p.prompts)
      else (BatchOf(p.result.value, key), p.prompts)
  }

  /** How many records an attempt asks for: `min(batch, target - len(collected))`. */
  function Requested(batch: nat, target: int, have: nat): (n: nat)
    requires batch >= 1 && have < target
    ensures 1 <= n <= batch && have + n <= target
    ensures n == batch || have + n == target
  {
    Min(batch, target - have) as nat
  }

  // ----- the applications loop -----

  /** `[_clean_str(a.get("name"), 200, "") for a in collected_apps]`: the names the prompt asks to avoid. */
  function AvoidNames(items: seq<Item>): (r: seq<string>)
    ensures |r| == |items|
  {
    seq(|items|, i requires 0 <= i < |items| =>
      if items[i].Record? then CleanStr(Get(items[i].fields, "name"), 200, "") else "")
  }

  /** The prompt of the next attempt of the applications loop: the number asked for, and at most the first 200 names to avoid. */
  function AppsPromptFor(g: Gen, l: Limits): Prompt
    requires l.appBatch >= 1 && |g.items| < l.targetApps
  {
    AppsPrompt(Requested(l.appBatch, l.targetApps, |g.items|), SliceTo(AvoidNames(g.items), 200))
  }

  /** The prompt asks for the next batch and names the first 200 collected applications, cleaned, in collection order. */
  lemma AppsPromptAvoids(g: Gen, l: Limits)
    requires l.appBatch >= 1 && |g.items| < l.targetApps
    ensures var p := AppsPromptFor(g, l);
      && p.count == Requested(l.appBatch, l.targetApps, |g.items|)
      && |p.avoid| == Min(|g.items|, 200)
      && forall i :: 0 <= i < |p.avoid| ==> g.items[i].Record? ==> p.avoid[i] == CleanStr(Get(g.items[i].fields, "name"), 200, "")
  {
    var all := AvoidNames(g.items);
    var p := AppsPromptFor(g, l);
    forall i | 0 <= i < |p.avoid|
      ensures g.items[i].Record? ==> p.avoid[i] == CleanStr(Get(g.items[i].fields, "name"), 200, "")
    {
      assert p.avoid[i] == all[..|p.avoid|][i] == all[i];
    }
  }

  /**
    What an attempt's batch does to the collected list: nothing when the
    attempt raised; otherwise the batch is deduplicated and each application
    whose name is new, case-insensitively, is appended.
   */
  function Merge(items: seq<Item>, batch: Result<seq<Item>, PyError>): (r: seq<Item>)
    ensures |r| <= |items| + (if batch.Ok? then |batch.value| else 0)
  {
    if batch.Ok? && Dedupe(batch.value).Ok? then KeepFirst(items + Dedupe(batch.value).value, NameKey, HasName)
    else items
  }

  /** The generation call of the next attempt (call number `len(sent)`) and what it yields. */
  function AppsFetch(g: Gen, l: Limits, llm: Oracle, loads: Loads): (Result<seq<Item>, PyError>, seq<Prompt>)
    requires l.appBatch >= 1 && |g.items| < l.targetApps
  {
    Fetch(llm(|g.sent|, AppsPromptFor(g, l)), "applications", loads, llm, |g.sent| + 1)
  }

  /** One attempt of the applications loop: the generation call, then the batch merged. */
  function AppsAttempt(g: Gen, l: Limits, llm: Oracle, loads: Loads): (r: Gen)
    requires l.appBatch >= 1 && |g.items| < l.targetApps
    ensures r.attempts == g.attempts + 1
    ensures |g.sent| < |r.sent| && r.sent[|g.sent|] == AppsPromptFor(g, l)
  {
    var f := AppsFetch(g, l, llm, loads);
    Gen(Merge(g.items, f.0), g.attempts + 1, g.sent + [AppsPromptFor(g, l)] + f.1)
  }

  /** The applications loop from state g: another attempt while the target is not reached and attempts remain. */
  function AppsFrom(g: Gen, l: Limits, llm: Oracle, loads: Loads): (r: Gen)
    requires l.appBatch >= 1
    ensures g.attempts <= r.attempts && (g.attempts <= l.appAttempts ==> r.attempts <= l.appAttempts)
    ensures |r.items| < l.targetApps ==> r.attempts >= l.appAttempts
    decreases l.appAttempts - g.attempts
  {
    if |g.items| < l.targetApps && g.attempts < l.appAttempts then
      AppsFrom(AppsAttempt(g, l, llm, loads), l, llm, loads)
    else g
  }

  /** The whole applications loop, from nothing collected and no prompt sent. */
  function Apps(l: Limits, llm: Oracle, loads: Loads): (r: Gen)
    requires l.appBatch >= 1
    ensures r.attempts <= l.appAttempts
    ensures |r.items| < l.targetApps ==> r.attempts == l.appAttempts
  {
    AppsFrom(Gen([], 0, []), l, llm, loads)
  }

  /** What the loop keeps of `collected_apps`: every entry named, no two with the same case-insensitive name. */
  predicate AppsClean(items: seq<Item>) {
    DistinctKeys(items) && forall i :: 0 <= i < |items| ==> HasName(items[i])
  }

  /** Every prompt the applications loop sends asks for 1 to `batch` applications, or is a repair. */
  predicate AppsLog(sent: seq<Prompt>, batch: nat) {
    forall i :: 0 <= i < |sent| ==> (sent[i].AppsPrompt? && 1 <= sent[i].count <= batch) || sent[i].RepairPrompt?
  }

  /** `xs` begins with `pre`. */
  predicate Extends<T(==)>(xs: seq<T>, pre: seq<T>) {
    |pre| <= |xs| && xs[..|pre|] == pre
  }

  /** A list that begins with one that begins with `pre` begins with `pre`. */
  lemma ExtendsTrans<T>(xs: seq<T>, ys: seq<T>, pre: seq<T>)
    requires Extends(xs, ys) && Extends(ys, pre)
    ensures Extends(xs, pre)
  {
    assert xs[..|ys|][..|pre|] == xs[..|pre|];
  }

  /** A named list without repeated keys is its own keep-first deduplication. */
  lemma {:induction false} KeepFirstFixed<T>(s: seq<T>, key: T -> string, named: T -> bool)
    requires DistinctBy(s, key) && forall i :: 0 <= i < |s| ==> named(s[i])
    ensures KeepFirst(s, key, named) == s
  {
    if s != [] {
      var init := s[..|s| - 1];
      assert forall i :: 0 <= i < |init| ==> init[i] == s[i];
      KeepFirstFixed(init, key, named);
      var x := s[|s| - 1];
      assert key(x) !in KeysOf(init, key);
      assert init + [x] == s;
    }
  }

  /** Keep-first deduplication of a longer list keeps the result for its prefix: collected applications are never dropped. */
  lemma {:induction false} KeepFirstExtends<T>(s: seq<T>, t: seq<T>, key: T -> string, named: T -> bool)
    requires KeepFirst(s, key, named) == s
    ensures |s| <= |KeepFirst(s + t, key, named)| && KeepFirst(s + t, key, named)[..|s|] == s
  {
    if t == [] {
      assert s + t == s;
    } else {
      var init := t[..|t| - 1];
      KeepFirstExtends(s, init, key, named);
      assert (s + t)[..|s + t| - 1] == s + init;
    }
  }

  /** Merging keeps the collected list clean and never drops an entry. */
  lemma MergeKeeps(items: seq<Item>, batch: Result<seq<Item>, PyError>)
    requires AppsClean(items)
    ensures AppsClean(Merge(items, batch)) && Extends(Merge(items, batch), items)
  {
    if batch.Ok? && Dedupe(batch.value).Ok? {
      var s := items + Dedupe(batch.value).value;
      KeepFirstFixed(items, NameKey, HasName);
      KeepFirstExtends(items, Dedupe(batch.value).value, NameKey, HasName);
      KeepFirstDistinct(s, NameKey, HasName);
      KeepFirstFromInput(s, NameKey, HasName);
    }
  }

  /**
    One attempt keeps the collected list clean and extends it; it sends the
    applications prompt, asking for 1 to `batch` applications, and at most
    one repair prompt. A failed generation call adds nothing.
   */
  lemma AppsAttemptKeeps(g: Gen, l: Limits, llm: Oracle, loads: Loads)
    requires l.appBatch >= 1 && |g.items| < l.targetApps
    requires AppsClean(g.items) && AppsLog(g.sent, l.appBatch)
    ensures var h := AppsAttempt(g, l, llm, loads);
      && AppsClean(h.items) && Extends(h.items, g.items)
      && AppsLog(h.sent, l.appBatch) && Extends(h.sent, g.sent)
      && h.attempts == g.attempts + 1
      && |g.sent| + 1 <= |h.sent| <= |g.sent| + 2 && h.sent[|g.sent|] == AppsPromptFor(g, l)
    ensures llm(|g.sent|, AppsPromptFor(g, l)).Failed? ==> AppsAttempt(g, l, llm, loads).items == g.items
  {
    var prompt := AppsPromptFor(g, l);
    var f := AppsFetch(g, l, llm, loads);
    AppsLogGrows(g.sent, prompt, f.1, l.appBatch);
    MergeKeeps(g.items, f.0);
  }

  /** An applications prompt for 1 to `batch` records, then repairs, keep the log's shape. */
  lemma AppsLogGrows(sent: seq<Prompt>, prompt: Prompt, more: seq<Prompt>, batch: nat)
    requires AppsLog(sent, batch) && prompt.AppsPrompt? && 1 <= prompt.count <= batch
    requires more == [] || (|more| == 1 && more[0].RepairPrompt?)
    ensures AppsLog(sent + [prompt] + more, batch) && Extends(sent + [prompt] + more, sent)
  {
    var t := sent + [prompt] + more;
    assert t[..|sent|] == sent;
    forall i | 0 <= i < |t| ensures (t[i].AppsPrompt? && 1 <= t[i].count <= batch) || t[i].RepairPrompt? {
      if i < |sent| {
        assert t[i] == sent[i];
      } else if i > |sent| {
        assert t[i] == more[i - |sent| - 1];
      }
    }
  }

  /**
    The applications loop stops after at most `max_attempts` attempts, and
    before that only once the target is reached; it keeps the collected list
    clean, never drops an entry, and sends at most two prompts per attempt.
   */
  lemma {:induction false} AppsFromKeeps(g: Gen, l: Limits, llm: Oracle, loads: Loads)
    requires l.appBatch >= 1 && g.attempts <= l.appAttempts
    requires AppsClean(g.items) && AppsLog(g.sent, l.appBatch)
    ensures var h := AppsFrom(g, l, llm, loads);
      && g.attempts <= h.attempts <= l.appAttempts
      && (|h.items| < l.targetApps ==> h.attempts == l.appAttempts)
      && AppsClean(h.items) && Extends(h.items, g.items)
      && AppsLog(h.sent, l.appBatch) && Extends(h.sent, g.sent)
      && |h.sent| <= |g.sent| + 2 * (h.attempts - g.attempts)
    decreases l.appAttempts - g.attempts
  {
    if |g.items| < l.targetApps && g.attempts < l.appAttempts {
      var h := AppsAttempt(g, l, llm, loads);
      AppsAttemptKeeps(g, l, llm, loads);
      AppsFromKeeps(h, l, llm, loads);
      var r := AppsFrom(h, l, llm, loads);
      assert AppsFrom(g, l, llm, loads) == r;
      ExtendsTrans(r.items, h.items, g.items);
      ExtendsTrans(r.sent, h.sent, g.sent);
    }
  }

  /** A target of zero or less: the loop makes no attempt and collects nothing. */
  lemma NoTargetNoApps(l: Limits, llm: Oracle, loads: Loads)
    requires l.appBatch >= 1 && l.targetApps <= 0
    ensures Apps(l, llm, loads) == Gen([], 0, [])
  {
  }

  /**
    The merge at the end of an applications attempt, for any key: each
    element of the batch that is named and whose key is not among the
    collected keys is appended. The collected list is already deduplicated. The command uses it with the cleaned name
    and its lower-cased form.
   */
  method MergeNew<T>(items: seq<T>, batch: seq<T>, key: T -> string, named: T -> bool) returns (out: seq<T>)
    requires KeepFirst(items, key, named) == items
    ensures out == KeepFirst(items + batch, key, named)
  {
    var s := items + batch;
    assert s[..|items|] == items;
    out := items;
    var existing := KeysOf(items, key);
    for j := |items| to |s|
      invariant out == KeepFirst(s[..j], key, named)
      invariant existing == KeysOf(out, key)
    {
      var x := s[j];
      KeepFirstStep(s, j, key, named);
      if named(x) && key(x) !in existing {
        KeysOfAppend(out, x, key);
        out := out + [x];
        existing := existing + {key(x)};
      }
    }
    assert s[..|s|] == s;
  }

  /**
    The `try` body after parsing: the batch deduplicated, then merged into
    the collected list; an exception on the way leaves the list as it was.
   */
  method MergeBatch(items: seq<Item>, batch: Result<seq<Item>, PyError>) returns (out: seq<Item>)
    requires AppsClean(items)
    ensures out == Merge(items, batch)
  {
    out := items;
    if batch.Err? {
      return;
    }
    var deduped := DedupeAppsKeepOrder(batch.value);
    if deduped.Err? {
      return;
    }
    KeepFirstFixed(items, NameKey, HasName);
    out := MergeNew(items, deduped.value, NameKey, HasName);
  }

  // ----- the integrations loop -----

  /** The prompt of the next attempt of the integrations loop. */
  function IntsPromptFor(g: Gen, l: Limits, names: seq<string>): Prompt
    requires l.intBatch >= 1 && |g.items| < l.targetIntegrations
  {
    IntegrationsPrompt(names, Requested(l.intBatch, l.targetIntegrations, |g.items|))
  }

  /** The generation call of the next integrations attempt and what it yields. */
  function IntsFetch(g: Gen, l: Limits, names: seq<string>, llm: Oracle, loads: Loads): (Result<seq<Item>, PyError>, seq<Prompt>)
    requires l.intBatch >= 1 && |g.items| < l.targetIntegrations
  {
    Fetch(llm(|g.sent|, IntsPromptFor(g, l, names)), "integrations", loads, llm, |g.sent| + 1)
  }

  /** One attempt of the integrations loop: the batch is appended as it is. */
  function IntsAttempt(g: Gen, l: Limits, names: seq<string>, llm: Oracle, loads: Loads): (r: Gen)
    requires l.intBatch >= 1 && |g.items| < l.targetIntegrations
    ensures r.attempts == g.attempts + 1 && |g.items| <= |r.items| && |g.sent| < |r.sent|
  {
    var f := IntsFetch(g, l, names, llm, loads);
    Gen(if f.0.Ok? then g.items + f.0.value else g.items, g.attempts + 1, g.sent + [IntsPromptFor(g, l, names)] + f.1)
  }

  /** The integrations loop from state g. */
  function IntsFrom(g: Gen, l: Limits, names: seq<string>, llm: Oracle, loads: Loads): (r: Gen)
    requires l.intBatch >= 1
    ensures g.attempts <= r.attempts && (g.attempts <= l.intAttempts ==> r.attempts <= l.intAttempts)
    ensures |r.items| < l.targetIntegrations ==> r.attempts >= l.intAttempts
    decreases l.intAttempts - g.attempts
  {
    if |g.items| < l.targetIntegrations && g.attempts < l.intAttempts then
      IntsFrom(IntsAttempt(g, l, names, llm, loads), l, names, llm, loads)
    else g
  }

  /** Every prompt sent after `from` asks for 1 to `batch` integrations among `names`, or is a repair. */
  predicate IntsLog(sent: seq<Prompt>, from: nat, names: seq<string>, batch: nat) {
    forall i :: from <= i < |sent| ==>
      (sent[i].IntegrationsPrompt? && sent[i].appNames == names && 1 <= sent[i].count <= batch) || sent[i].RepairPrompt?
  }

  /**
    The integrations loop stops after at most `int_max_attempts` attempts,
    and before that only once the target is reached; it never drops a record,
    keeps the prompts sent before it, and sends at most two prompts per attempt.
   */
  lemma {:induction false} IntsFromKeeps(g: Gen, l: Limits, names: seq<string>, llm: Oracle, loads: Loads, from: nat)
    requires l.intBatch >= 1 && g.attempts <= l.intAttempts
    requires from <= |g.sent| && IntsLog(g.sent, from, names, l.intBatch)
    ensures var h := IntsFrom(g, l, names, llm, loads);
      && g.attempts <= h.attempts <= l.intAttempts
      && (|h.items| < l.targetIntegrations ==> h.attempts == l.intAttempts)
      && Extends(h.items, g.items)
      && Extends(h.sent, g.sent) && IntsLog(h.sent, from, names, l.intBatch)
      && |h.sent| <= |g.sent| + 2 * (h.attempts - g.attempts)
    decreases l.intAttempts - g.attempts
  {
    if |g.items| < l.targetIntegrations && g.attempts < l.intAttempts {
      var h := IntsAttempt(g, l, names, llm, loads);
      IntsAttemptKeeps(g, l, names, llm, loads, from);
      IntsFromKeeps(h, l, names, llm, loads, from);
      var r := IntsFrom(h, l, names, llm, loads);
      assert IntsFrom(g, l, names, llm, loads) == r;
      ExtendsTrans(r.items, h.items, g.items);
      ExtendsTrans(r.sent, h.sent, g.sent);
    }
  }

  /**
    One attempt of the integrations loop keeps every record, sends the
    integrations prompt over `names` and at most one repair prompt.
   */
  lemma IntsAttemptKeeps(g: Gen, l: Limits, names: seq<string>, llm: Oracle, loads: Loads, from: nat)
    requires l.intBatch >= 1 && |g.items| < l.targetIntegrations
    requires from <= |g.sent| && IntsLog(g.sent, from, names, l.intBatch)
    ensures var h := IntsAttempt(g, l, names, llm, loads);
      && Extends(h.items, g.items)
      && Extends(h.sent, g.sent) && IntsLog(h.sent, from, names, l.intBatch)
      && h.attempts == g.attempts + 1
      && |g.sent| + 1 <= |h.sent| <= |g.sent| + 2 && h.sent[|g.sent|] == IntsPromptFor(g, l, names)
  {
    var prompt := IntsPromptFor(g, l, names);
    var f := IntsFetch(g, l, names, llm, loads);
    IntsLogGrows(g.sent, from, prompt, f.1, names, l.intBatch);
    if f.0.Ok? {
      assert (g.items + f.0.value)[..|g.items|] == g.items;
    }
  }

  /** An integrations prompt over `names` for 1 to `batch` records, then repairs, keep the log's shape. */
  lemma IntsLogGrows(sent: seq<Prompt>, from: nat, prompt: Prompt, more: seq<Prompt>, names: seq<string>, batch: nat)
    requires from <= |sent| && IntsLog(sent, from, names, batch)
    requires prompt.IntegrationsPrompt? && prompt.appNames == names && 1 <= prompt.count <= batch
    requires more == [] || (|more| == 1 && more[0].RepairPrompt?)
    ensures IntsLog(sent + [prompt] + more, from, names, batch) && Extends(sent + [prompt] + more, sent)
  {
    var t := sent + [prompt] + more;
    assert t[..|sent|] == sent;
    forall i | from <= i < |t|
      ensures (t[i].IntegrationsPrompt? && t[i].appNames == names && 1 <= t[i].count <= batch) || t[i].RepairPrompt?
    {
      if i < |sent| {
        assert t[i] == sent[i];
      } else if i > |sent| {
        assert t[i] == more[i - |sent| - 1];
      }
    }
  }


  /** The fallback records `_fallback_integrations(app_names, missing)` adds. */
  function FallbackList(names: seq<string>, n: nat, draws: nat -> Rand.Draws): (r: seq<Item>)
    ensures |names| < 2 ==> r == []
    ensures |names| >= 2 ==> |r| == n
  {
    if |names| < 2 then [] else seq(n, k requires 0 <= k < n => FallbackFor(names, draws(k)))
  }

  /** The collected integrations topped up with fallback records when the loop fell short of the target. */
  function TopUp(items: seq<Item>, target: nat, names: seq<string>, draws: nat -> Rand.Draws): (r: seq<Item>)
    ensures |items| <= |r| && (|items| >= target ==> r == items)
  {
    if |items| < target then items + FallbackList(names, target - |items|, draws) else items
  }

  /** With two application names or more, the top-up reaches the target; it always keeps the collected records first. */
  lemma TopUpReaches(items: seq<Item>, target: nat, names: seq<string>, draws: nat -> Rand.Draws)
    ensures Extends(TopUp(items, target, names, draws), items)
    ensures |names| >= 2 ==> |TopUp(items, target, names, draws)| >= target
    ensures |names| < 2 ==> TopUp(items, target, names, draws) == items
  {
    if |items| < target {
      assert (items + FallbackList(names, target - |items|, draws))[..|items|] == items;
    }
  }

  // ----- normalisation and truncation -----

  /**
    A list comprehension whose element function may raise: the results in
    order, or the error of the first element that raises.
   */
  function MapOk<U>(items: seq<Item>, f: (nat, Item) -> Result<U, PyError>): (r: Result<seq<U>, PyError>)
    ensures r.Ok? <==> forall i :: 0 <= i < |items| ==> f(i, items[i]).Ok?
    ensures r.Ok? ==> |r.value| == |items| && forall i :: 0 <= i < |items| ==> f(i, items[i]) == Ok(r.value[i])
    ensures r.Err? ==> exists i :: 0 <= i < |items| && f(i, items[i]) == Err(r.error)
                                && forall j :: 0 <= j < i ==> f(j, items[j]).Ok?
  {
    if items == [] then Ok([])
    else
      var init := items[..|items| - 1];
      assert forall i :: 0 <= i < |init| ==> init[i] == items[i];
      var prev := MapOk(init, f);
      if prev.Err? then prev
      else
        var last := f(|items| - 1, items[|items| - 1]);
        if last.Err? then Err(last.error) else Ok(prev.value + [last.value])
  }

  /** Python's slice `s[:t]`: a negative bound counts from the end. */
  function SliceTo<T>(s: seq<T>, t: int): (r: seq<T>)
    ensures t >= 0 ==> |r| == Min(|s|, t)
    ensures Extends(s, r)
  {
    if t >= |s| then s
    else if t >= 0 then s[..t]
    else if |s| + t >= 0 then s[..|s| + t]
    else []
  }

  /** `[_normalize_app(a) for a in collected_apps]`, record i using the i-th draws. */
  function NormalizeApps(items: seq<Item>, draws: nat -> Rand.Draws): (r: Result<seq<AppRecord>, PyError>)
    ensures r.Ok? ==> |r.value| == |items| && forall i :: 0 <= i < |r.value| ==> ValidApp(r.value[i])
  {
    var f := (i: nat, it: Item) => NormalizeApp(it, draws(i));
    var r := MapOk(items, f);
    assert r.Ok? ==> forall i :: 0 <= i < |r.value| ==> ValidApp(r.value[i]) by {
      if r.Ok? {
        forall i | 0 <= i < |r.value| ensures ValidApp(r.value[i]) {
          assert f(i, items[i]) == Ok(r.value[i]);
          assert NormalizeApp(items[i], draws(i)) == Ok(r.value[i]);
        }
      }
    }
    r
  }

  /** `[_normalize_integration(i) for i in collected_integrations]`, record i using the i-th draws. */
  function NormalizeIntegrations(items: seq<Item>, draws: nat -> Rand.Draws): (r: Result<seq<IntegrationRecord>, PyError>)
    ensures r.Ok? ==> |r.value| == |items|
    ensures r.Ok? ==> forall i :: 0 <= i < |r.value| ==> ValidIntegration(r.value[i])
  {
    var f := (i: nat, it: Item) => NormalizeIntegration(it, draws(i));
    var r := MapOk(items, f);
    assert r.Ok? ==> forall i :: 0 <= i < |r.value| ==> ValidIntegration(r.value[i]) by {
      if r.Ok? {
        forall i | 0 <= i < |r.value| ensures ValidIntegration(r.value[i]) {
          assert f(i, items[i]) == Ok(r.value[i]);
          assert NormalizeIntegration(items[i], draws(i)) == Ok(r.value[i]);
        }
      }
    }
    r
  }

  /** The applications `handle` seeds: the collected list normalised, then cut to `target_apps`. */
  function AppRecords(items: seq<Item>, target: int, draws: nat -> Rand.Draws): (r: Result<seq<AppRecord>, PyError>)
    ensures r.Ok? <==> NormalizeApps(items, draws).Ok?
    ensures r.Ok? && target >= 0 ==> |r.value| == Min(|items|, target)
  {
    var all := NormalizeApps(items, draws);
    if all.Err? then Err(all.error) else Ok(SliceTo(all.value, target))
  }

  /** The integrations `handle` persists: the topped-up list normalised, then cut to the target. */
  function IntegrationRecords(items: seq<Item>, target: int, draws: nat -> Rand.Draws): (r: Result<seq<IntegrationRecord>, PyError>)
    ensures r.Ok? <==> NormalizeIntegrations(items, draws).Ok?
    ensures r.Ok? && target >= 0 ==> |r.value| == Min(|items|, target)
  {
    var all := NormalizeIntegrations(items, draws);
    if all.Err? then Err(all.error) else Ok(SliceTo(all.value, target))
  }

  /**
    What `handle` seeds from a clean collected list: nothing exactly when
    nothing was collected, at most `target_apps` applications, and pairwise
    different names.
   */
  lemma AppRecordsFacts(items: seq<Item>, target: int, draws: nat -> Rand.Draws)
    requires AppsClean(items) && (items != [] ==> target >= 1)
    ensures AppRecords(items, target, draws) == Ok([]) <==> items == []
    ensures AppRecords(items, target, draws).Ok? ==>
      |AppRecords(items, target, draws).value| <= Max(target, 0) && Rand.Distinct(Names(AppRecords(items, target, draws).value))
  {
    var all := NormalizeApps(items, draws);
    if all.Ok? {
      NormalizedNamesDistinct(items, draws);
      var cut := SliceTo(all.value, target);
      assert Names(all.value)[..|cut|] == Names(cut);
      PrefixDistinct(Names(all.value), Names(cut));
    }
  }

  /** `list(name_to_app.keys())` once the names are distinct: the names in seeding order. */
  function Names(norm: seq<AppRecord>): (r: seq<string>)
    ensures |r| == |norm| && forall i :: 0 <= i < |norm| ==> r[i] == norm[i].name
  {
    seq(|norm|, i requires 0 <= i < |norm| => norm[i].name)
  }

  /**
    Normalising a clean collected list gives applications with pairwise
    different names: each name strips to the application's cleaned name,
    and those differ even case-insensitively.
   */
  lemma NormalizedNamesDistinct(items: seq<Item>, draws: nat -> Rand.Draws)
    requires AppsClean(items) && NormalizeApps(items, draws).Ok?
    ensures Rand.Distinct(Names(NormalizeApps(items, draws).value))
  {
    var norm := NormalizeApps(items, draws).value;
    forall a, b | 0 <= a < b < |norm| ensures norm[a].name != norm[b].name {
      assert NormalizeApp(items[a], draws(a)) == Ok(norm[a]);
      assert NormalizeApp(items[b], draws(b)) == Ok(norm[b]);
    }
  }

  /** A prefix of a list without repeats has no repeats. */
  lemma PrefixDistinct<T>(s: seq<T>, p: seq<T>)
    requires Rand.Distinct(s) && Extends(s, p)
    ensures Rand.Distinct(p)
  {
    forall a, b | 0 <= a < b < |p| ensures p[a] != p[b] {
      assert p[a] == s[a] && p[b] == s[b];
    }
  }

  /** The names `name_to_app` holds after a successful seeding pass are the seeded names. */
  lemma {:induction false} SeedRowsKeys(apps: seq<AppRow>, norm: seq<AppRecord>)
    requires IdOrdered(apps) && SeedRows(apps, norm).Ok?
    ensures forall name :: name in SeedRows(apps, norm).value.nameToApp ==> name in Names(norm)
    decreases |norm|
  {
    if norm != [] {
      var init := norm[..|norm| - 1];
      SeedRowsKeys(apps, init);
      assert forall name :: name in Names(init) ==> name in Names(norm) by {
        forall name | name in Names(init) ensures name in Names(norm) {
          var i :| 0 <= i < |init| && Names(init)[i] == name;
          assert Names(norm)[i] == name;
        }
      }
      assert Names(norm)[|norm| - 1] == norm[|norm| - 1].name;
    }
  }

  // ----- the command -----

  /** Where the randomness of each phase comes from: the generator, the JSON parser and the random draws. */
  datatype World = World(
    llm: Oracle, loads: Loads,
    appDraws: nat -> Rand.Draws, capabilityDraws: nat -> Rand.Draws, debtDraws: nat -> Rand.Draws,
    fallbackDraws: nat -> Rand.Draws, integrationDraws: nat -> Rand.Draws, ringDraws: nat -> Rand.Draws)

  /** How `handle` ends. */
  datatype Outcome =
    | NothingToSeed                        // "No applications generated. Nothing to seed."
    | Crashed(error: PyError)              // an exception escaped `handle`
    | Finished(seeded: nat, debtsCreated: nat, created: nat, skipped: nat, ensured: nat)
}

=== FILE: seed_helpers.dfy ===
/**
  The enumerated sets, pools and small field helpers of the seeding command:
  `_norm`, `_clean_str`, `_clean_text`, `_pick` and `_severity_from_debt_score`.
 */
module SeedHelpers {
  import opened PyText
  import opened JsonValues
  import Rand

  // The allowed values of the enumerated fields (Python sets; only membership is used).
  const AllowedCriticality: seq<string> := ["Low", "Medium", "High"]
  const AllowedLifecycle: seq<string> := ["Active", "Legacy", "Decommissioning"]
  const AllowedEnv: seq<string> := ["DEV", "UAT", "PROD"]
  const AllowedHosting: seq<string> := ["on-prem", "cloud", "hybrid"]
  const AllowedSensitivity: seq<string> := ["Low", "Medium", "High"]
  const AllowedIntegrationType: seq<string> := ["API", "file", "message"]
  const AllowedDirection: seq<string> := ["sync", "async"]

  // The pools random picks are drawn from.
  const OwnersBusiness: seq<string> := [
    "Head of Payments", "Head of Retail Banking", "Head of Risk", "Head of Compliance",
    "Head of Treasury", "Head of CRM", "Head of Data", "Head of Security"]
  const OwnersIt: seq<string> := [
    "IT Ops Lead", "Platform Lead", "Integration Lead", "Data Engineering Lead",
    "App Support Lead", "Cloud Lead", "Security Engineering Lead"]
  const DbTech: seq<string> := ["PostgreSQL", "Oracle", "MS SQL Server", "MySQL", "MongoDB", "DB2", "SQLite"]
  const VendorProducts: seq<string> := [
    "SAP PI/PO", "IBM MQ", "Kafka", "MuleSoft", "Apigee", "Temenos T24",
    "Oracle Exadata", "Azure Service Bus", "AWS SQS", "Elastic Stack"]
  const CapabilitiesPool: seq<string> := [
    "Customer Onboarding", "KYC/AML Screening", "Payments Processing",
    "Card Management", "Loan Origination", "Fraud Detection", "Reporting & BI",
    "Document Management", "Customer Support", "Authentication/SSO"]
  const TechDebtCategories: seq<string> := ["Security", "Upgrade", "Performance", "CodeQuality", "Observability", "Reliability"]
  const TechDebtStatus: seq<string> := ["Open", "InProgress", "Done", "WontFix"]
  const TechDebtSeverity: seq<string> := ["Low", "Medium", "High", "Critical"]
  const TransportPool: seq<string> := ["REST", "SOAP", "SFTP", "Kafka", "IBM MQ", "gRPC", "Webhooks"]
  const FrequencyPool: seq<string> := ["realtime", "hourly", "daily", "weekly", "batch-nightly"]

  /**
    `_norm(v, allowed, fallback)`: the stripped text of v when it is one of the
    allowed values (matched exactly, case included), the fallback otherwise.
   */
  function Norm(v: Value, allowed: seq<string>, fallback: string): (r: string)
    ensures r in allowed || r == fallback
    ensures v.Null? ==> r == fallback
    ensures r != fallback ==> !v.Null? && r == Strip(PyStr(v))
  {
    if v.Null? then fallback
    else
      var s := Strip(PyStr(v));
      if s in allowed then s else fallback
  }

  /** A fallback drawn from the allowed set keeps every result inside the set. */
  lemma NormStaysInSet(v: Value, allowed: seq<string>, fallback: string)
    requires fallback in allowed
    ensures Norm(v, allowed, fallback) in allowed
  {
  }

  /** An allowed value, with any whitespace around it, is kept as it is. */
  lemma NormKeepsAllowed(pre: string, x: string, post: string, allowed: seq<string>, fallback: string)
    requires x in allowed && x != [] && !IsSpace(x[0]) && !IsSpace(x[|x| - 1])
    requires AllSpace(pre)
    requires AllSpace(post)
    ensures Norm(Str(pre + x + post), allowed, fallback) == x
  {
    StripAround(pre, x, post);
  }

  /** The shape `_clean_str` gives a text: no leading whitespace, and whitespace only as single spaces. */
  predicate CleanShaped(s: string) {
    SingleSpaced(s) && (s == [] || !IsSpace(s[0]))
  }

  /**
    `_clean_str(v, max_len, fallback)`: None gives the fallback; anything else is
    stripped, its whitespace runs collapsed to one space, and cut to max_len
    characters when max_len is not 0. The fallback is used only for None.
   */
  function CleanStr(v: Value, maxLen: nat, fallback: string): (r: string)
    ensures v.Null? ==> r == fallback
    ensures !v.Null? ==> CleanShaped(r)
    ensures !v.Null? && maxLen > 0 ==> |r| <= maxLen
    ensures v == Str("") ==> r == ""
    ensures !v.Null? ==> |r| <= |PyStr(v)|
  {
    if v.Null? then fallback
    else
      var s := CollapseSpaces(Strip(PyStr(v)));
      if maxLen > 0 then
        SingleSpacedPrefix(s, |Take(s, maxLen)|);
        Take(s, maxLen)
      else s
  }

  /** Already-clean text that fits is its own cleaning: cleaning has a fixed point on its range. */
  lemma CleanStrFixedPoint(s: string, maxLen: nat, fallback: string)
    requires Stripped(s) && SingleSpaced(s)
    requires maxLen == 0 || |s| <= maxLen
    ensures CleanStr(Str(s), maxLen, fallback) == s
  {
    StripOfStripped(s);
    CollapseSingleSpaced(s);
  }

  /** Collapsing whitespace changes nothing in a single-spaced text. */
  lemma {:induction false} CollapseSingleSpaced(s: string)
    requires SingleSpaced(s)
    ensures CollapseSpaces(s) == s
    decreases |s|
  {
    if s != [] {
      SingleSpacedTail(s);
      CollapseSingleSpaced(s[1..]);
      if IsSpace(s[0]) {
        LoneSpace(s);
      }
    }
  }

  lemma SingleSpacedTail(s: string)
    requires s != [] && SingleSpaced(s)
    ensures SingleSpaced(s[1..]) && s == [s[0]] + s[1..]
  {
  }

  /** A lone leading space is what the leading whitespace run consists of. */
  lemma LoneSpace(s: string)
    requires s != [] && SingleSpaced(s) && IsSpace(s[0])
    ensures s[0] == ' ' && LStrip(s) == s[1..]
  {
    assert |s| > 1 ==> !IsSpace(s[1]);
    assert |s| > 1 ==> s[1..][0] == s[1];
  }

  /**
    `_clean_text(v, max_len, fallback)`: None gives the fallback; anything else is
    stripped and cut to max_len characters (inner whitespace is kept).
   */
  function CleanText(v: Value, maxLen: nat, fallback: string): (r: string)
    ensures v.Null? ==> r == fallback
    ensures !v.Null? ==> |r| <= maxLen && |r| <= |Strip(PyStr(v))| && r == Strip(PyStr(v))[..|r|]
    ensures !v.Null? && |Strip(PyStr(v))| <= maxLen ==> r == Strip(PyStr(v))
    ensures !v.Null? ==> r == [] || !IsSpace(r[0])
  {
    if v.Null? then fallback else Take(Strip(PyStr(v)), maxLen)
  }

  /** `_pick(pool, fallback)`: a random member of the pool, or the fallback when the pool is empty. */
  function Pick(pool: seq<string>, fallback: string, x: nat): (r: string)
    ensures pool != [] ==> r in pool
    ensures pool == [] ==> r == fallback
  {
    if pool == [] then fallback else Rand.Choice(pool, x)
  }

  /**
    `_severity_from_debt_score(score)`: Critical from 80, High from 60, Medium
    from 30, Low below; each boundary belongs to the higher tier.
   */
  function SeverityFromDebtScore(score: int): (r: string)
    ensures r in TechDebtSeverity
    ensures r == "Critical" <==> score >= 80
    ensures r == "High" <==> 60 <= score < 80
    ensures r == "Medium" <==> 30 <= score < 60
    ensures r == "Low" <==> score < 30
  {
    if score >= 80 then "Critical"
    else if score >= 60 then "High"
    else if score >= 30 then "Medium"
    else "Low"
  }

  /** The position of a severity in the ladder Low < Medium < High < Critical. */
  function SeverityRank(severity: string): nat {
    if severity == "Critical" then 3
    else if severity == "High" then 2
    else if severity == "Medium" then 1
    else 0
  }

  /** A higher debt score never gives a lower severity. */
  lemma SeverityMonotonic(a: int, b: int)
    requires a <= b
    ensures SeverityRank(SeverityFromDebtScore(a)) <= SeverityRank(SeverityFromDebtScore(b))
  {
  }

  /** The examples of the severity ladder: 85, 65, 30 and 10, and the boundaries 80 and 60. */
  lemma SeverityExamples()
    ensures SeverityFromDebtScore(85) == "Critical" && SeverityFromDebtScore(80) == "Critical"
    ensures SeverityFromDebtScore(65) == "High" && SeverityFromDebtScore(60) == "High"
    ensures SeverityFromDebtScore(30) == "Medium" && SeverityFromDebtScore(10) == "Low"
  {
  }
}

=== FILE: seed_run.dfy ===
/**
  The imperative side of `Command.handle`: the two batched generation loops,
  the merge of each applications batch into the collected list, and the
  command itself, each proved equal to (or against) the specification in
  `SeedCommand`.
 */
module SeedRun {
  import opened Wrappers
  import opened JsonValues
  import opened Llm
  import opened Normalizer
  import opened Portfolio
  import opened SeedCommand
  import Rand

  // ----- the applications loop -----

  /**
    The applications loop of `handle`: attempts while fewer than
    `target_apps` applications are collected and fewer than `max_attempts`
    attempts were made. The list may overshoot the target.
   */
  method CollectApps(l: Limits, llm: Oracle, loads: Loads) returns (g: Gen)
    requires l.appBatch >= 1
    ensures g == Apps(l, llm, loads)
  {
    g := Gen([], 0, []);
    ghost var goal := Apps(l, llm, loads);
    while |g.items| < l.targetApps && g.attempts < l.appAttempts
      invariant AppsClean(g.items)
      invariant AppsFrom(g, l, llm, loads) == goal
      decreases l.appAttempts - g.attempts
    {
      var prompt := AppsPromptFor(g, l);
      var f := AppsFetch(g, l, llm, loads);
      MergeKeeps(g.items, f.0);
      var items := MergeBatch(g.items, f.0);
      ghost var next := AppsAttempt(g, l, llm, loads);
      assert items == next.items;
      g := Gen(items, g.attempts + 1, g.sent + [prompt] + f.1);
      assert g.sent == next.sent;
      assert g == next;
    }
  }

  // ----- the integrations loop -----

  /** The integrations loop of `handle`, continuing the command's call numbering after `sent`. */
  method CollectIntegrations(l: Limits, names: seq<string>, llm: Oracle, loads: Loads, sent: seq<Prompt>) returns (g: Gen)
    requires l.intBatch >= 1
    ensures g == IntsFrom(Gen([], 0, sent), l, names, llm, loads)
  {
    g := Gen([], 0, sent);
    ghost var goal := IntsFrom(g, l, names, llm, loads);
    while |g.items| < l.targetIntegrations && g.attempts < l.intAttempts
      invariant IntsFrom(g, l, names, llm, loads) == goal
      decreases l.intAttempts - g.attempts
    {
      var prompt := IntsPromptFor(g, l, names);
      var f := IntsFetch(g, l, names, llm, loads);
      var items := g.items;
      if f.0.Ok? {
        items := items + f.0.value;
      }
      ghost var next := IntsAttempt(g, l, names, llm, loads);
      assert items == next.items;
      g := Gen(items, g.attempts + 1, g.sent + [prompt] + f.1);
      assert g.sent == next.sent;
      assert g == next;
    }
  }

  // ----- the command -----

  /**
    The applications phase of `handle`: the generation loop, then every
    collected entry normalised and the list cut to `target_apps`. The
    seeded names are pairwise different, and nothing is left to seed
    exactly when the loop collected nothing.
   */
  method GenerateApps(l: Limits, w: World) returns (gen: Gen, norm: Result<seq<AppRecord>, PyError>)
    requires l.appBatch >= 1
    ensures gen == Apps(l, w.llm, w.loads)
    ensures norm == AppRecords(gen.items, l.targetApps, w.appDraws)
    ensures |gen.sent| <= 2 * l.appAttempts
    ensures norm == Ok([]) <==> gen.items == []
    ensures norm.Ok? ==> |norm.value| <= Max(l.targetApps, 0) && Rand.Distinct(Names(norm.value))
  {
    gen := CollectApps(l, w.llm, w.loads);
    AppsFromKeeps(Gen([], 0, []), l, w.llm, w.loads);
    if l.targetApps <= 0 {
      NoTargetNoApps(l, w.llm, w.loads);
    }
    norm := AppRecords(gen.items, l.targetApps, w.appDraws);
    AppRecordsFacts(gen.items, l.targetApps, w.appDraws);
  }

  /**
    The integrations phase of `handle`: the generation loop (its calls
    numbered after `sent`), the fallback top-up when it fell short, then
    every record normalised and the list cut to the target. With two
    application names or more, exactly the target is reached.
   */
  method GenerateIntegrations(l: Limits, names: seq<string>, w: World, sent: seq<Prompt>)
    returns (gen: Gen, records: Result<seq<IntegrationRecord>, PyError>)
    requires l.intBatch >= 1
    ensures gen == IntsFrom(Gen([], 0, sent), l, names, w.llm, w.loads)
    ensures records == IntegrationRecords(TopUp(gen.items, l.targetIntegrations, names, w.fallbackDraws),
                                          l.targetIntegrations, w.integrationDraws)
    ensures Extends(gen.sent, sent) && |gen.sent| <= |sent| + 2 * l.intAttempts
    ensures records.Ok? ==> |records.value| <= l.targetIntegrations
    ensures records.Ok? && |names| >= 2 ==> |records.value| == l.targetIntegrations
  {
    gen := CollectIntegrations(l, names, w.llm, w.loads, sent);
    IntsFromKeeps(Gen([], 0, sent), l, names, w.llm, w.loads, |sent|);
    var all := gen.items;
    if |all| < l.targetIntegrations {
      var fallback := FallbackIntegrations(names, l.targetIntegrations - |all|, w.fallbackDraws);
      all := all + fallback;
    }
    TopUpReaches(gen.items, l.targetIntegrations, names, w.fallbackDraws);
    assert all == TopUp(gen.items, l.targetIntegrations, names, w.fallbackDraws);
    var normAll := NormalizeIntegrations(all, w.integrationDraws);
    if normAll.Err? {
      return gen, Err(normAll.error);
    }
    records := Ok(SliceTo(normAll.value, l.targetIntegrations));
  }

  /**
    The database phases before the integrations: the applications seeded,
    the capability pool ensured and assigned to every application, and the
    debt items created. Returns `name_to_app` and how many debt items were
    created.
   */
  method SeedPhase(store: Store, norm: seq<AppRecord>, wipe: bool, w: World) returns (r: Result<(map<string, nat>, nat), PyError>)
    requires store.Valid()
    modifies store
    ensures store.Valid()
    ensures r.Ok? ==> forall n :: n in r.value.0 ==> r.value.0[n] in Ids(store.apps)
    ensures r.Ok? ==> forall i :: 0 <= i < |norm| ==> norm[i].name in r.value.0
    ensures r.Ok? ==> store.appCapabilities.Keys == Ids(store.apps)
    ensures r.Ok? ==> r.value.1 == |DebtsFor(store.apps, w.debtDraws)|
  {
    var seeded := store.SeedApps(norm, wipe);
    if seeded.Err? {
      return Err(seeded.error);
    }
    store.EnsureCapabilities();
    store.AssignCapabilities(w.capabilityDraws);
    var created := store.SeedDebtItems(w.debtDraws);
    r := Ok((seeded.value, created));
  }

  /**
    The database phases after the integrations are generated: each record
    upserted or skipped, then the ring pass. Returns how many were created,
    how many skipped, and how many ring edges were ensured.
   */
  method LinkPhase(store: Store, records: seq<IntegrationRecord>, nameToApp: map<string, nat>, draws: nat -> Rand.Draws)
    returns (r: Result<(nat, nat, nat), PyError>)
    requires store.Valid()
    requires forall n :: n in nameToApp ==> nameToApp[n] in Ids(store.apps)
    modifies store`edges
    ensures store.Valid()
    ensures r.Err? ==> store.edges == old(store.edges)
    ensures r.Ok? ==> r.value.1 == SkipCount(records, nameToApp) && r.value.0 + r.value.1 <= |records|
    ensures r.Ok? && |store.apps| >= 2 ==> forall k :: 0 <= k < |store.apps| ==>
      store.apps[k].id in Sources(store.edges) && store.apps[k].id in Targets(store.edges)
  {
    var persisted := store.PersistIntegrations(records, nameToApp);
    if persisted.Err? {
      return Err(persisted.error);
    }
    ghost var beforeRing := store.edges;
    var ensured := store.RingPass(draws);
    RingCovers(store.apps, beforeRing, draws);
    r := Ok((persisted.value.0, persisted.value.1, ensured));
  }

  /**
    `Command.handle`: generate and normalise the applications, seed them,
    assign capabilities and debt items, generate, top up and normalise the
    integrations, persist them, then run the ring pass. Returns how it ended
    and every prompt sent to the generator.
   */
  method Handle(store: Store, o: Options, w: World) returns (out: Outcome, sent: seq<Prompt>)
    requires store.Valid()
    modifies store
    ensures store.Valid()
    ensures out.NothingToSeed? <==> Apps(LimitsOf(o), w.llm, w.loads).items == []
    ensures out.NothingToSeed? ==>
      && store.apps == old(store.apps) && store.edges == old(store.edges) && store.debts == old(store.debts)
      && store.capabilities == old(store.capabilities) && store.appCapabilities == old(store.appCapabilities)
    ensures Extends(sent, Apps(LimitsOf(o), w.llm, w.loads).sent)
    ensures |sent| <= 2 * (LimitsOf(o).appAttempts + LimitsOf(o).intAttempts)
    ensures out.Finished? ==> 1 <= out.seeded <= o.apps
    ensures out.Finished? ==> out.created + out.skipped <= LimitsOf(o).targetIntegrations
    ensures out.Finished? && |store.apps| >= 2 ==> forall k :: 0 <= k < |store.apps| ==>
      store.apps[k].id in Sources(store.edges) && store.apps[k].id in Targets(store.edges)
  {
    var l := LimitsOf(o);
    var apps, norm := GenerateApps(l, w);
    sent := apps.sent;
    if norm.Err? {
      return Crashed(norm.error), sent;
    }
    if norm.value == [] {
      return NothingToSeed, sent;
    }
    var seeded := SeedPhase(store, norm.value, o.wipe, w);
    if seeded.Err? {
      return Crashed(seeded.error), sent;
    }
    var appNames := Names(norm.value);
    var ints, records := GenerateIntegrations(l, appNames, w, sent);
    ExtendsTrans(ints.sent, sent, apps.sent);
    sent := ints.sent;
    if records.Err? {
      return Crashed(records.error), sent;
    }
    var linked := LinkPhase(store, records.value, seeded.value.0, w.ringDraws);
    if linked.Err? {
      return Crashed(linked.error), sent;
    }
    out := Finished(|appNames|, seeded.value.1, linked.value.0, linked.value.1, linked.value.2);
  }
}

=== FILE: wrappers.dfy ===
/** Option and Result, plus the Python exceptions the modelled code raises or catches. */
module Wrappers {

  datatype Option<+T> = None | Some(value: T)

  datatype Result<+T, +E> = Ok(value: T) | Err(error: E)

  /** The exceptions that matter to the modelled code, by the class the source catches. */
  datatype PyError =
    | ValueError(message: string)   // int() of a malformed string, no JSON span found
    | TypeError                     // int() of a list or an object
    | OverflowError                 // int() of an infinite float
    | AttributeError                // `.get` on something that is not a dict
    | JsonDecodeError               // json.loads rejected its input
    | LlmError(message: string)     // the completion client failed
    | Unexpected                    // any other exception
}
